=== FILE: README.md ===
# Icon font drawable: a Dafny model

This project models the core of an Android icon-font library together with
the build script that exports its glyph manifest.

- **Export script.** `unicodeLiteral` and `fixedHex` turn each glyph's code
  point into a lower-case hex literal. `saveJson` writes the manifest as
  `{icons, version, fonts}`.
- **`IconTextDrawable`.** This is a drawable that renders a single glyph.
  The model covers:
  - the 128-entry LRU cache from hex code to character;
  - `parseTintMode`;
  - the root attributes and `<gradient>` children of `inflate`;
  - the gradient merge and the shader geometry of `ensureValidRect`;
  - the font-callback guard;
  - `mutate`;
  - the tint, shadow and gradient setters;
  - the state-change, level-change and bounds-change hooks;
  - `draw`.
- **Asset helpers (`Ktx.kt`).** These are memoised slots for the asset
  typeface and metadata, `assetIconNames` and `getAssetIconDrawable`.
- **`InflateContext.obtain`.** A list of weakly held contexts, scanned and
  pruned on each call.
- **Debug overlay geometry.** The mount-bounds border and corner bars from
  the main `DebugDraw` and the debug `DebugDraw`.

Text is modelled as UTF-16 code units (`Text.JString`). Kotlin's truncating
`/`, `%` and float-to-int conversion are written out in `KotlinInt`. Floats
are modelled as `real`.

Modules:

| module | models |
|---|---|
| `Wrappers` | `Option` and `Result` |
| `Text` | code-unit strings and ASCII lowercasing |
| `Hex` | hex digits and `String.toInt(16)` |
| `Json` | JSON values |
| `KotlinInt` | Kotlin integer operators |
| `Geometry` | `Rect` |
| `CodeCache` | the code cache |
| `Export` | the export script |
| `Tint` | tint mode and colour state lists |
| `Gradient` | merge and shader geometry |
| `IconText` | the drawable |
| `IconInflate` | `inflate` |
| `Assets` | `Ktx.kt` |
| `InflateContextCache` | `InflateContext.obtain` |
| `Overlay` | main `DebugDraw` |
| `OverlayDebugBuild` | debug `DebugDraw` |
| `Pipeline` | properties linking the exporter to the library |

## Model

| member | source | states |
|---|---|---|
| CodeCache.DecodeCode | iconfont/src/main/java/open/source/iconfont/IconTextDrawable.kt:38-44 | A key decodes exactly when `toInt(16)` accepts it. A decoded key always yields a one-character string. |
| CodeCache.DecodeDigits | iconfont/src/main/java/open/source/iconfont/IconTextDrawable.kt:40-43 | A key of plain hex digits whose value fits in an `Int` decodes to that value modulo 2^16 (`toChar` truncation). |
| CodeCache.Touch | iconfont/src/main/java/open/source/iconfont/IconTextDrawable.kt:40 | A cache hit moves the entry to the most-recent end. It keeps the key set and the cache invariant: distinct keys, and every value is the decode of its key. |
| CodeCache.Insert | iconfont/src/main/java/open/source/iconfont/IconTextDrawable.kt:38-40 | A miss appends the new entry. Below capacity 128 the key set grows by the key. At capacity the eldest key is evicted. The invariant is kept. |
| CodeCache.Get | iconfont/src/main/java/open/source/iconfont/IconTextDrawable.kt:38-44 | A lookup returns the key's decoding. A failed decode leaves the cache as it was. A success leaves the key as most recent, and the key set follows the LRU rules above. |
| CodeCache.SecondLookupHits | iconfont/src/main/java/open/source/iconfont/IconTextDrawable.kt:38-44 | After a successful lookup the key is cached, and looking it up again changes nothing. |
| Hex.ParseInt16 | iconfont/src/main/java/open/source/iconfont/IconTextDrawable.kt:42 | A parsed value lies in the 32-bit range, and the string does not end in a sign. For an all-hex-digit string the result is its value when that value fits in an `Int`, and a number-format error otherwise. |
| Hex.ToChar | iconfont/src/main/java/open/source/iconfont/IconTextDrawable.kt:42 | `Int.toChar` gives the unique code unit congruent to its input modulo 2^16. |
| Hex.UpperHexDigits | iconfont-export/gulpfile.js:16 | `toString(16).toUpperCase()` yields hex digits whose value is the number. It has no lower-case letters and no leading zero, and its length is the minimal number of digits. |
| Hex.HexValueLower | iconfont-export/gulpfile.js:32 | Lowercasing a hex string keeps it hex and keeps its value. |
| Hex.HexValueAppend | iconfont-export/gulpfile.js:16 | Appending a digit multiplies the value by 16 and adds the digit's value. |
| Export.PadLeft | iconfont-export/gulpfile.js:17-18 | The padding loop prepends exactly `max(len, |s|) - |s|` zeros. |
| Export.HexValueZeros | iconfont-export/gulpfile.js:17-18 | Leading zeros do not change a hex value. |
| Export.FixedHex | iconfont-export/gulpfile.js:15-20 | The result has length `max(len, digit count)` and the number's value, with its upper-case digits at the end. |
| Export.PieceShape | iconfont-export/gulpfile.js:26-29 | A printable ASCII unit is copied as is. Any other unit becomes four hex digits whose value is the unit. |
| Export.UnicodeLiteral | iconfont-export/gulpfile.js:14-33 | The literal contains no upper-case ASCII letter. |
| Export.LiteralLength | iconfont-export/gulpfile.js:24-29 | The literal is three units longer than its input for every non-printable unit. |
| Export.PrintableCopied | iconfont-export/gulpfile.js:24-32 | A printable string's literal is just the string, lowercased. |
| Export.SingleUnitLiteral | iconfont-export/gulpfile.js:14-33 | A single non-printable unit becomes four lower-case hex digits whose value is the unit. |
| Export.OrDefault | iconfont-export/gulpfile.js:9-10 | `argv[x] || default` picks the argument unless it is absent or empty. |
| Export.Icons | iconfont-export/gulpfile.js:36-39 | The icons object has exactly the entry names as keys, except `__proto__`, which an object literal does not store. |
| Export.IconsLastWins | iconfont-export/gulpfile.js:37-39 | When names repeat, the last entry's unicode wins. |
| Export.IconsValuesFromEntries | iconfont-export/gulpfile.js:36-39 | Every value in the icons object comes from an entry of that name. |
| Export.SaveJson | iconfont-export/gulpfile.js:9-46 | The manifest's icon table is the one built from the list, so its keys are the entry names other than `__proto__`. Its font list is `./<font name>.ttf`. A non-empty `--version` becomes the version, and an absent or empty one falls back to `0.0.1`, as the fallback at line 10 does. |
| Export.GlyphEntries | iconfont-export/gulpfile.js:62-67 | Each glyph maps to its name and the literal of its code point, in order. |
| Export.ExportGlyphs | iconfont-export/gulpfile.js:60-67 | The icon keys are the glyph names other than `__proto__`. Such a glyph whose name is not repeated later maps to its literal. |
| Export.ExportedFromGlyph | iconfont-export/gulpfile.js:60-67 | Every exported icon is the literal of some glyph with that name. |
| Export.LastGlyphExported | iconfont-export/gulpfile.js:36-39 | The last glyph of a name other than `__proto__` is exported under that name with its own literal. |
| Export.HexLiteral | iconfont-export/gulpfile.js:24-32 | The corrected literal escapes every code unit and contains no upper-case ASCII letter. |
| Export.SingleUnitHexLiteral | iconfont-export/gulpfile.js:24-32 | Under the corrected literal, every single code unit, printable or not, becomes four hex digits whose value is the unit. |
| Export.ManifestJson | iconfont-export/gulpfile.js:40-45 | The JSON has exactly the keys `icons`, `version` and `fonts`. `icons` maps every name to its literal as a string, and `version` is the version string. |
| Text.Lower | iconfont-export/gulpfile.js:32 | Lowercasing is pointwise. Only ASCII capitals change, each by the distance between `a` and `A`. |
| Tint.ParseTintMode | iconfont/src/main/java/open/source/iconfont/IconTextDrawable.kt:86-96 | The result is always one of the six attribute modes. Any value outside {3, 9, 14, 15, 16} gives `SRC_IN`. |
| Tint.ParseTintModeInverts | iconfont/src/main/java/open/source/iconfont/IconTextDrawable.kt:86-96 | Parsing inverts the attribute value of every attribute mode. Each listed value survives a parse and back. |
| Tint.ValueOf | iconfont/src/main/java/open/source/iconfont/IconTextDrawable.kt:690-692 | A single-colour list yields that colour in every state. |
| Tint.WithAlpha | iconfont/src/main/java/open/source/iconfont/IconTextDrawable.kt:306-309 | `Paint.setAlpha` gives an `Int` colour whose top byte is the alpha's low byte and whose other three bytes are the old colour's. |
| Tint.ColorFromParts | iconfont/src/main/java/open/source/iconfont/IconTextDrawable.kt:306-313 | An `Int` colour is determined by its alpha and its red, green and blue bytes. |
| Tint.WithAlphaLaws | iconfont/src/main/java/open/source/iconfont/IconTextDrawable.kt:306-313 | Writing back a colour's own alpha changes nothing, and a later alpha replaces an earlier one. |
| KotlinInt.FloatToInt | iconfont/src/main/java/open/source/iconfont/IconTextDrawable.kt:513-516 | `Float.toInt` truncates toward zero into the 32-bit range. |
| Gradient.NormalizeAngle | iconfont/src/main/java/open/source/iconfont/IconTextDrawable.kt:517 | `(angle % 360 + 360) % 360` with Kotlin's `%` is the angle's residue in [0, 360). |
| Gradient.OrientationFor | iconfont/src/main/java/open/source/iconfont/IconTextDrawable.kt:518-531 | An angle that is not a multiple of 45, or is ≥ 360, keeps the previous orientation. |
| Gradient.OrientationRunsAlongAngle | iconfont/src/main/java/open/source/iconfont/IconTextDrawable.kt:519-528 | Each of the eight angles selects the orientation whose direction has the angle's cosine and negated sine signs (screen coordinates). |
| Gradient.FallbackUnreachable | iconfont/src/main/java/open/source/iconfont/IconTextDrawable.kt:529-531 | After normalisation, the `TOP_BOTTOM` fallback for a negative angle is never taken. An off-grid angle keeps the previous orientation. |
| Gradient.Merge | iconfont/src/main/java/open/source/iconfont/IconTextDrawable.kt:455-541 | The merge fails exactly on an empty previous colour array. Otherwise absent attributes keep previous values, and missing colours default to the previous start, centre and end, or 0. A centre colour gives 3 colours and positions `[0, centre, 1]`; otherwise there are 2 colours and the old positions stay. |
| Gradient.MergeLeading | iconfont/src/main/java/open/source/iconfont/IconTextDrawable.kt:455-471 | When `first()` throws, only the centre, `useLevel` and the type have been merged. Nothing else changes. |
| Gradient.MergeNothingIsIdentity | iconfont/src/main/java/open/source/iconfont/IconTextDrawable.kt:455-541 | An element with no attributes leaves a well-formed two- or three-colour gradient unchanged. |
| Gradient.CenterPositionsOrdered | iconfont/src/main/java/open/source/iconfont/IconTextDrawable.kt:503-509 | With centre fractions in [0, 1], a three-colour gradient's positions do not decrease. |
| Gradient.StalePositionsSurvive | iconfont/src/main/java/open/source/iconfont/IconTextDrawable.kt:510-512 | The two-colour branch keeps a stale three-entry position array. |
| Gradient.LinearLine | iconfont/src/main/java/open/source/iconfont/IconTextDrawable.kt:562-613 | The start is the rect edge or corner the orientation leaves from. Every moving end coordinate is the absolute rect coordinate times the level. |
| Gradient.LinearSpansRect | iconfont/src/main/java/open/source/iconfont/IconTextDrawable.kt:562-613 | At full level the line's displacement is the orientation's direction times the rect's size. |
| Gradient.RadialFor | iconfont/src/main/java/open/source/iconfont/IconTextDrawable.kt:621-637 | The shader radius is always positive. The remembered radius is the state radius, times the level fraction when `useLevel` is set. A non-positive radius becomes 0.001. |
| Gradient.CenterWithinRect | iconfont/src/main/java/open/source/iconfont/IconTextDrawable.kt:621-624 | Centre fractions in [0, 1] put the centre inside the rect. |
| Gradient.SweepStops | iconfont/src/main/java/open/source/iconfont/IconTextDrawable.kt:638-665 | With `useLevel` the last colour is repeated and stop i is `i / (n - 1) * level`, with a final stop at 1. Without it the colours pass unchanged and no positions are given. |
| Gradient.SweepStopsSpanLevel | iconfont/src/main/java/open/source/iconfont/IconTextDrawable.kt:655-662 | The sweep stops start at 0 and reach the level fraction at the last colour. They never decrease. |
| Gradient.ShaderArgsError | iconfont/src/main/java/open/source/iconfont/IconTextDrawable.kt:614-636 | The gradient constructors accept their arguments exactly when there are at least two colours and the positions, if given, are as many as the colours. |
| Gradient.Construct | iconfont/src/main/java/open/source/iconfont/IconTextDrawable.kt:614-664 | A constructor that accepts its arguments replaces the shader. One that throws leaves the current shader in place and reports why. |
| Gradient.Recompute | iconfont/src/main/java/open/source/iconfont/IconTextDrawable.kt:554-668 | Without colours, or for an unknown type, nothing changes. Otherwise a shader is built exactly when there are at least two colours and a linear gradient's stored positions, if any, match them in number; when the constructor throws, the old shader stays. Only the radial branch updates the remembered radius, and it does so before its constructor runs. A sweep with `useLevel` and no colours fails on the last-colour read. |
| IconText.UpdateTintFilter | iconfont/src/main/java/open/source/iconfont/IconTextDrawable.kt:677-688 | There is a filter exactly when both a tint and a mode are set. Its colour is the tint's colour for the current states (transparent by default). |
| IconText.New | iconfont/src/main/java/open/source/iconfont/IconTextDrawable.kt:142-151 | A fresh drawable has consistent shadow fields, is dirty and unmutated, and holds no font callback. |
| IconText.NewDrawable | iconfont/src/main/java/open/source/iconfont/IconTextDrawable.kt:142-147 | A drawable built from a constant state gets a copy of that state and starts dirty, unmutated and with no font callback. Its tint filter is computed for the empty state set. |
| IconText.Mutate | iconfont/src/main/java/open/source/iconfont/IconTextDrawable.kt:276-282 | The first `mutate` switches to a private copy of the state. A later one returns the drawable unchanged. Nothing else changes. |
| IconText.MutateOnce | iconfont/src/main/java/open/source/iconfont/IconTextDrawable.kt:276-282 | `mutate` is idempotent. |
| IconText.OnStateChange | iconfont/src/main/java/open/source/iconfont/IconTextDrawable.kt:700-707 | The filter is recomputed for the new states. The result reports a change exactly when the filter differs. |
| IconText.OnStateChangeSettles | iconfont/src/main/java/open/source/iconfont/IconTextDrawable.kt:700-707 | A second state change to the same states reports no change. |
| IconText.SetTintList | iconfont/src/main/java/open/source/iconfont/IconTextDrawable.kt:694-698 | It stores the tint and recomputes the filter. Nothing else changes. |
| IconText.SetTint | iconfont/src/main/java/open/source/iconfont/IconTextDrawable.kt:690-692 | The tint becomes the single-colour list of the colour. With a mode set, the filter is that mode with that colour; without one there is no filter. Nothing else changes. |
| IconText.SetTintMode | iconfont/src/main/java/open/source/iconfont/IconTextDrawable.kt:713-717 | It stores the mode and recomputes the filter. Nothing else changes. |
| IconText.SetColorFilter | iconfont/src/main/java/open/source/iconfont/IconTextDrawable.kt:672-675 | It sets only the paint's colour filter. |
| IconText.SetShadowDx | iconfont/src/main/java/open/source/iconfont/IconTextDrawable.kt:762-769 | It sets `dx` and re-applies the shadow layer from all four fields. Nothing else changes. |
| IconText.SetShadowDy | iconfont/src/main/java/open/source/iconfont/IconTextDrawable.kt:771-777 | It sets `dy`. The shadow layer stays consistent and nothing else changes. |
| IconText.SetShadowColor | iconfont/src/main/java/open/source/iconfont/IconTextDrawable.kt:779-785 | It sets the colour. The shadow layer stays consistent and nothing else changes. |
| IconText.SetShadowRadius | iconfont/src/main/java/open/source/iconfont/IconTextDrawable.kt:787-793 | It sets the radius. The shadow layer stays consistent and nothing else changes. |
| IconText.ShadowSettersCompose | iconfont/src/main/java/open/source/iconfont/IconTextDrawable.kt:762-793 | Applying all four setters gives a paint shadow layer of exactly those four values. |
| IconText.SetGradientType | iconfont/src/main/java/open/source/iconfont/IconTextDrawable.kt:814-823 | It sets the type and marks the gradient dirty. Nothing else changes. |
| IconText.SetColors | iconfont/src/main/java/open/source/iconfont/IconTextDrawable.kt:825-839 | It sets the colours and marks the gradient dirty. Nothing else changes. |
| IconText.SetColorsAndOffsets | iconfont/src/main/java/open/source/iconfont/IconTextDrawable.kt:841-846 | It sets the colours and the positions and marks the gradient dirty. Nothing else changes. |
| IconText.GetColors | iconfont/src/main/java/open/source/iconfont/IconTextDrawable.kt:825-830 | It returns the gradient colours when there are any, and otherwise the single paint colour. |
| IconText.ColorsRoundTrip | iconfont/src/main/java/open/source/iconfont/IconTextDrawable.kt:825-839 | Setting a non-empty colour array and reading it back gives the same array. |
| IconText.SetOrientation | iconfont/src/main/java/open/source/iconfont/IconTextDrawable.kt:848-854 | It sets the orientation and marks the gradient dirty. Nothing else changes. |
| IconText.SetUseLevel | iconfont/src/main/java/open/source/iconfont/IconTextDrawable.kt:856-862 | It sets `useLevel` and marks the gradient dirty. Nothing else changes. |
| IconText.SetGradientRadiusAsWritten | iconfont/src/main/java/open/source/iconfont/IconTextDrawable.kt:801-811 | As written, the caller test always sees the setter itself. So the setter only overwrites the remembered radius. |
| IconText.ExternalRadiusLost | iconfont/src/main/java/open/source/iconfont/IconTextDrawable.kt:795-812 | As written, a radius set from outside the class changes neither the configured radius nor the dirty flag. Once the bounds change, the next recomputation replaces it, so the getter no longer returns it. |
| IconText.ExternalRadiusShownUntilRecomputed | iconfont/src/main/java/open/source/iconfont/IconTextDrawable.kt:795-812 | As written, while the gradient is clean the getter recomputes nothing and returns the radius that was set from outside. |
| IconText.SetGradientRadius | iconfont/src/main/java/open/source/iconfont/IconTextDrawable.kt:806-808 | The external-caller branch stores the state radius and marks the gradient dirty. Nothing else changes. |
| IconText.OnLevelChange | iconfont/src/main/java/open/source/iconfont/IconTextDrawable.kt:868-872 | It records the level, marks the gradient dirty and reports a change. |
| IconText.OnBoundsChange | iconfont/src/main/java/open/source/iconfont/IconTextDrawable.kt:874-877 | It records the bounds and marks the gradient dirty. |
| IconText.EnsureValidRect | iconfont/src/main/java/open/source/iconfont/IconTextDrawable.kt:549-670 | A clean drawable is unchanged and reports whether its bounds are non-empty. A dirty one is clean afterwards, takes the bounds and the recomputed shader and radius, and reports either the bounds test or, exactly when the recomputation throws, its exception, keeping the old shader. |
| IconText.EnsureValidRectIdempotent | iconfont/src/main/java/open/source/iconfont/IconTextDrawable.kt:549-553 | A second `ensureValidRect` changes nothing and does not throw. |
| IconText.ChangesAreRecomputed | iconfont/src/main/java/open/source/iconfont/IconTextDrawable.kt:814-877 | After a type change, or a level change followed by a bounds change, the next recomputation uses the new values. |
| IconText.GetGradientRadius | iconfont/src/main/java/open/source/iconfont/IconTextDrawable.kt:795-803 | The result is 0 unless the gradient is radial. Otherwise the rect is brought up to date and the result is the remembered radius, or the exception of the recomputation. A dirty radial gradient with colours remembers the state radius, scaled by the level when `useLevel` is set, even when the constructor throws. |
| IconText.RadiusRoundTrip | iconfont/src/main/java/open/source/iconfont/IconTextDrawable.kt:795-812 | With the corrected setter, a radius set on a radial gradient without `useLevel` reads back unchanged when there are at least two colours. With fewer, the getter throws, after the radius has been remembered. |
| IconText.Draw | iconfont/src/main/java/open/source/iconfont/IconTextDrawable.kt:284-303 | Text is drawn exactly for positive height, non-empty text, non-empty bounds and a shader that builds. A throwing constructor is reported as the exception, with the gradient cache already updated. The size is the height, x is the exact centre, and the paint filter takes precedence over the tint filter. No modelled field of the state changes. |
| IconText.DrawTwiceIsStable | iconfont/src/main/java/open/source/iconfont/IconTextDrawable.kt:284-303 | A second draw leaves the drawable as the first left it and does not throw. If the first did not throw, the second draws the same thing. |
| IconText.FailedShaderIsKept | iconfont/src/main/java/open/source/iconfont/IconTextDrawable.kt:549-553 | After a draw that throws, the next draw does not retry the recomputation: it succeeds with the shader from before. |
| IconText.StalePositionsThrow | iconfont/src/main/java/open/source/iconfont/IconTextDrawable.kt:614-619 | Replacing the colours of a three-colour linear gradient with positions by two colours keeps the three positions, and the next draw throws for the length mismatch. |
| IconText.SetTypeface | iconfont/src/main/java/open/source/iconfont/IconTextDrawable.kt:737-746 | It sets the typeface and empties the font-callback slot. Nothing else changes. |
| IconText.SetCode | iconfont/src/main/java/open/source/iconfont/IconTextDrawable.kt:748-753 | The text becomes the one character, or none. |
| IconText.GetCode | iconfont/src/main/java/open/source/iconfont/IconTextDrawable.kt:748-749 | The code is the first unit of the glyph text, or none without a text. |
| IconText.CodeRoundTrip | iconfont/src/main/java/open/source/iconfont/IconTextDrawable.kt:748-753 | Setting a code and reading it back gives the same code. |
| IconText.SetColor | iconfont/src/main/java/open/source/iconfont/IconTextDrawable.kt:729-735 | It sets the whole paint colour, so the alpha read back is the new colour's top byte. Nothing else changes. |
| IconText.GetAlpha | iconfont/src/main/java/open/source/iconfont/IconTextDrawable.kt:311-313 | The alpha is a byte, 0 to 255. |
| IconText.SetAlpha | iconfont/src/main/java/open/source/iconfont/IconTextDrawable.kt:306-309 | The alpha read back is the argument's low byte. Red, green and blue are kept, and nothing else changes. |
| IconText.AlphaRoundTrip | iconfont/src/main/java/open/source/iconfont/IconTextDrawable.kt:306-313 | An alpha in 0..255 reads back as set, writing back the alpha read changes nothing, and a later colour assignment discards an earlier alpha. |
| IconText.DeliverFont | iconfont/src/main/java/open/source/iconfont/IconTextDrawable.kt:247-270 | A delivery applies only when its callback holds the slot: it installs the result (none on failure) and frees the slot. Any other delivery is ignored. |
| IconText.DeliverOnce | iconfont/src/main/java/open/source/iconfont/IconTextDrawable.kt:252-260 | A callback delivers at most once. |
| IconText.DirectTypefaceWins | iconfont/src/main/java/open/source/iconfont/IconTextDrawable.kt:737-746 | After a direct typeface assignment, no pending fetch can override it. |
| IconInflate.ApplyGradient | iconfont/src/main/java/open/source/iconfont/IconTextDrawable.kt:440-448 | One `<gradient>` child merges. On failure the leading fields are left merged and an error is reported. |
| IconInflate.Children | iconfont/src/main/java/open/source/iconfont/IconTextDrawable.kt:426-453 | Inflating the children fails only with the error the merge gives for some `<gradient>` child at the child depth. |
| IconInflate.ChildrenAreSelectedMerges | iconfont/src/main/java/open/source/iconfont/IconTextDrawable.kt:426-453 | The child loop is the merge, in order, of exactly the gradient start tags at the child depth before the closing tag. |
| IconInflate.StopsAtClosingTag | iconfont/src/main/java/open/source/iconfont/IconTextDrawable.kt:433-437 | Events after the root's end tag have no effect. |
| IconInflate.NoGradientNoChange | iconfont/src/main/java/open/source/iconfont/IconTextDrawable.kt:426-453 | Without gradient children, the parameters are unchanged. |
| IconInflate.InflateChildElements | iconfont/src/main/java/open/source/iconfont/IconTextDrawable.kt:426-453 | The event loop computes the declarative child merge. |
| IconInflate.StartFont | iconfont/src/main/java/open/source/iconfont/IconTextDrawable.kt:347-364 | A font resource issues a fresh callback id that takes the slot. Otherwise the slot is emptied and the asset typeface is installed. |
| IconInflate.ApplyAttributes | iconfont/src/main/java/open/source/iconfont/IconTextDrawable.kt:365-416 | Each root attribute has its default: white, alpha 255, shadow 0 and transparent, and padding kept only when negative. The alpha replaces the top byte of the colour read before it, keeping red, green and blue. The tint mode changes only when given, and the tint is kept when absent. The shadow layer is consistent. |
| IconInflate.AlphaAttributeOverridesColor | iconfont/src/main/java/open/source/iconfont/IconTextDrawable.kt:365-385 | A colour attribute `#80FF0000` without an alpha attribute ends up as the opaque `#FFFF0000`. |
| IconInflate.InflateRoot | iconfont/src/main/java/open/source/iconfont/IconTextDrawable.kt:332-420 | Visibility is set first. A missing or empty code fails as required and leaves the rest unchanged. An undecodable code fails as illegal. Otherwise the text is the decoded code, the attributes apply, and the filter is recomputed. |
| IconInflate.Inflate | iconfont/src/main/java/open/source/iconfont/IconTextDrawable.kt:332-424 | A failed root gives the root's outcome unchanged. Otherwise the outcome is the root's drawable with the merged gradient and the root's cache, and it reports a gradient failure exactly when a child merge failed. Inflating never marks the gradient dirty, and the callback counter never decreases. |
| IconInflate.SupersededFetchIgnored | iconfont/src/main/java/open/source/iconfont/IconTextDrawable.kt:247-270 | After an inflation, a fetch issued earlier cannot change the drawable. |
| IconInflate.FailedFetchClearsTypeface | iconfont/src/main/java/open/source/iconfont/IconTextDrawable.kt:267-269 | A failed fetch for the current callback sets the typeface to none. |
| Assets.AssetTypeface | iconfont/src/main/java/open/source/iconfont/Ktx.kt:29-43 | A live reference is returned as is. Otherwise the load result is returned and remembered. |
| Assets.TypefaceLoadedOnce | iconfont/src/main/java/open/source/iconfont/Ktx.kt:29-43 | Once a typeface is held, a second call returns it without loading. |
| Assets.FailedTypefaceRetried | iconfont/src/main/java/open/source/iconfont/Ktx.kt:33-39 | A failed load is not remembered, so the next call loads again. |
| Assets.Collect | iconfont/src/main/java/open/source/iconfont/Ktx.kt:26 | Garbage collection clears the weak reference. |
| Assets.ParseMetadata | iconfont/src/main/java/open/source/iconfont/Ktx.kt:50-61 | As written, the names come from `icons` but the codes are read from the root. Parsing succeeds exactly when every name is also a decodable root string. |
| Assets.ParseIcons | iconfont/src/main/java/open/source/iconfont/IconFontMetadata.kt:8-10 | The corrected parse reads the codes from `icons`. It succeeds exactly when every entry is a decodable string, and maps each name to its decoded code. |
| Assets.Remember | iconfont/src/main/java/open/source/iconfont/Ktx.kt:47-65 | The memo slot returns a cached map as is and otherwise stores the parse result, so a failure leaves it empty. An empty slot reads as the empty map. |
| Assets.AssetMetadata | iconfont/src/main/java/open/source/iconfont/Ktx.kt:45-66 | A cached map is returned as is. Otherwise the as-written parse runs: a success is stored, a failure stores nothing, so the next call parses again, and reads as the empty map. |
| Assets.AssetMetadataCorrected | iconfont/src/main/java/open/source/iconfont/Ktx.kt:45-66 | The same memo with the corrected parse, which reads the codes from `icons`. |
| Assets.AssetIconNames | iconfont/src/main/java/open/source/iconfont/Ktx.kt:68-69 | The names are exactly the metadata keys. |
| Assets.GetAssetIconDrawable | iconfont/src/main/java/open/source/iconfont/Ktx.kt:71-95 | A drawable exists exactly when the name is known and the typeface loads. It carries the name's code and the typeface, with no pending callback. Both lookups always run. |
| InflateContextCache.Pruned | iconfont/src/main/java/open/source/iconfont/InflateContext.kt:32-35 | Pruning keeps exactly the live references. |
| InflateContextCache.PrunedKeepsLive | iconfont/src/main/java/open/source/iconfont/InflateContext.kt:32-35 | A reference survives pruning exactly when it is live. |
| InflateContextCache.Obtain | iconfont/src/main/java/open/source/iconfont/InflateContext.kt:26-47 | The context returned is either referenced by the list or new. When a context for the resources is referenced, one of those is returned. A context for other resources comes back exactly when none is referenced and the last reference is live; the list is then only pruned and the last reference's context returned. |
| InflateContextCache.FirstMatch | iconfont/src/main/java/open/source/iconfont/InflateContext.kt:30-39 | It finds the first live context for the resources, or reports that none exists. |
| InflateContextCache.ObtainShape | iconfont/src/main/java/open/source/iconfont/InflateContext.kt:26-45 | The list grows by at most one and always holds the returned context. The context wraps the requested resources when one matches, the list is empty, or the last entry is cleared. |
| InflateContextCache.WrongContextReturned | iconfont/src/main/java/open/source/iconfont/InflateContext.kt:41-44 | When no entry matches and the last one is live, the scan's leftover variable returns a context for other resources. |
| InflateContextCache.ObtainCorrected | iconfont/src/main/java/open/source/iconfont/InflateContext.kt:26-45 | The corrected `obtain` always returns a context for the requested resources, creating one when none matches. It agrees with the as-written `obtain` whenever that one returns the right resources. |
| InflateContextCache.ObtainStable | iconfont/src/main/java/open/source/iconfont/InflateContext.kt:26-45 | A second `obtain` for the same resources returns the same context and leaves the list unchanged. |
| InflateContextCache.ObtainByScan | iconfont/src/main/java/open/source/iconfont/InflateContext.kt:26-45 | The iterator loop computes the declarative `Obtain`. |
| Overlay.Sign | iconfont/src/main/java/open/source/iconfont/DebugDraw.kt:137-139 | The sign is ±1 and agrees with x, and 0 counts as positive. |
| Overlay.CornerLine | iconfont/src/main/java/open/source/iconfont/DebugDraw.kt:148-166 | The swap normalises the rect without moving its centre. |
| Overlay.CornerLineCovers | iconfont/src/main/java/open/source/iconfont/DebugDraw.kt:148-166 | A point is covered exactly when it lies between the given coordinates, in either order. |
| Overlay.Corner | iconfont/src/main/java/open/source/iconfont/DebugDraw.kt:141-146 | A corner is two bars, one along each axis, each of thickness `width` toward the sign of the other axis. |
| Overlay.Corners | iconfont/src/main/java/open/source/iconfont/DebugDraw.kt:99-130 | There are four corners, eight bars in all. |
| Overlay.CornersWithinBounds | iconfont/src/main/java/open/source/iconfont/DebugDraw.kt:99-166 | For a positive length no larger than the bounds, every bar lies within the bounds and touches its corner. |
| Overlay.ZeroLengthBarsLeave | iconfont/src/main/java/open/source/iconfont/DebugDraw.kt:99-145 | With length 0, `sign(0) = 1` turns the bars meant to point up or left: exactly four of the eight bars leave bounds that are large enough for the width, namely both bottom-right bars, the vertical bottom-left bar and the horizontal top-right bar. |
| Overlay.Border | iconfont/src/main/java/open/source/iconfont/DebugDraw.kt:88-97 | Each side is inset by half the stroke, truncated. |
| Overlay.CornerSize | iconfont/src/main/java/open/source/iconfont/DebugDraw.kt:81-84 | It is the cap or a third of the shorter side, and at most both. |
| Overlay.HighlightMountBounds | iconfont/src/main/java/open/source/iconfont/DebugDraw.kt:57-86 | The highlight draws the border and the corners, with the corner stroke as the length and the corner size as the width, in the two fixed colours. |
| Overlay.HighlightWithinBounds | iconfont/src/main/java/open/source/iconfont/DebugDraw.kt:57-130 | For plausible pixel sizes, everything drawn stays within the bounds. |
| Overlay.CornerSizeBounds | iconfont/src/main/java/open/source/iconfont/DebugDraw.kt:81-84 | The corner size fits in the bounds. |
| OverlayDebugBuild.CornerBarsAnchored | iconfont/src/debug/java/open/source/iconfont/DebugDraw.kt:158-163 | Both bars of a corner contain the corner point. |
| OverlayDebugBuild.CornersPointInward | iconfont/src/debug/java/open/source/iconfont/DebugDraw.kt:116-147 | For a positive length, each of the four corners gets one bar running `length` along the horizontal edge and `width` inward, and one running `width` inward and `length` along the vertical edge, all from the bounds' vertex. |
| OverlayDebugBuild.DrawnOverlayWithinBounds | iconfont/src/debug/java/open/source/iconfont/DebugDraw.kt:74-114 | The overlay built from the same geometry stays within the bounds. |
| Pipeline.LiteralDecodes | iconfont-export/gulpfile.js:26-32 | A non-printable glyph's literal decodes through the code cache back to that glyph. |
| Pipeline.PrintableMisread | iconfont-export/gulpfile.js:28-29 | A printable glyph such as `A` is exported verbatim and read back as the hex value 10. |
| Pipeline.HexLiteralDecodes | iconfont-export/gulpfile.js:24-32 | With the corrected literal, every single code unit decodes through the code cache back to itself. |
| Pipeline.SurrogatePairRejected | iconfont-export/gulpfile.js:24-29 | An astral code point (a surrogate pair) yields an eight-digit literal, which `toInt(16)` rejects. |
| Pipeline.LiteralAppend | iconfont-export/gulpfile.js:24-32 | The literal of a concatenation is the concatenation of the literals. |
| Pipeline.HexValueConcat | iconfont-export/gulpfile.js:24-29 | The hex value of concatenated digit strings is the first scaled by 16^|b| plus the second. |
| Pipeline.RootLookupLosesIcons | iconfont/src/main/java/open/source/iconfont/Ktx.kt:59 | As written, a manifest with any ordinary icon name fails to parse, so the asset map is empty. |
| Pipeline.BuiltManifestLosesIcons | iconfont/src/main/java/open/source/iconfont/Ktx.kt:55-60 | The same holds for every manifest the exporter writes for such a glyph. |
| Pipeline.BuiltManifestGivesNoDrawable | iconfont/src/main/java/open/source/iconfont/Ktx.kt:71-95 | As written, with an empty metadata slot and a manifest the exporter wrote, `getAssetIconDrawable` returns no drawable for any name. |
| Pipeline.IconsRoundTrip | iconfont/src/main/java/open/source/iconfont/IconFontMetadata.kt:8-10 | The corrected parse recovers every icon of a manifest whose codes parse. |
| Pipeline.SingleUnitParses | iconfont-export/gulpfile.js:14-33 | A single non-printable unit's literal parses back to the unit. |
| Pipeline.AllLiteralsParse | iconfont-export/gulpfile.js:60-67 | Every icon of a manifest exported from single-unit, non-printable glyphs parses. |
| Pipeline.GlyphParses | iconfont-export/gulpfile.js:60-67 | A glyph whose name is not `__proto__` and is not repeated later parses back to its code point. |
| Pipeline.ManifestRoundTrip | iconfont/src/main/java/open/source/iconfont/Ktx.kt:45-66 | Exporting single-unit, non-printable glyphs and parsing with the corrected reader yields a map whose names are the glyph names other than `__proto__`, each mapping to its last glyph's code point. |
| Pipeline.CorrectedMetadataFindsGlyphs | iconfont/src/main/java/open/source/iconfont/Ktx.kt:45-66 | With the corrected parse and an empty slot, every glyph of the exporter's manifest is found under its name with its code point. |

## Left out

- XML parsing, `TypedArray` and `obtainAttributes`. The attributes of the root element arrive as a record of optional values, and the children as a list of start, end and text events with depths.
- Dimension and fraction resolution against display metrics. The gradient radius arrives already resolved.
- Canvas text measurement: the baseline from font metrics and `getTextBounds` in `draw` (IconTextDrawable.kt:294-299). `Draw` records the text, size, x position, shader and filter, but not the y coordinate. The paint's text size, which `draw` sets to the height and never restores (IconTextDrawable.kt:294), is not part of the modelled paint.
- `PorterDuffColorFilter`, shaders and colour state lists are modelled as values. Platform behaviour (blending, `getColorForState` beyond first match) is not modelled.
- Locking (`synchronized`) and threads. Every operation runs sequentially. An asynchronous font fetch is an explicit later `DeliverFont` event.
- `Float` arithmetic is modelled with exact reals. Float rounding is not modelled.
- `invalidateSelf` and other callbacks into the view system. The model records only the state they would redraw.
- The asset file system. The typeface load and the metadata file are parameters, and `Collect` models the weak reference being cleared.
- The command-line coercion done by minimist, and the file writes and deletion (`fs`, `del`) of the export script. The manifest is produced as a JSON value.
- Json.StringForm: a number member is given its literal text. org.json's `getString` returns the text of the parsed number instead, so `1e2` reads as `100.0`. Objects and arrays are given only their leading character, which is enough for the hex parse to fail, as the real `toString` text does.
- Text.Lower: models `toLocaleLowerCase` as ASCII lowercasing. Every printable unit from 32 to 126 reaches it, and under a Turkic locale `I` (U+0049) becomes dotless `ı` (U+0131) where the model gives `i`. The model assumes a non-Turkic locale.
- The debug overlay's on/off switch, its preferences and file flag, the host registry and lifecycle hooks, and `dipToPixels`. The pixel sizes of the overlay are inputs. Lazy paint initialisation is also left out.
- IconText.EnsureValidRect: requires that a sweep gradient with `useLevel` does not have exactly one colour. The source then computes `1f / 0` and gets infinite or NaN stops without throwing, and reals cannot hold those.
- IconText.Draw: requires the same sweep precondition as `EnsureValidRect`, but only when text would be drawn, since only then does it call `EnsureValidRect`.
- Gradient.Recompute: the scratch arrays the sweep branch keeps in the state (`tempGradientColors`, `tempPositions`) are not modelled, since each draw rebuilds their contents.
- Tint.WithAlpha: keeps the low byte of an alpha outside 0..255. The platform documents that case as undefined: older graphics libraries keep the low byte and newer ones clamp.
- IconText.Mutate: the copied state is identified by a fresh `stateId` instead of by object identity.
- IconInflate.ApplyGradient: when the merge throws, only the fields set before the throw are merged (`MergeLeading`). The exception itself becomes an error value.
- Overlay.Border: coordinates are unbounded integers, so 32-bit overflow of `Rect` coordinates is not modelled.
- Overlay.CornersWithinBounds: requires a positive length, because a zero length sends bars outward (see `ZeroLengthBarsLeave`).
- Hex.ParseInt16: only ASCII hex digits are accepted. `Character.digit` also accepts other Unicode digits.

## Findings

| source | as written | input that shows it | evidently intended | confidence | as-written member | corrected member |
|---|---|---|---|---|---|---|
| iconfont/src/main/java/open/source/iconfont/Ktx.kt:59 | The names are taken from the `icons` object, but each code is read with `json.getString(it)` on the root object. | Any manifest the exporter writes, e.g. `{"icons": {"home": "e900"}, "version": "0.0.1", "fonts": [...]}`: the root has no `home` key, `getString` throws, and the metadata map is empty. | Read each code from the `icons` object, the `Map<String, String>` that `IconFontMetadata.icons` declares. | not executed | Assets.ParseMetadata, used by Assets.AssetMetadata (shown by Pipeline.RootLookupLosesIcons, Pipeline.BuiltManifestLosesIcons, Pipeline.BuiltManifestGivesNoDrawable) | Assets.ParseIcons, used by Assets.AssetMetadataCorrected (proved by Pipeline.IconsRoundTrip, Pipeline.ManifestRoundTrip, Pipeline.CorrectedMetadataFindsGlyphs) |
| iconfont/src/main/java/open/source/iconfont/IconTextDrawable.kt:805 | The setter tests whether its caller is `IconTextDrawable` using `Throwable().stackTrace.first()`. That frame is always the setter itself, so the external branch never runs. | Setting `gradientRadius = 10f` from outside on a radial gradient: the state radius stays unchanged and the next `ensureValidRect` overwrites the value. | Store the radius in the state and mark the gradient dirty when called from outside the class. | not executed | IconText.SetGradientRadiusAsWritten (shown by IconText.ExternalRadiusLost) | IconText.SetGradientRadius (proved by IconText.RadiusRoundTrip) |
| iconfont/src/main/java/open/source/iconfont/InflateContext.kt:29-45 | `context` keeps the value of the last reference scanned. When no reference matches and the last one is live, that context is returned although it wraps other resources, and no new context is created. | A list holding one live context for resources `R1`, then `obtain(R2)`: the `R1` context comes back. | Create and remember a new context for `R2` whenever no reference matches. | not executed | InflateContextCache.Obtain (shown by InflateContextCache.WrongContextReturned) | InflateContextCache.ObtainCorrected |
| iconfont-export/gulpfile.js:26-29 | Code units from 32 to 126 are copied into the literal as they are, while the app reads every literal as a hex number. | A glyph at U+0041 (`A`): the literal is `a`, which `toInt(16)` reads as 10, so the app shows U+000A. | Write every code unit as four hex digits, because the library decodes every literal with `toInt(16)` (IconTextDrawable.kt:42, Ktx.kt:59). | not executed | Export.UnicodeLiteral (shown by Pipeline.PrintableMisread) | Export.HexLiteral (proved by Export.SingleUnitHexLiteral, Pipeline.HexLiteralDecodes) |

=== FILE: assets.dfy ===
/** The asset-backed lookups: the typeface and the glyph-name metadata
    bundled under `icon_font/`, each memoised in a single process-wide
    slot, and the drawable factory built on them. Reading the asset files
    is a parameter: `None` stands for a file that is missing or does not
    parse. */
module Assets {
  import opened Wrappers
  import opened Text
  import Hex
  import Json
  import opened IconText

  /** Asset paths of the bundled font and metadata. */
  const TypefaceAsset: JString := Units("icon_font/typeface.ttf")
  const MetadataAsset: JString := Units("icon_font/metadata.json")

  /** The typeface slot holds a weak reference: `None` when empty or
      cleared by the collector. */
  datatype TypefaceSlot = TypefaceSlot(ref: Option<Typeface>)

  /** The collector may clear the weak reference at any time. */
  function Collect(slot: TypefaceSlot): (r: TypefaceSlot)
    ensures r.ref.None?
  {
    TypefaceSlot(None)
  }

  /** `assetTypeface`: the cached typeface if the reference is live;
      otherwise the result of loading (`load`), cached only on success. */
  function AssetTypeface(slot: TypefaceSlot, load: Option<Typeface>): (r: (TypefaceSlot, Option<Typeface>))
    ensures slot.ref.Some? ==> r == (slot, slot.ref)
    ensures slot.ref.None? ==> r.1 == load && r.0.ref == load
  {
    if slot.ref.Some? then (slot, slot.ref)
    else if load.Some? then (TypefaceSlot(load), load)
    else (slot, None)
  }

  /** Once a typeface is cached, further lookups neither load nor change
      anything until the collector clears the slot. */
  lemma TypefaceLoadedOnce(slot: TypefaceSlot, load1: Option<Typeface>, load2: Option<Typeface>)
    requires load1.Some? || slot.ref.Some?
    ensures var (s1, t1) := AssetTypeface(slot, load1);
      AssetTypeface(s1, load2) == (s1, t1) && t1.Some?
  {
  }

  /** A failed load leaves the slot empty, so the next lookup tries again. */
  lemma FailedTypefaceRetried(load: Option<Typeface>)
    ensures AssetTypeface(AssetTypeface(TypefaceSlot(None), None).0, load).1 == load
  {
  }

  /** The metadata slot holds a strong reference to the parsed map, or
      nothing. */
  datatype MetadataSlot = MetadataSlot(cached: Option<map<JString, CodeUnit>>)

  /** A glyph whose code the metadata parse can decode: `key` is a member
      of the ROOT object and its string form is a hexadecimal number. */
  predicate Decodes(root: map<JString, Json.Value>, key: JString) {
    key in root && Hex.ParseInt16(Json.StringForm(root[key])).Ok?
  }

  /** The code a decodable glyph gets. */
  function CodeOf(root: map<JString, Json.Value>, key: JString): (u: CodeUnit)
    requires Decodes(root, key)
    ensures Hex.AllHexDigits(Json.StringForm(root[key])) && |Json.StringForm(root[key])| >= 1 ==>
      u == Hex.HexValue(Json.StringForm(root[key])) % 0x1_0000
  {
    Hex.ToChar(Hex.ParseInt16(Json.StringForm(root[key])).value)
  }

  /** The parse inside `assetMetadata`: the names are the keys of the
      `icons` member, but each code is read from the member of the ROOT
      object with that name (`json.getString(it)`), not from `icons`. Any
      failure (no object, no `icons` object, a name missing from the root,
      a code that does not parse) makes the whole parse fail. */
  function ParseMetadata(file: Json.Value): (r: Option<map<JString, CodeUnit>>)
    ensures r.Some? <==>
      && file.Obj?
      && Units("icons") in file.members
      && file.members[Units("icons")].Obj?
      && (forall k :: k in file.members[Units("icons")].members ==> Decodes(file.members, k))
    ensures r.Some? ==> r.value.Keys == file.members[Units("icons")].members.Keys
    ensures r.Some? ==> forall k :: k in r.value ==> r.value[k] == CodeOf(file.members, k)
  {
    if !file.Obj? then None
    else
      var root := file.members;
      var iconsKey := Units("icons");
      if iconsKey !in root || !root[iconsKey].Obj? then None
      else
        var icons := root[iconsKey].members;
        if forall k :: k in icons ==> Decodes(root, k) then
          Some(map k | k in icons.Keys :: CodeOf(root, k))
        else None
  }

  /** A glyph whose code the `icons` object itself holds, as a
      hexadecimal number. */
  predicate DecodesInIcons(icons: map<JString, Json.Value>, key: JString)
    requires key in icons
  {
    Hex.ParseInt16(Json.StringForm(icons[key])).Ok?
  }

  /** The metadata parse with each code read from the `icons` object, where
      the font build writes it and where the metadata record declares it.
      Every other failure is as in `ParseMetadata`. */
  function ParseIcons(file: Json.Value): (r: Option<map<JString, CodeUnit>>)
    ensures r.Some? <==>
      && file.Obj?
      && Units("icons") in file.members
      && file.members[Units("icons")].Obj?
      && (forall k :: k in file.members[Units("icons")].members ==> DecodesInIcons(file.members[Units("icons")].members, k))
    ensures r.Some? ==> r.value.Keys == file.members[Units("icons")].members.Keys
    ensures r.Some? ==> forall k :: k in r.value ==>
      r.value[k] == CodeOf(file.members[Units("icons")].members, k)
  {
    if !file.Obj? then None
    else
      var root := file.members;
      var iconsKey := Units("icons");
      if iconsKey !in root || !root[iconsKey].Obj? then None
      else
        var icons := root[iconsKey].members;
        if forall k :: k in icons ==> DecodesInIcons(icons, k) then
          Some(map k | k in icons.Keys :: CodeOf(icons, k))
        else None
  }

  /** The memo step of `assetMetadata`: a cached map is returned as is;
      otherwise `parsed` is stored, so a failed parse leaves the slot empty
      and the next call parses again. A missing map reads as the empty
      map. */
  function Remember(slot: MetadataSlot, parsed: Option<map<JString, CodeUnit>>): (r: (MetadataSlot, map<JString, CodeUnit>))
    ensures slot.cached.Some? ==> r == (slot, slot.cached.value)
    ensures slot.cached.None? ==> r.0.cached == parsed
    ensures r.0.cached.Some? ==> r.1 == r.0.cached.value
    ensures r.0.cached.None? ==> r.1 == map[]
  {
    if slot.cached.Some? then (slot, slot.cached.value)
    else (MetadataSlot(parsed), parsed.GetOr(map[]))
  }

  /** `assetMetadata` as written: the parse is `ParseMetadata`, which reads
      the codes from the root object. */
  function AssetMetadata(slot: MetadataSlot, file: Option<Json.Value>): (r: (MetadataSlot, map<JString, CodeUnit>))
    ensures slot.cached.Some? ==> r == (slot, slot.cached.value)
    ensures slot.cached.None? && file.Some? ==> r.0.cached == ParseMetadata(file.value)
    ensures slot.cached.None? && file.None? ==> r.0.cached.None?
    ensures r.0.cached.Some? ==> r.1 == r.0.cached.value
    ensures r.0.cached.None? ==> r.1 == map[]
  {
    Remember(slot, if file.Some? then ParseMetadata(file.value) else None)
  }

  /** `assetMetadata` with the corrected parse `ParseIcons`, which reads the
      codes from the `icons` object. */
  function AssetMetadataCorrected(slot: MetadataSlot, file: Option<Json.Value>): (r: (MetadataSlot, map<JString, CodeUnit>))
    ensures slot.cached.Some? ==> r == (slot, slot.cached.value)
    ensures slot.cached.None? && file.Some? ==> r.0.cached == ParseIcons(file.value)
    ensures slot.cached.None? && file.None? ==> r.0.cached.None?
    ensures r.0.cached.Some? ==> r.1 == r.0.cached.value
    ensures r.0.cached.None? ==> r.1 == map[]
  {
    Remember(slot, if file.Some? then ParseIcons(file.value) else None)
  }

  /** `assetIconNames`: the names of the metadata map. */
  function AssetIconNames(slot: MetadataSlot, file: Option<Json.Value>): (r: (MetadataSlot, set<JString>))
    ensures r.0 == AssetMetadata(slot, file).0
    ensures forall k :: k in r.1 <==> k in AssetMetadata(slot, file).1
  {
    var (s, m) := AssetMetadata(slot, file);
    (s, m.Keys)
  }

  /** `getAssetIconDrawable(name)` (both receivers): a new drawable with the
      glyph's code and the asset typeface, or none when the name is unknown
      or the typeface cannot be loaded. Both lookups always run. */
  function GetAssetIconDrawable(meta: MetadataSlot, tf: TypefaceSlot, file: Option<Json.Value>,
                                load: Option<Typeface>, name: JString, stateId: nat)
    : (r: (MetadataSlot, TypefaceSlot, Option<Drawable>))
    ensures r.0 == AssetMetadata(meta, file).0 && r.1 == AssetTypeface(tf, load).0
    ensures r.2.Some? <==> name in AssetMetadata(meta, file).1 && AssetTypeface(tf, load).1.Some?
    ensures r.2.Some? ==>
      && r.2.value.state.text == Some([AssetMetadata(meta, file).1[name]])
      && GetCode(r.2.value) == Some(AssetMetadata(meta, file).1[name])
      && r.2.value.state.paint.typeface == AssetTypeface(tf, load).1
      && r.2.value.updateLock.None?
  {
    var (m1, codes) := AssetMetadata(meta, file);
    var (t1, typeface) := AssetTypeface(tf, load);
    if name in codes && typeface.Some? then
      var coded := SetCode(New(stateId), Some(codes[name]));
      CodeRoundTrip(New(stateId), Some(codes[name]));
      var d := SetTypeface(coded, typeface);
      assert d.state.text == coded.state.text;
      (m1, t1, Some(d))
    else (m1, t1, None)
  }
}

=== FILE: code_cache.dfy ===
/** The glyph-code cache of the drawable: a least-recently-used cache of
    capacity 128 from a hexadecimal code literal to the one-character string
    it names. */
module CodeCache {
  import opened Text
  import opened Hex
  import opened Wrappers

  const Capacity: nat := 128

  /** The cache's `create`: `key.toInt(16).toChar().toString()`. */
  function DecodeCode(key: JString): (r: Result<JString, ParseError>)
    ensures r.Ok? ==> |r.value| == 1
    ensures r.Ok? <==> ParseInt16(key).Ok?
  {
    var n :- ParseInt16(key);
    Ok([ToChar(n)])
  }

  /** A literal of hexadecimal digits within `Int` range decodes to the
      character with its value truncated to 16 bits. */
  lemma DecodeDigits(key: JString)
    requires |key| >= 1 && AllHexDigits(key) && HexValue(key) <= IntMax
    ensures DecodeCode(key) == Ok([HexValue(key) % 0x1_0000])
  {
  }

  /** Entries in recency order: the least recently used first. */
  datatype Cache = Cache(entries: seq<(JString, JString)>)

  function KeysOf(entries: seq<(JString, JString)>): set<JString> {
    set e | e in entries :: e.0
  }

  function Keys(c: Cache): set<JString> {
    KeysOf(c.entries)
  }

  predicate DistinctKeys(entries: seq<(JString, JString)>) {
    forall i, j :: 0 <= i < j < |entries| ==> entries[i].0 != entries[j].0
  }

  /** Every stored value is what `create` makes of its key. */
  predicate Coherent(entries: seq<(JString, JString)>) {
    forall e :: e in entries ==> DecodeCode(e.0) == Ok(e.1)
  }

  /** The cache never exceeds its capacity, holds a key once, and is
      coherent with `create`. */
  predicate Valid(c: Cache) {
    |c.entries| <= Capacity && DistinctKeys(c.entries) && Coherent(c.entries)
  }

  const Empty: Cache := Cache([])

  function Find(entries: seq<(JString, JString)>, key: JString): (r: Option<nat>)
    ensures r.Some? ==> r.value < |entries| && entries[r.value].0 == key
    ensures r.None? ==> key !in KeysOf(entries)
  {
    if entries == [] then None
    else if entries[|entries| - 1].0 == key then Some(|entries| - 1)
    else
      var r := Find(entries[..|entries| - 1], key);
      assert entries == entries[..|entries| - 1] + [entries[|entries| - 1]];
      r
  }

  lemma RemoveAt(s: seq<(JString, JString)>, i: nat)
    requires i < |s| && DistinctKeys(s)
    ensures DistinctKeys(s[..i] + s[i + 1..])
    ensures KeysOf(s[..i] + s[i + 1..]) == KeysOf(s) - {s[i].0}
    ensures forall e :: e in s[..i] + s[i + 1..] ==> e in s
  {
    var t := s[..i] + s[i + 1..];
    assert forall j :: 0 <= j < |t| ==> t[j] == (if j < i then s[j] else s[j + 1]);
    assert s == s[..i] + [s[i]] + s[i + 1..];
  }

  lemma AppendFresh(s: seq<(JString, JString)>, e: (JString, JString))
    requires DistinctKeys(s) && e.0 !in KeysOf(s)
    ensures DistinctKeys(s + [e])
    ensures KeysOf(s + [e]) == KeysOf(s) + {e.0}
  {
    assert forall j :: 0 <= j < |s| ==> s[j] in s;
  }

  lemma DropEldest(s: seq<(JString, JString)>)
    requires |s| > 0 && DistinctKeys(s)
    ensures DistinctKeys(s[1..])
    ensures KeysOf(s[1..]) == KeysOf(s) - {s[0].0}
  {
    assert s == [s[0]] + s[1..];
    assert forall e :: e in s[1..] ==> e.0 != s[0].0 by {
      forall e | e in s[1..] ensures e.0 != s[0].0 {
        var j :| 0 <= j < |s[1..]| && s[1..][j] == e;
        assert s[j + 1] == e;
      }
    }
  }

  /** A hit: the entry moves to the most recent position. */
  function Touch(c: Cache, i: nat): (r: Cache)
    requires Valid(c) && i < |c.entries|
    ensures Valid(r) && Keys(r) == Keys(c)
    ensures |r.entries| == |c.entries| && r.entries[|r.entries| - 1] == c.entries[i]
  {
    var s := c.entries;
    var rest := s[..i] + s[i + 1..];
    RemoveAt(s, i);
    AppendFresh(rest, s[i]);
    Cache(rest + [s[i]])
  }

  /** A miss whose `create` succeeded: store as most recent, then trim to
      the capacity by evicting the eldest entry. */
  function Insert(c: Cache, key: JString, v: JString): (r: Cache)
    requires Valid(c) && key !in Keys(c) && DecodeCode(key) == Ok(v)
    ensures Valid(r)
    ensures |r.entries| > 0 && r.entries[|r.entries| - 1] == (key, v)
    ensures |c.entries| < Capacity ==> Keys(r) == Keys(c) + {key}
    ensures |c.entries| == Capacity ==> Keys(r) == Keys(c) - {c.entries[0].0} + {key}
  {
    var grown := c.entries + [(key, v)];
    AppendFresh(c.entries, (key, v));
    if |grown| > Capacity then
      DropEldest(grown);
      Cache(grown[1..])
    else
      Cache(grown)
  }

  /** `codes[key]`: a hit moves the entry to the most recent position; a
      miss runs `create`, and when that succeeds stores the value as most
      recent and evicts the eldest entry once the capacity is exceeded. A
      failing `create` propagates its exception and stores nothing. */
  function Get(c: Cache, key: JString): (r: (Cache, Result<JString, ParseError>))
    requires Valid(c)
    ensures Valid(r.0)
    ensures r.1 == DecodeCode(key)
    ensures r.1.Err? ==> r.0 == c
    ensures r.1.Ok? ==> |r.0.entries| > 0 && r.0.entries[|r.0.entries| - 1] == (key, r.1.value)
    ensures key in Keys(c) ==> Keys(r.0) == Keys(c)
    ensures key !in Keys(c) && r.1.Ok? && |c.entries| < Capacity ==> Keys(r.0) == Keys(c) + {key}
    ensures key !in Keys(c) && r.1.Ok? && |c.entries| == Capacity ==>
      Keys(r.0) == Keys(c) - {c.entries[0].0} + {key}
  {
    match Find(c.entries, key)
    case Some(i) =>
      assert c.entries[i] in c.entries;
      (Touch(c, i), Ok(c.entries[i].1))
    case None =>
      match DecodeCode(key)
      case Err(e) => (c, Err(e))
      case Ok(v) => (Insert(c, key, v), Ok(v))
  }

  /** Looking up the same literal again finds it: the cache is left as it
      is and the same character comes back, with no second parse. */
  lemma SecondLookupHits(c: Cache, key: JString)
    requires Valid(c)
    requires Get(c, key).1.Ok?
    ensures Find(Get(c, key).0.entries, key).Some?
    ensures Get(Get(c, key).0, key) == Get(c, key)
  {
    var (c1, v) := Get(c, key);
    var n := |c1.entries|;
    assert Find(c1.entries, key) == Some(n - 1);
    assert c1.entries[..n - 1] + c1.entries[n..] + [c1.entries[n - 1]] == c1.entries;
  }
}

=== FILE: drawable.dfy ===
/** The glyph drawable (`IconTextDrawable`): its state record, the lazy
    gradient cache, the single-slot guard for asynchronous font delivery,
    copy-on-mutate, tinting and the setters. Every operation is a pure
    function from the drawable before to the drawable after. */
module IconText {
  import opened Wrappers
  import opened Text
  import opened Geometry
  import opened Gradient
  import opened Tint
  import CodeCache
  import KotlinInt

  datatype Typeface = Typeface(id: nat)

  /** Arguments of the last `Paint.setShadowLayer` call. */
  datatype ShadowLayer = ShadowLayer(radius: real, dx: real, dy: real, color: int)

  /** The text paint. Its alpha is not a field of its own: it is the top
      byte of `color`. */
  datatype Paint = Paint(
    color: int,
    typeface: Option<Typeface>,
    shadow: ShadowLayer,
    colorFilter: Option<ColorFilter>)

  /** `IconTextState`, the drawable's constant state. */
  datatype State = State(
    size: int,
    text: Option<JString>,
    tint: Option<ColorStateList>,
    tintMode: Option<PorterDuffMode>,
    shadowDx: real,
    shadowDy: real,
    shadowColor: int,
    shadowRadius: real,
    paint: Paint,
    padding: Rect,
    gradient: Params)

  const InitialState: State := State(
    -1, None, None, None, 0.0, 0.0, Transparent, 0.0,
    Paint(White, None, ShadowLayer(0.0, 0.0, 0.0, Transparent), None),
    Rect(0, 0, 0, 0), Gradient.Initial)

  /** A drawable. `stateId` names the state record it uses: every drawable
      gets its own copy of the state it is made from, and `mutate` copies it
      once more. `updateLock` is the
      font-callback slot, holding the id of the pending callback; `issued`
      counts the callbacks created so far. `bounds`, `level` and
      `stateSet` are the values the platform stores before notifying. */
  datatype Drawable = Drawable(
    state: State,
    stateId: nat,
    mutated: bool,
    tintFilter: Option<ColorFilter>,
    shader: Option<Shader>,
    gradientIsDirty: bool,
    gradientBounds: Rect,
    gradientRadius: real,
    updateLock: Option<nat>,
    issued: nat,
    bounds: Rect,
    level: int,
    stateSet: set<int>,
    visible: bool)

  /** The shadow layer of the paint reflects the four shadow fields. */
  predicate ShadowConsistent(s: State) {
    s.paint.shadow == ShadowLayer(s.shadowRadius, s.shadowDx, s.shadowDy, s.shadowColor)
  }

  /** Only an issued callback can occupy the slot. */
  predicate SlotIssued(d: Drawable) {
    d.updateLock.Some? ==> d.updateLock.value < d.issued
  }

  /** `updateTintFilter`: a tint filter exists exactly when both a tint
      list and a tint mode are set; its colour is the list's colour for the
      current state set, transparent if no entry matches. */
  function UpdateTintFilter(s: State, states: set<int>): (f: Option<ColorFilter>)
    ensures f.None? <==> s.tint.None? || s.tintMode.None?
    ensures f.Some? ==> f.value.PorterDuffFilter? && f.value.mode == s.tintMode.value
    ensures f.Some? ==> f.value.color == ColorForState(s.tint.value, states, Transparent)
  {
    if s.tintMode.None? || s.tint.None? then None
    else Some(PorterDuffFilter(ColorForState(s.tint.value, states, Transparent), s.tintMode.value))
  }

  /** `IconTextDrawable()`: a fresh drawable with its own empty state. */
  function New(stateId: nat): (d: Drawable)
    ensures ShadowConsistent(d.state) && SlotIssued(d)
    ensures d.gradientIsDirty && !d.mutated && d.updateLock.None?
  {
    Drawable(InitialState, stateId, false, None, None, true, Rect(0, 0, 0, 0), 0.0,
             None, 0, Rect(0, 0, 0, 0), 0, {}, true)
  }

  /** `ConstantState.newDrawable()`: a drawable on a copy of `s`, with the
      tint filter computed for the empty state set. */
  function NewDrawable(s: State, stateId: nat): (d: Drawable)
    ensures d.state == s && d.stateId == stateId && !d.mutated
    ensures d.tintFilter == UpdateTintFilter(s, {})
    ensures d.gradientIsDirty && d.updateLock.None?
  {
    New(stateId).(state := s, tintFilter := UpdateTintFilter(s, {}))
  }

  /** `mutate()`: the first call moves the drawable onto a private copy of
      its state (named `copyId`); later calls change nothing. */
  function Mutate(d: Drawable, copyId: nat): (r: Drawable)
    ensures r.mutated && r.state == d.state
    ensures d.mutated ==> r == d
    ensures !d.mutated ==> r.stateId == copyId
    ensures r.(stateId := d.stateId, mutated := d.mutated) == d
  {
    if !d.mutated then d.(stateId := copyId, mutated := true) else d
  }

  /** The state is copied at most once, whatever ids later calls offer. */
  lemma MutateOnce(d: Drawable, f1: nat, f2: nat)
    ensures Mutate(Mutate(d, f1), f2) == Mutate(d, f1)
  {
  }

  // ---------------------------------------------------------------------
  // Tint

  /** `onStateChange`: recompute the tint filter for the new state set and
      report whether it differs from the one in use. */
  function OnStateChange(d: Drawable, states: set<int>): (r: (Drawable, bool))
    ensures r.0.tintFilter == UpdateTintFilter(d.state, states)
    ensures r.1 <==> UpdateTintFilter(d.state, states) != d.tintFilter
    ensures r.0.(tintFilter := d.tintFilter, stateSet := d.stateSet) == d
    ensures r.0.stateSet == states
  {
    var d1 := d.(stateSet := states);
    var filter := UpdateTintFilter(d.state, states);
    if filter != d.tintFilter then (d1.(tintFilter := filter), true) else (d1, false)
  }

  /** A second notification for the same state set reports no change. */
  lemma OnStateChangeSettles(d: Drawable, states: set<int>)
    ensures !OnStateChange(OnStateChange(d, states).0, states).1
  {
  }

  /** `setTintList`: store the list and rebuild the filter. */
  function SetTintList(d: Drawable, tint: Option<ColorStateList>): (r: Drawable)
    ensures r.state.tint == tint
    ensures r.tintFilter == UpdateTintFilter(r.state, d.stateSet)
    ensures r.(state := d.state, tintFilter := d.tintFilter) == d
    ensures r.state.(tint := d.state.tint) == d.state
  {
    var s := d.state.(tint := tint);
    d.(state := s, tintFilter := UpdateTintFilter(s, d.stateSet))
  }

  /** `setTint(color)`: a single-colour list. */
  function SetTint(d: Drawable, color: int): (r: Drawable)
    ensures r.state.tint == Some(ValueOf(color))
    ensures r.state.(tint := d.state.tint) == d.state
    ensures r.(state := d.state, tintFilter := d.tintFilter) == d
    ensures r.state.tintMode.Some? ==>
      r.tintFilter == Some(PorterDuffFilter(color, r.state.tintMode.value))
    ensures r.state.tintMode.None? ==> r.tintFilter.None?
  {
    SetTintList(d, Some(ValueOf(color)))
  }

  /** `setTintMode`: store the mode and rebuild the filter. */
  function SetTintMode(d: Drawable, mode: Option<PorterDuffMode>): (r: Drawable)
    ensures r.state.tintMode == mode
    ensures r.tintFilter == UpdateTintFilter(r.state, d.stateSet)
    ensures r.(state := d.state, tintFilter := d.tintFilter) == d
    ensures r.state.(tintMode := d.state.tintMode) == d.state
  {
    var s := d.state.(tintMode := mode);
    d.(state := s, tintFilter := UpdateTintFilter(s, d.stateSet))
  }

  /** `setColorFilter`: an explicit filter on the paint. */
  function SetColorFilter(d: Drawable, filter: Option<ColorFilter>): (r: Drawable)
    ensures r.state.paint.colorFilter == filter
    ensures r.state.paint.(colorFilter := d.state.paint.colorFilter) == d.state.paint
    ensures r.state.(paint := d.state.paint) == d.state && r.(state := d.state) == d
  {
    d.(state := d.state.(paint := d.state.paint.(colorFilter := filter)))
  }

  // ---------------------------------------------------------------------
  // Shadow

  /** `shadowDx = v`: only `shadowDx` changes, and the shadow layer is
      re-applied with all four current values. */
  function SetShadowDx(d: Drawable, v: real): (r: Drawable)
    ensures r.state.shadowDx == v
    ensures r.state.shadowDy == d.state.shadowDy && r.state.shadowRadius == d.state.shadowRadius
    ensures r.state.shadowColor == d.state.shadowColor
    ensures ShadowConsistent(r.state)
    ensures r.state.(shadowDx := d.state.shadowDx, paint := d.state.paint) == d.state
    ensures r.state.paint.(shadow := d.state.paint.shadow) == d.state.paint
    ensures r.(state := d.state) == d
  {
    var s := d.state;
    d.(state := s.(shadowDx := v, paint := s.paint.(shadow := ShadowLayer(s.shadowRadius, v, s.shadowDy, s.shadowColor))))
  }

  /** `shadowDy = v`. */
  function SetShadowDy(d: Drawable, v: real): (r: Drawable)
    ensures r.state.shadowDy == v
    ensures r.state.shadowDx == d.state.shadowDx && r.state.shadowRadius == d.state.shadowRadius
    ensures r.state.shadowColor == d.state.shadowColor
    ensures ShadowConsistent(r.state)
    ensures r.state.(shadowDy := d.state.shadowDy, paint := d.state.paint) == d.state
    ensures r.state.paint.(shadow := d.state.paint.shadow) == d.state.paint
    ensures r.(state := d.state) == d
  {
    var s := d.state;
    d.(state := s.(shadowDy := v, paint := s.paint.(shadow := ShadowLayer(s.shadowRadius, s.shadowDx, v, s.shadowColor))))
  }

  /** `shadowColor = v`. */
  function SetShadowColor(d: Drawable, v: int): (r: Drawable)
    ensures r.state.shadowColor == v
    ensures r.state.shadowDx == d.state.shadowDx && r.state.shadowDy == d.state.shadowDy
    ensures r.state.shadowRadius == d.state.shadowRadius
    ensures ShadowConsistent(r.state)
    ensures r.state.(shadowColor := d.state.shadowColor, paint := d.state.paint) == d.state
    ensures r.state.paint.(shadow := d.state.paint.shadow) == d.state.paint
    ensures r.(state := d.state) == d
  {
    var s := d.state;
    d.(state := s.(shadowColor := v, paint := s.paint.(shadow := ShadowLayer(s.shadowRadius, s.shadowDx, s.shadowDy, v))))
  }

  /** `shadowRadius = v`. */
  function SetShadowRadius(d: Drawable, v: real): (r: Drawable)
    ensures r.state.shadowRadius == v
    ensures r.state.shadowDx == d.state.shadowDx && r.state.shadowDy == d.state.shadowDy
    ensures r.state.shadowColor == d.state.shadowColor
    ensures ShadowConsistent(r.state)
    ensures r.state.(shadowRadius := d.state.shadowRadius, paint := d.state.paint) == d.state
    ensures r.state.paint.(shadow := d.state.paint.shadow) == d.state.paint
    ensures r.(state := d.state) == d
  {
    var s := d.state;
    d.(state := s.(shadowRadius := v, paint := s.paint.(shadow := ShadowLayer(v, s.shadowDx, s.shadowDy, s.shadowColor))))
  }

  /** Setting the four shadow fields one after the other, in any order
      here dx, dy, radius, colour, leaves exactly those four values both in
      the fields and in the paint's shadow layer. */
  lemma ShadowSettersCompose(d: Drawable, dx: real, dy: real, radius: real, color: int)
    ensures var r := SetShadowColor(SetShadowRadius(SetShadowDy(SetShadowDx(d, dx), dy), radius), color);
      r.state.paint.shadow == ShadowLayer(radius, dx, dy, color)
  {
  }

  // ---------------------------------------------------------------------
  // Gradient setters and the lazy gradient cache

  /** `gradientType = t`. */
  function SetGradientType(d: Drawable, t: int): (r: Drawable)
    ensures r.state.gradient.gradientType == t && r.gradientIsDirty
    ensures r.state.gradient.(gradientType := d.state.gradient.gradientType) == d.state.gradient
    ensures r.(state := d.state, gradientIsDirty := d.gradientIsDirty) == d
    ensures r.state.(gradient := d.state.gradient) == d.state
  {
    d.(state := d.state.(gradient := d.state.gradient.(gradientType := t)), gradientIsDirty := true)
  }

  /** `colors = value`: a copy of the array. */
  function SetColors(d: Drawable, colors: seq<int>): (r: Drawable)
    ensures r.state.gradient.colors == Some(colors) && r.gradientIsDirty
    ensures r.state.gradient.(colors := d.state.gradient.colors) == d.state.gradient
    ensures r.(state := d.state, gradientIsDirty := d.gradientIsDirty) == d
    ensures r.state.(gradient := d.state.gradient) == d.state
  {
    d.(state := d.state.(gradient := d.state.gradient.(colors := Some(colors))), gradientIsDirty := true)
  }

  /** `setColors(colors, offset)`: copies of both arrays. */
  function SetColorsAndOffsets(d: Drawable, colors: seq<int>, offsets: seq<real>): (r: Drawable)
    ensures r.state.gradient.colors == Some(colors) && r.state.gradient.positions == Some(offsets)
    ensures r.gradientIsDirty
    ensures r.state.gradient.(colors := d.state.gradient.colors, positions := d.state.gradient.positions)
      == d.state.gradient
    ensures r.(state := d.state, gradientIsDirty := d.gradientIsDirty) == d
    ensures r.state.(gradient := d.state.gradient) == d.state
  {
    var g := d.state.gradient.(colors := Some(colors), positions := Some(offsets));
    d.(state := d.state.(gradient := g), gradientIsDirty := true)
  }

  /** The `colors` getter: a copy of the gradient colours, or the paint
      colour alone when there are none. */
  function GetColors(d: Drawable): (r: seq<int>)
    ensures |r| >= 1
    ensures d.state.gradient.colors.Some? && d.state.gradient.colors.value != [] ==> r == d.state.gradient.colors.value
    ensures d.state.gradient.colors.None? || d.state.gradient.colors.value == [] ==> r == [d.state.paint.color]
  {
    var colors := d.state.gradient.colors;
    if colors.None? || colors.value == [] then [d.state.paint.color] else colors.value
  }

  /** Reading the colours back gives what was set, unless nothing was set. */
  lemma ColorsRoundTrip(d: Drawable, colors: seq<int>)
    requires colors != []
    ensures GetColors(SetColors(d, colors)) == colors
  {
  }

  /** `orientation = o`. */
  function SetOrientation(d: Drawable, o: Orientation): (r: Drawable)
    ensures r.state.gradient.orientation == o && r.gradientIsDirty
    ensures r.state.gradient.(orientation := d.state.gradient.orientation) == d.state.gradient
    ensures r.(state := d.state, gradientIsDirty := d.gradientIsDirty) == d
    ensures r.state.(gradient := d.state.gradient) == d.state
  {
    d.(state := d.state.(gradient := d.state.gradient.(orientation := o)), gradientIsDirty := true)
  }

  /** `useLevel = b`. */
  function SetUseLevel(d: Drawable, b: bool): (r: Drawable)
    ensures r.state.gradient.useLevel == b && r.gradientIsDirty
    ensures r.state.gradient.(useLevel := d.state.gradient.useLevel) == d.state.gradient
    ensures r.(state := d.state, gradientIsDirty := d.gradientIsDirty) == d
    ensures r.state.(gradient := d.state.gradient) == d.state
  {
    d.(state := d.state.(gradient := d.state.gradient.(useLevel := b)), gradientIsDirty := true)
  }

  /** The `gradientRadius` setter as written. It means to tell an outside
      caller from the class's own assignment by the innermost stack frame,
      but that frame is always the setter itself, a member of the class, so
      every call only overwrites the reported radius. */
  function SetGradientRadiusAsWritten(d: Drawable, v: real): (r: Drawable)
    ensures r.gradientRadius == v
    ensures r.(gradientRadius := d.gradientRadius) == d
  {
    d.(gradientRadius := v)
  }

  /** As written, a radius set from outside never reaches the shader: the
      configured radius and the dirty flag are untouched, and the next
      recomputation overwrites the value that was set, whether or not the
      shader constructor then throws. */
  lemma ExternalRadiusLost(d: Drawable, v: real, bounds: Rect)
    requires d.state.gradient.gradientType == RadialType && d.state.gradient.colors.Some?
    requires !d.state.gradient.useLevel && v != d.state.gradient.radius
    ensures var r := SetGradientRadiusAsWritten(d, v);
      && r.state.gradient.radius == d.state.gradient.radius && r.gradientIsDirty == d.gradientIsDirty
      && GetGradientRadius(OnBoundsChange(r, bounds)).0.gradientRadius != v
      && GetGradientRadius(OnBoundsChange(r, bounds)).1 != Ok(v)
  {
  }

  /** As written, until something marks the gradient dirty, the getter
      finds nothing to recompute and returns the value that was set. */
  lemma ExternalRadiusShownUntilRecomputed(d: Drawable, v: real)
    requires d.state.gradient.gradientType == RadialType && !d.gradientIsDirty
    ensures GetGradientRadius(SetGradientRadiusAsWritten(d, v)) == (SetGradientRadiusAsWritten(d, v), Ok(v))
  {
  }

  /** `gradientRadius = v` called from outside the class, as intended: the
      configured radius changes and the gradient is marked dirty. */
  function SetGradientRadius(d: Drawable, v: real): (r: Drawable)
    ensures r.state.gradient.radius == v && r.gradientIsDirty
    ensures r.state.gradient.(radius := d.state.gradient.radius) == d.state.gradient
    ensures r.(state := d.state, gradientIsDirty := d.gradientIsDirty) == d
    ensures r.state.(gradient := d.state.gradient) == d.state
  {
    d.(state := d.state.(gradient := d.state.gradient.(radius := v)), gradientIsDirty := true)
  }

  /** `onLevelChange`: the platform has stored `level`; the gradient is
      marked dirty and a redraw requested. */
  function OnLevelChange(d: Drawable, level: int): (r: (Drawable, bool))
    ensures r.1 && r.0.gradientIsDirty && r.0.level == level
    ensures r.0.(gradientIsDirty := d.gradientIsDirty, level := d.level) == d
  {
    (d.(level := level, gradientIsDirty := true), true)
  }

  /** `onBoundsChange`: the platform has stored `bounds`; the gradient is
      marked dirty. */
  function OnBoundsChange(d: Drawable, bounds: Rect): (r: Drawable)
    ensures r.gradientIsDirty && r.bounds == bounds
    ensures r.(gradientIsDirty := d.gradientIsDirty, bounds := d.bounds) == d
  {
    d.(bounds := bounds, gradientIsDirty := true)
  }

  /** `ensureValidRect`: when the gradient is dirty, clear the flag, take
      the current bounds and recompute the shader (kept as it was when
      there are no colours or the constructor throws); report whether the
      bounds are non-empty, or the exception. The flag is cleared before
      the shader is built, so a throwing constructor is not retried. */
  function EnsureValidRect(d: Drawable): (r: (Drawable, Result<bool, ShaderError>))
    requires SweepDefined(d.state.gradient)
    ensures r.1.Ok? ==> (r.1.value <==> !d.bounds.IsEmpty())
    ensures r.1.Err? <==>
      d.gradientIsDirty && Recompute(d.state.gradient, d.bounds, d.level, d.shader, d.gradientRadius).error.Some?
    ensures r.1.Err? ==>
      r.1.error == Recompute(d.state.gradient, d.bounds, d.level, d.shader, d.gradientRadius).error.value
    ensures !r.0.gradientIsDirty
    ensures !d.gradientIsDirty ==> r == (d, Ok(!d.bounds.IsEmpty()))
    ensures d.gradientIsDirty ==> r.0.gradientBounds == d.bounds
    ensures d.gradientIsDirty ==>
      var res := Recompute(d.state.gradient, d.bounds, d.level, d.shader, d.gradientRadius);
      r.0.shader == res.shader && r.0.gradientRadius == res.reported
    ensures r.1.Err? || d.state.gradient.colors.None? ==> r.0.shader == d.shader
    ensures r.0.(gradientIsDirty := d.gradientIsDirty, gradientBounds := d.gradientBounds,
                 shader := d.shader, gradientRadius := d.gradientRadius) == d
  {
    if d.gradientIsDirty then
      var res := Recompute(d.state.gradient, d.bounds, d.level, d.shader, d.gradientRadius);
      var d1 := d.(gradientIsDirty := false, gradientBounds := d.bounds, shader := res.shader,
                   gradientRadius := res.reported);
      if res.error.Some? then (d1, Err(res.error.value)) else (d1, Ok(!d.bounds.IsEmpty()))
    else (d, Ok(!d.bounds.IsEmpty()))
  }

  /** A second call neither recomputes, nor changes anything, nor throws. */
  lemma EnsureValidRectIdempotent(d: Drawable)
    requires SweepDefined(d.state.gradient)
    ensures EnsureValidRect(EnsureValidRect(d).0) == (EnsureValidRect(d).0, Ok(!d.bounds.IsEmpty()))
  {
  }

  /** After any gradient setter, level change or bounds change, the next
      `ensureValidRect` recomputes from the new parameters and bounds. */
  lemma ChangesAreRecomputed(d: Drawable, t: int, level: int, bounds: Rect)
    requires SweepDefined(d.state.gradient.(gradientType := t))
    ensures var r := SetGradientType(d, t);
      EnsureValidRect(r).0.shader == Recompute(r.state.gradient, r.bounds, r.level, r.shader, r.gradientRadius).shader
    ensures SweepDefined(d.state.gradient) ==>
      var r := OnBoundsChange(OnLevelChange(d, level).0, bounds);
      EnsureValidRect(r).0.gradientBounds == bounds &&
      EnsureValidRect(r).0.shader == Recompute(d.state.gradient, bounds, level, d.shader, d.gradientRadius).shader
  {
  }

  /** The `gradientRadius` getter: 0 unless the gradient is radial;
      otherwise the radius remembered by the last recomputation, after
      bringing the gradient up to date, or the exception that throws. */
  function GetGradientRadius(d: Drawable): (r: (Drawable, Result<real, ShaderError>))
    ensures d.state.gradient.gradientType != RadialType ==> r == (d, Ok(0.0))
    ensures d.state.gradient.gradientType == RadialType ==> r.0 == EnsureValidRect(d).0
    ensures d.state.gradient.gradientType == RadialType ==>
      (r.1.Err? <==> EnsureValidRect(d).1.Err?) && (r.1.Ok? ==> r.1.value == r.0.gradientRadius)
    ensures d.state.gradient.gradientType == RadialType && d.state.gradient.colors.Some? && d.gradientIsDirty ==>
      r.0.gradientRadius == d.state.gradient.radius * (if d.state.gradient.useLevel then LevelFraction(d.level) else 1.0)
  {
    if d.state.gradient.gradientType != RadialType then (d, Ok(0.0))
    else
      var (d1, valid) := EnsureValidRect(d);
      if valid.Err? then (d1, Err(valid.error)) else (d1, Ok(d1.gradientRadius))
  }

  /** With the intended setter, a radius set on a radial gradient that does
      not follow the level is the radius read back, provided there are two
      colours or more; with fewer the constructor throws, after the radius
      has been remembered. */
  lemma RadiusRoundTrip(d: Drawable, v: real)
    requires d.state.gradient.gradientType == RadialType && d.state.gradient.colors.Some?
    requires !d.state.gradient.useLevel
    ensures |d.state.gradient.colors.value| >= 2 ==> GetGradientRadius(SetGradientRadius(d, v)).1 == Ok(v)
    ensures |d.state.gradient.colors.value| < 2 ==>
      var r := GetGradientRadius(SetGradientRadius(d, v));
      r.1 == Err(TooFewColors) && r.0.gradientRadius == v
  {
  }

  // ---------------------------------------------------------------------
  // Drawing

  /** One `drawText` call: the glyph, drawn centred at `x`, at a text size
      equal to the bounds' height, with the shader and colour filter in
      effect. */
  datatype TextDraw = TextDraw(text: JString, x: real, textSize: real, shader: Option<Shader>, filter: Option<ColorFilter>)

  /** Whether `draw` gets past its first two tests: positive height and a
      non-empty glyph. */
  predicate DrawsText(d: Drawable) {
    d.bounds.Height() > 0 && d.state.text.Some? && d.state.text.value != []
  }

  /** `draw`: the glyph is drawn only when the bounds have positive height,
      a code is set, the bounds are non-empty and no shader constructor
      throws. An explicit colour filter takes precedence over the tint
      filter. The paint's filter and shader are put back after drawing (the
      text size it keeps is not modelled); only the gradient cache may
      change, also when the call throws. */
  function Draw(d: Drawable): (r: (Drawable, Result<Option<TextDraw>, ShaderError>))
    requires DrawsText(d) ==> SweepDefined(d.state.gradient)
    ensures !DrawsText(d) ==> r == (d, Ok(None))
    ensures DrawsText(d) ==> r.0 == EnsureValidRect(d).0
    ensures r.1.Err? <==> DrawsText(d) && EnsureValidRect(d).1.Err?
    ensures r.1.Ok? && r.1.value.Some? <==> DrawsText(d) && EnsureValidRect(d).1.Ok? && !d.bounds.IsEmpty()
    ensures r.1.Ok? && r.1.value.Some? ==>
      && r.1.value.value.text == d.state.text.value
      && r.1.value.value.textSize == d.bounds.Height() as real
      && r.1.value.value.x == d.bounds.ExactCenterX()
      && r.1.value.value.shader == r.0.shader
      && r.1.value.value.filter == (if d.state.paint.colorFilter.Some? then d.state.paint.colorFilter else d.tintFilter)
    ensures r.0.state == d.state
  {
    var height := d.bounds.Height();
    var text := d.state.text;
    if height > 0 && text.Some? && text.value != [] then
      var (d1, valid) := EnsureValidRect(d);
      if valid.Err? then (d1, Err(valid.error))
      else if valid.value then
        var filter := if d.state.paint.colorFilter.None? then d.tintFilter else d.state.paint.colorFilter;
        (d1, Ok(Some(TextDraw(text.value, d.bounds.ExactCenterX(), height as real, d1.shader, filter))))
      else (d1, Ok(None))
    else (d, Ok(None))
  }

  /** Drawing twice with nothing changed in between leaves the drawable as
      the first draw left it, and the second draw does not throw: the
      gradient is computed at most once. If the first draw did not throw,
      the second draws the same thing. */
  lemma DrawTwiceIsStable(d: Drawable)
    requires DrawsText(d) ==> SweepDefined(d.state.gradient)
    ensures Draw(Draw(d).0).0 == Draw(d).0
    ensures Draw(Draw(d).0).1.Ok?
    ensures Draw(d).1.Ok? ==> Draw(Draw(d).0).1 == Draw(d).1
  {
    if DrawsText(d) {
      EnsureValidRectIdempotent(d);
    }
  }

  /** A draw that throws is not repeated by the next one: that draw uses
      the shader from before the failed recomputation, for the new bounds. */
  lemma FailedShaderIsKept(d: Drawable)
    requires (DrawsText(d) ==> SweepDefined(d.state.gradient)) && Draw(d).1.Err?
    ensures var again := Draw(Draw(d).0).1;
      again.Ok? && (again.value.Some? ==> again.value.value.shader == d.shader)
  {
    EnsureValidRectIdempotent(d);
  }

  /** The stale positions of a three-colour gradient make the next linear
      draw throw once the colours are replaced by two. */
  lemma StalePositionsThrow(d: Drawable, a: int, b: int, c: int, positions: seq<real>)
    requires d.state.gradient.gradientType == LinearType && |positions| == 3
    requires DrawsText(d)
    ensures var r := SetColors(SetColorsAndOffsets(d, [a, b, c], positions), [a, b]);
      Draw(r).1 == Err(LengthMismatch)
  {
  }

  // ---------------------------------------------------------------------
  // Simple properties

  /** `typeface = t`: empties the callback slot, so a pending font fetch
      can no longer apply its result. */
  function SetTypeface(d: Drawable, t: Option<Typeface>): (r: Drawable)
    ensures r.state.paint.typeface == t && r.updateLock.None?
    ensures r.state.paint.(typeface := d.state.paint.typeface) == d.state.paint
    ensures r.state.(paint := d.state.paint) == d.state
    ensures r.(state := d.state, updateLock := d.updateLock) == d
  {
    d.(updateLock := None, state := d.state.(paint := d.state.paint.(typeface := t)))
  }

  /** `code = c`: the glyph becomes the one-character string of `c`, or
      none. */
  function SetCode(d: Drawable, c: Option<CodeUnit>): (r: Drawable)
    ensures c.Some? ==> r.state.text == Some([c.value])
    ensures c.None? ==> r.state.text.None?
    ensures r.state.(text := d.state.text) == d.state && r.(state := d.state) == d
  {
    d.(state := d.state.(text := if c.Some? then Some([c.value]) else None))
  }

  /** The `code` getter: the first character of the glyph text, or none
      without a text. `get(0)` would throw on an empty text, which neither
      `code = c` nor inflation ever stores. */
  function GetCode(d: Drawable): (c: Option<CodeUnit>)
    requires d.state.text != Some([])
    ensures d.state.text.None? ==> c.None?
    ensures d.state.text.Some? ==> c == Some(d.state.text.value[0])
  {
    if d.state.text.Some? && d.state.text.value != [] then Some(d.state.text.value[0]) else None
  }

  lemma CodeRoundTrip(d: Drawable, c: Option<CodeUnit>)
    ensures GetCode(SetCode(d, c)) == c
  {
  }

  /** `color = v`: the whole colour, alpha included. */
  function SetColor(d: Drawable, v: int): (r: Drawable)
    ensures r.state.paint.color == v
    ensures GetAlpha(r) == AlphaOf(v)
    ensures r.state.paint.(color := d.state.paint.color) == d.state.paint
    ensures r.state.(paint := d.state.paint) == d.state && r.(state := d.state) == d
  {
    d.(state := d.state.(paint := d.state.paint.(color := v)))
  }

  /** `setAlpha(a)`: the paint colour's top byte becomes `a and 0xFF`; red,
      green and blue are kept. */
  function SetAlpha(d: Drawable, a: int): (r: Drawable)
    ensures GetAlpha(r) == a % 256
    ensures RgbOf(r.state.paint.color) == RgbOf(d.state.paint.color)
    ensures KotlinInt.IntMin <= r.state.paint.color <= KotlinInt.IntMax
    ensures r.state.paint.(color := d.state.paint.color) == d.state.paint
    ensures r.state.(paint := d.state.paint) == d.state && r.(state := d.state) == d
  {
    d.(state := d.state.(paint := d.state.paint.(color := WithAlpha(d.state.paint.color, a))))
  }

  /** `getAlpha()`: the top byte of the paint colour. */
  function GetAlpha(d: Drawable): (a: int)
    ensures 0 <= a < 256
  {
    AlphaOf(d.state.paint.color)
  }

  /** An alpha in 0..255 is read back as set; writing back the alpha read
      changes nothing; and a later `color = v` discards an earlier alpha,
      since both live in the same colour. */
  lemma AlphaRoundTrip(d: Drawable, a: int, v: int)
    ensures 0 <= a < 256 ==> GetAlpha(SetAlpha(d, a)) == a
    ensures KotlinInt.IntMin <= d.state.paint.color <= KotlinInt.IntMax ==> SetAlpha(d, GetAlpha(d)) == d
    ensures SetColor(SetAlpha(d, a), v) == SetColor(d, v)
  {
    WithAlphaLaws(d.state.paint.color, a, a);
  }

  // ---------------------------------------------------------------------
  // Asynchronous font delivery

  /** A font callback delivering `result` (`None` for a failed fetch):
      applied only while the callback `id` occupies the slot, which it then
      vacates. A failure therefore clears the typeface. */
  function DeliverFont(d: Drawable, id: nat, result: Option<Typeface>): (r: Drawable)
    ensures d.updateLock == Some(id) ==> r.updateLock.None? && r.state.paint.typeface == result
    ensures d.updateLock == Some(id) ==> r == SetTypeface(d, result)
    ensures d.updateLock != Some(id) ==> r == d
  {
    if d.updateLock == Some(id) then SetTypeface(d.(updateLock := None), result) else d
  }

  /** A callback applies at most once. */
  lemma DeliverOnce(d: Drawable, id: nat, t1: Option<Typeface>, t2: Option<Typeface>)
    ensures DeliverFont(DeliverFont(d, id, t1), id, t2) == DeliverFont(d, id, t1)
  {
  }

  /** Once the typeface is set directly, no pending fetch changes it. */
  lemma DirectTypefaceWins(d: Drawable, t: Option<Typeface>, id: nat, late: Option<Typeface>)
    ensures DeliverFont(SetTypeface(d, t), id, late) == SetTypeface(d, t)
  {
  }
}

=== FILE: export.dfy ===
/** The font-build script: turning a glyph's code point string into the
    lower-case hexadecimal literal of the manifest, and assembling the
    manifest itself. */
module Export {
  import opened Text
  import opened Hex
  import Json
  import opened Wrappers

  function Max(a: int, b: int): int { if a < b then b else a }

  function Zeros(k: nat): (r: JString)
    ensures |r| == k && forall i :: 0 <= i < k ==> r[i] == '0' as int
  {
    seq(k, i => '0' as int)
  }

  /** The padding loop of `fixedHex`: prepend `0` while shorter than `len`. */
  function PadLeft(s: JString, len: int): (r: JString)
    ensures r == Zeros(Max(len, |s|) - |s|) + s
    decreases len - |s|
  {
    if |s| < len then
      var r := PadLeft(['0' as int] + s, len);
      assert Zeros(len - |s| - 1) + (['0' as int] + s) == Zeros(len - |s|) + s;
      r
    else s
  }

  lemma {:induction false} HexValueZeros(k: nat, s: JString)
    requires AllHexDigits(s)
    ensures AllHexDigits(Zeros(k) + s) && HexValue(Zeros(k) + s) == HexValue(s)
  {
    if k > 0 {
      HexValueZeros(k - 1, s);
      assert Zeros(k) + s == ['0' as int] + (Zeros(k - 1) + s);
      HexValueLeadingZero(Zeros(k - 1) + s);
    } else {
      assert Zeros(k) + s == s;
    }
  }

  /** `fixedHex(number, length)`: the upper-case numeral of `n`, left-padded
      with zeros to at least `len` digits and never truncated. */
  function FixedHex(n: nat, len: int): (r: JString)
    ensures |r| == Max(len, DigitCount(n))
    ensures r[|r| - DigitCount(n)..] == UpperHexDigits(n)
    ensures AllHexDigits(r) && HexValue(r) == n
    ensures forall i :: 0 <= i < |r| ==> !IsLowerHexLetter(r[i])
  {
    var digits := UpperHexDigits(n);
    HexValueZeros(Max(len, |digits|) - |digits|, digits);
    PadLeft(digits, len)
  }

  /** What one code unit contributes to the literal before lower-casing. */
  function Piece(u: CodeUnit): JString {
    if u > MaxPrintable || u < MinPrintable then FixedHex(u, 4) else [u]
  }

  /** The pieces of `unicodeLiteral`'s loop, one per code unit. */
  function Pieces(s: JString): (r: seq<JString>)
    ensures |r| == |s|
    ensures forall i :: 0 <= i < |s| ==> r[i] == Piece(s[i])
  {
    MapUnits(Piece, s)
  }

  /** `f` applied to every code unit of `s`. */
  function MapUnits(f: CodeUnit -> JString, s: JString): (r: seq<JString>)
    ensures |r| == |s|
    ensures forall i :: 0 <= i < |s| ==> r[i] == f(s[i])
  {
    seq(|s|, i requires 0 <= i < |s| => f(s[i]))
  }

  /** Appending pieces left to right, as `result += ...` does. */
  function Concat(pieces: seq<JString>): JString {
    if pieces == [] then [] else Concat(pieces[..|pieces| - 1]) + pieces[|pieces| - 1]
  }

  function Escaped(s: JString): JString {
    Concat(Pieces(s))
  }

  /** `unicodeLiteral(str)`. */
  function UnicodeLiteral(s: JString): (r: JString)
    ensures forall i :: 0 <= i < |r| ==> !IsUpperAscii(r[i])
  {
    Lower(Escaped(s))
  }

  lemma PieceShape(u: CodeUnit)
    ensures IsPrintableAscii(u) ==> Piece(u) == [u]
    ensures !IsPrintableAscii(u) ==>
      |Piece(u)| == 4 && AllHexDigits(Piece(u)) && HexValue(Piece(u)) == u
  {
    DigitCountOfCodeUnit(u);
  }

  lemma {:induction false} ConcatAppend(x: seq<JString>, y: seq<JString>)
    ensures Concat(x + y) == Concat(x) + Concat(y)
    decreases |y|
  {
    if y == [] {
      assert x + y == x;
    } else {
      var init := y[..|y| - 1];
      assert (x + y)[..|x + y| - 1] == x + init;
      ConcatAppend(x, init);
    }
  }

  lemma MapUnitsAppend(f: CodeUnit -> JString, a: JString, b: JString)
    ensures MapUnits(f, a + b) == MapUnits(f, a) + MapUnits(f, b)
  {
    var pa, pb, pab := MapUnits(f, a), MapUnits(f, b), MapUnits(f, a + b);
    forall i | 0 <= i < |pab|
      ensures pab[i] == (pa + pb)[i]
    {
      if i < |a| {
        assert (a + b)[i] == a[i];
      } else {
        assert (a + b)[i] == b[i - |a|];
      }
    }
  }

  lemma EscapedAppend(a: JString, b: JString)
    ensures Escaped(a + b) == Escaped(a) + Escaped(b)
  {
    MapUnitsAppend(Piece, a, b);
    ConcatAppend(Pieces(a), Pieces(b));
  }

  /** Printable ASCII code units (32..126) pass through, lower-cased. */
  lemma {:induction false} PrintableCopied(s: JString)
    requires forall i :: 0 <= i < |s| ==> IsPrintableAscii(s[i])
    ensures UnicodeLiteral(s) == Lower(s)
  {
    EscapedOfPrintable(s);
  }

  lemma EscapedSingle(u: CodeUnit)
    ensures Escaped([u]) == Piece(u)
  {
    var ps := Pieces([u]);
    assert ps == [Piece(u)];
    assert ps[..0] == [];
    assert Concat(ps) == Concat(ps[..0]) + ps[0];
  }

  /** Splits off the last code unit. */
  lemma EscapedSnoc(s: JString)
    requires s != []
    ensures Escaped(s) == Escaped(s[..|s| - 1]) + Piece(s[|s| - 1])
  {
    assert s == s[..|s| - 1] + [s[|s| - 1]];
    EscapedAppend(s[..|s| - 1], [s[|s| - 1]]);
    EscapedSingle(s[|s| - 1]);
  }

  lemma {:induction false} EscapedOfPrintable(s: JString)
    requires forall i :: 0 <= i < |s| ==> IsPrintableAscii(s[i])
    ensures Escaped(s) == s
  {
    if s == [] {
      assert Pieces(s) == [];
    } else {
      EscapedOfPrintable(s[..|s| - 1]);
      EscapedSnoc(s);
      PieceShape(s[|s| - 1]);
      assert s[..|s| - 1] + [s[|s| - 1]] == s;
    }
  }

  /** Every code unit outside 32..126 becomes exactly four hexadecimal
      digits (a code unit never needs more), so the literal is three units
      longer per such code unit. */
  lemma {:induction false} LiteralLength(s: JString)
    ensures |UnicodeLiteral(s)| == |s| + 3 * NonPrintableCount(s)
  {
    EscapedLength(s);
  }

  function NonPrintableCount(s: JString): nat {
    if s == [] then 0
    else NonPrintableCount(s[..|s| - 1]) + (if IsPrintableAscii(s[|s| - 1]) then 0 else 1)
  }

  lemma {:induction false} EscapedLength(s: JString)
    ensures |Escaped(s)| == |s| + 3 * NonPrintableCount(s)
  {
    if s == [] {
      assert Pieces(s) == [];
    } else {
      EscapedLength(s[..|s| - 1]);
      EscapedSnoc(s);
      PieceShape(s[|s| - 1]);
    }
  }

  /** A single code unit outside 32..126 yields four lower-case hex digits
      whose value is the code unit. */
  lemma SingleUnitLiteral(u: CodeUnit)
    requires !IsPrintableAscii(u)
    ensures |UnicodeLiteral([u])| == 4
    ensures AllHexDigits(UnicodeLiteral([u])) && HexValue(UnicodeLiteral([u])) == u
    ensures forall i :: 0 <= i < 4 ==> !IsUpperHexLetter(UnicodeLiteral([u])[i])
  {
    EscapedSingle(u);
    PieceShape(u);
    HexValueLower(Piece(u));
  }

  /** Command-line options: `--font-name` and `--version`. */
  datatype Args = Args(fontName: Option<JString>, version: Option<JString>)

  /** JavaScript's `argv[k] || fallback`: an absent or empty option falls
      back. */
  function OrDefault(o: Option<JString>, fallback: JString): (r: JString)
    ensures o.Some? && o.value != [] ==> r == o.value
    ensures (o.None? || o.value == []) ==> r == fallback
  {
    if o.Some? && o.value != [] then o.value else fallback
  }

  function DefaultFontName(): JString { Units("iconfont") }
  function DefaultVersion(): JString { Units("0.0.1") }

  /** One entry of the list handed to `saveJson`. */
  datatype Entry = Entry(name: JString, unicode: JString)

  /** A glyph as the font generator reports it: its name and the code
      point string assigned to it (`unicode[0]`). */
  datatype Glyph = Glyph(name: JString, codePoint: JString)

  datatype Manifest = Manifest(icons: map<JString, JString>, version: JString, fonts: seq<JString>)

  /** The one name a plain JavaScript object does not store as a key:
      assigning a string to `__proto__` goes to the prototype setter, which
      ignores anything that is not an object. */
  const ProtoName: JString := [0x5F, 0x5F, 0x70, 0x72, 0x6F, 0x74, 0x6F, 0x5F, 0x5F]  // "__proto__"

  /** The `icons` object built by assigning entries in list order; an
      entry named `__proto__` leaves no key behind. */
  function Icons(list: seq<Entry>): (m: map<JString, JString>)
    ensures m.Keys == (set i | 0 <= i < |list| :: list[i].name) - {ProtoName}
  {
    if list == [] then map[]
    else
      var init := list[..|list| - 1];
      var last := list[|list| - 1];
      var m0 := Icons(init);
      assert forall i :: 0 <= i < |init| ==> init[i] == list[i];
      if last.name == ProtoName then m0 else m0[last.name := last.unicode]
  }

  /** A name maps to the literal of its LAST occurrence in the list. */
  lemma {:induction false} IconsLastWins(list: seq<Entry>, i: nat)
    requires i < |list| && list[i].name != ProtoName
    requires forall j :: i < j < |list| ==> list[j].name != list[i].name
    ensures list[i].name in Icons(list) && Icons(list)[list[i].name] == list[i].unicode
  {
    if i < |list| - 1 {
      var init := list[..|list| - 1];
      IconsLastWins(init, i);
    }
  }

  /** Every value of the `icons` table is the literal of some entry. */
  lemma {:induction false} IconsValuesFromEntries(list: seq<Entry>, k: JString)
    requires k in Icons(list)
    ensures exists i :: 0 <= i < |list| && list[i].name == k && Icons(list)[k] == list[i].unicode
  {
    var init := list[..|list| - 1];
    var last := list[|list| - 1];
    if last.name != k {
      IconsValuesFromEntries(init, k);
      var i :| 0 <= i < |init| && init[i].name == k && Icons(init)[k] == init[i].unicode;
      assert list[i] == init[i];
    }
  }

  /** `saveJson(list)`: the manifest written to `export.json`. */
  function SaveJson(list: seq<Entry>, args: Args): (m: Manifest)
    ensures m.icons.Keys == (set i | 0 <= i < |list| :: list[i].name) - {ProtoName}
    ensures m.fonts == [Units("./") + OrDefault(args.fontName, DefaultFontName()) + Units(".ttf")]
    ensures m.icons == Icons(list)
    ensures args.version.Some? && args.version.value != [] ==> m.version == args.version.value
    ensures args.version.None? || args.version.value == [] ==> m.version == Units("0.0.1")
  {
    Manifest(
      Icons(list),
      OrDefault(args.version, DefaultVersion()),
      [Units("./") + OrDefault(args.fontName, DefaultFontName()) + Units(".ttf")])
  }

  /** The list the `glyphs` handler hands to `saveJson`. */
  function GlyphEntries(glyphs: seq<Glyph>): (list: seq<Entry>)
    ensures |list| == |glyphs|
    ensures forall i :: 0 <= i < |glyphs| ==> list[i] == Entry(glyphs[i].name, UnicodeLiteral(glyphs[i].codePoint))
  {
    seq(|glyphs|, i requires 0 <= i < |glyphs| => Entry(glyphs[i].name, UnicodeLiteral(glyphs[i].codePoint)))
  }

  /** The `glyphs` handler: one entry per glyph, in order, whose literal is
      the glyph's code point string run through `unicodeLiteral`. */
  function ExportGlyphs(glyphs: seq<Glyph>, args: Args): (m: Manifest)
    ensures m.icons.Keys == (set i | 0 <= i < |glyphs| :: glyphs[i].name) - {ProtoName}
    ensures forall i :: 0 <= i < |glyphs| && glyphs[i].name != ProtoName && (forall j :: i < j < |glyphs| ==> glyphs[j].name != glyphs[i].name) ==>
      m.icons[glyphs[i].name] == UnicodeLiteral(glyphs[i].codePoint)
  {
    var list := GlyphEntries(glyphs);
    assert (set i | 0 <= i < |list| :: list[i].name) == (set i | 0 <= i < |glyphs| :: glyphs[i].name);
    forall i | 0 <= i < |glyphs| && glyphs[i].name != ProtoName && (forall j :: i < j < |glyphs| ==> glyphs[j].name != glyphs[i].name)
      ensures Icons(list)[glyphs[i].name] == UnicodeLiteral(glyphs[i].codePoint)
    {
      IconsLastWins(list, i);
    }
    SaveJson(list, args)
  }

  /** Every literal in the exported table is that of a glyph of that name. */
  lemma ExportedFromGlyph(glyphs: seq<Glyph>, args: Args, k: JString) returns (i: nat)
    requires k in ExportGlyphs(glyphs, args).icons
    ensures i < |glyphs| && glyphs[i].name == k
    ensures ExportGlyphs(glyphs, args).icons[k] == UnicodeLiteral(glyphs[i].codePoint)
  {
    var list := GlyphEntries(glyphs);
    IconsValuesFromEntries(list, k);
    i :| 0 <= i < |list| && list[i].name == k && Icons(list)[k] == list[i].unicode;
  }

  /** The literal as evidently intended: every code unit, printable or not,
      written as four lower-case hexadecimal digits. */
  function HexLiteral(s: JString): (r: JString)
    ensures forall i :: 0 <= i < |r| ==> !IsUpperAscii(r[i])
  {
    Lower(Concat(MapUnits(HexPiece, s)))
  }

  function HexPiece(u: CodeUnit): JString {
    FixedHex(u, 4)
  }

  /** The corrected literal of any single code unit is four hexadecimal
      digits whose value is that unit. */
  lemma SingleUnitHexLiteral(u: CodeUnit)
    ensures |HexLiteral([u])| == 4
    ensures AllHexDigits(HexLiteral([u])) && HexValue(HexLiteral([u])) == u
  {
    var ps := MapUnits(HexPiece, [u]);
    assert ps == [FixedHex(u, 4)];
    assert ps[..0] == [];
    assert Concat(ps) == Concat(ps[..0]) + ps[0];
    assert HexLiteral([u]) == Lower(FixedHex(u, 4));
    DigitCountOfCodeUnit(u);
    HexValueLower(FixedHex(u, 4));
  }

  /** The last glyph of a name other than `__proto__` is exported under
      that name with its own literal. */
  lemma LastGlyphExported(glyphs: seq<Glyph>, args: Args, i: nat)
    requires i < |glyphs| && glyphs[i].name != ProtoName
    requires forall j :: i < j < |glyphs| ==> glyphs[j].name != glyphs[i].name
    ensures var m := ExportGlyphs(glyphs, args);
      glyphs[i].name in m.icons && m.icons[glyphs[i].name] == UnicodeLiteral(glyphs[i].codePoint)
  {
    IconsLastWins(GlyphEntries(glyphs), i);
  }

  /** The manifest as the JSON object `{icons, version, fonts}`. */
  function ManifestJson(m: Manifest): (v: Json.Value)
    ensures v.Obj? && v.members.Keys == {Units("icons"), Units("version"), Units("fonts")}
    ensures v.members[Units("icons")].Obj? && v.members[Units("icons")].members.Keys == m.icons.Keys
    ensures forall k :: k in m.icons ==> v.members[Units("icons")].members[k] == Json.Str(m.icons[k])
    ensures v.members[Units("version")] == Json.Str(m.version)
  {
    Json.Obj(map[
      Units("icons") := Json.Obj(map k | k in m.icons :: Json.Str(m.icons[k])),
      Units("version") := Json.Str(m.version),
      Units("fonts") := Json.Arr(seq(|m.fonts|, i requires 0 <= i < |m.fonts| => Json.Str(m.fonts[i])))])
  }
}

=== FILE: geometry.dfy ===
/** Integer rectangles as `android.graphics.Rect` holds them. */
module Geometry {

  datatype Rect = Rect(left: int, top: int, right: int, bottom: int) {

    function Width(): int { right - left }

    function Height(): int { bottom - top }

    /** `Rect.isEmpty`: no positive area. */
    predicate IsEmpty() { left >= right || top >= bottom }

    /** `Rect.exactCenterX`. */
    function ExactCenterX(): real { (left + right) as real / 2.0 }
  }
}

=== FILE: gradient.dfy ===
/** The gradient part of the glyph drawable: merging the attributes of a
    `<gradient>` child element into the drawable's gradient parameters, and
    the shader geometry derived from them and the drawable's bounds. */
module Gradient {
  import opened Wrappers
  import opened KotlinInt
  import opened Geometry

  /** `GradientDrawable.Orientation`: where the gradient starts and ends. */
  datatype Orientation = TopBottom | TrBl | RightLeft | BrTl | BottomTop | BlTr | LeftRight | TlBr

  /** `GradientDrawable`'s gradient type constants. */
  const LinearType: int := 0
  const RadialType: int := 1
  const SweepType: int := 2

  /** The gradient fields of the drawable's state. */
  datatype Params = Params(
    centerX: real,
    centerY: real,
    useLevel: bool,
    angle: int,
    orientation: Orientation,
    colors: Option<seq<int>>,
    positions: Option<seq<real>>,
    gradientType: int,
    radius: real)

  const Initial: Params := Params(0.0, 0.0, false, 0, TopBottom, None, None, LinearType, 0.0)

  /** The direction an orientation runs in, in screen coordinates (y grows
      downwards): the sign of its x and y components. */
  function DirX(o: Orientation): int {
    match o
    case TopBottom => 0
    case BottomTop => 0
    case LeftRight => 1
    case TlBr => 1
    case BlTr => 1
    case RightLeft => -1
    case TrBl => -1
    case BrTl => -1
  }

  function DirY(o: Orientation): int {
    match o
    case LeftRight => 0
    case RightLeft => 0
    case TopBottom => 1
    case TlBr => 1
    case TrBl => 1
    case BottomTop => -1
    case BlTr => -1
    case BrTl => -1
  }

  /** Signs of cosine and sine of an angle in degrees from [0, 360). */
  function CosSign(a: int): int {
    if a == 90 || a == 270 then 0 else if a < 90 || a > 270 then 1 else -1
  }

  function SinSign(a: int): int {
    if a == 0 || a == 180 then 0 else if a < 180 then 1 else -1
  }

  /** `(angle % 360 + 360) % 360` with Kotlin's truncating `%`: the angle
      brought into [0, 360), congruent to the input modulo 360. */
  function NormalizeAngle(a: int): (r: int)
    ensures 0 <= r < 360
    ensures r == a % 360
  {
    Rem(Rem(a, 360) + 360, 360)
  }

  lemma NormalizeNegativeRightAngle()
    ensures NormalizeAngle(-90) == 270
  {
  }

  /** The orientation table for a normalised angle. Angles that are not a
      multiple of 45 keep the previous orientation; the `TOP_BOTTOM`
      fallback for a negative angle is never reached. */
  function OrientationFor(angle: int, previous: Orientation): (o: Orientation)
    ensures 0 <= angle && angle % 45 != 0 ==> o == previous
    ensures 360 <= angle ==> o == previous
  {
    if angle >= 0 then
      if angle == 0 then LeftRight
      else if angle == 45 then BlTr
      else if angle == 90 then BottomTop
      else if angle == 135 then BrTl
      else if angle == 180 then RightLeft
      else if angle == 225 then TrBl
      else if angle == 270 then TopBottom
      else if angle == 315 then TlBr
      else previous
    else TopBottom
  }

  /** Each of the eight angles selects the orientation that runs along the
      angle, measured counter-clockwise from the positive x axis. */
  lemma {:induction false} OrientationRunsAlongAngle(k: int, previous: Orientation)
    requires 0 <= k < 8
    ensures DirX(OrientationFor(45 * k, previous)) == CosSign(45 * k)
    ensures DirY(OrientationFor(45 * k, previous)) == -SinSign(45 * k)
  {
  }

  /** The table's fallback branch is dead: after normalisation the angle is
      never negative, so the orientation never falls back to `TOP_BOTTOM`
      on account of the angle. */
  lemma {:induction false} FallbackUnreachable(a: int, previous: Orientation)
    requires NormalizeAngle(a) % 45 != 0
    ensures OrientationFor(NormalizeAngle(a), previous) == previous
  {
  }

  /** The attributes of one `<gradient>` element, already resolved. */
  datatype Attrs = Attrs(
    centerX: Option<real>,
    centerY: Option<real>,
    useLevel: Option<bool>,
    gradientType: Option<int>,
    startColor: Option<int>,
    centerColor: Option<int>,
    endColor: Option<int>,
    angle: Option<real>,
    radius: Option<real>)

  const NoAttrs: Attrs := Attrs(None, None, None, None, None, None, None, None, None)

  /** `IntArray.first()` on an empty colour array. */
  datatype MergeError = NoSuchElement

  function Last(s: seq<int>): int
    requires |s| > 0
  {
    s[|s| - 1]
  }

  /** `updateGradientDrawableGradient`: merge one element's attributes into
      the parameters. An attribute that is absent keeps the previous value;
      a missing colour defaults to the previous start/centre/end colour, or
      0 when there was none. */
  function Merge(p: Params, a: Attrs): (r: Result<Params, MergeError>)
    ensures r.Err? <==> p.colors == Some([])
    ensures r.Ok? ==>
      var q := r.value;
      var hadCenter := p.colors.Some? && |p.colors.value| == 3;
      var hasCenter := a.centerColor.Some? || hadCenter;
      && q.colors.Some?
      && (hasCenter ==> |q.colors.value| == 3)
      && (!hasCenter ==> |q.colors.value| == 2)
      && q.colors.value[0] == a.startColor.GetOr(if p.colors.Some? then p.colors.value[0] else 0)
      && Last(q.colors.value) == a.endColor.GetOr(if p.colors.Some? then Last(p.colors.value) else 0)
      && (hasCenter ==> q.colors.value[1] == a.centerColor.GetOr(if hadCenter then p.colors.value[1] else 0))
      && (hasCenter ==> q.positions == Some([0.0, if q.centerX != 0.5 then q.centerX else q.centerY, 1.0]))
      && (!hasCenter ==> q.positions == p.positions)
    ensures r.Ok? ==>
      var q := r.value;
      && q.centerX == a.centerX.GetOr(p.centerX)
      && q.centerY == a.centerY.GetOr(p.centerY)
      && q.useLevel == a.useLevel.GetOr(p.useLevel)
      && q.gradientType == a.gradientType.GetOr(p.gradientType)
      && q.radius == a.radius.GetOr(p.radius)
      && q.angle == NormalizeAngle(if a.angle.Some? then FloatToInt(a.angle.value) else p.angle)
      && q.orientation == OrientationFor(q.angle, p.orientation)
  {
    if p.colors == Some([]) then Err(NoSuchElement)
    else
      var centerX := a.centerX.GetOr(p.centerX);
      var centerY := a.centerY.GetOr(p.centerY);
      var hasGradientCenter := p.colors.Some? && |p.colors.value| == 3;
      var prevStart := if p.colors.None? then 0 else p.colors.value[0];
      var prevCenter := if hasGradientCenter then p.colors.value[1] else 0;
      var prevEnd := if p.colors.None? then 0 else Last(p.colors.value);
      var startColor := a.startColor.GetOr(prevStart);
      var hasCenterColor := a.centerColor.Some? || hasGradientCenter;
      var centerColor := a.centerColor.GetOr(prevCenter);
      var endColor := a.endColor.GetOr(prevEnd);
      var (colors, positions) :=
        if hasCenterColor then
          ([startColor, centerColor, endColor], Some([0.0, if centerX != 0.5 then centerX else centerY, 1.0]))
        else
          ([startColor, endColor], p.positions);
      var angle := NormalizeAngle(if a.angle.Some? then FloatToInt(a.angle.value) else p.angle);
      Ok(Params(
        centerX, centerY, a.useLevel.GetOr(p.useLevel), angle, OrientationFor(angle, p.orientation),
        Some(colors), positions, a.gradientType.GetOr(p.gradientType), a.radius.GetOr(p.radius)))
  }

  /** The parameters as they stand when `IntArray.first()` throws: the
      centre, `useLevel` and type have already been merged, nothing else. */
  function MergeLeading(p: Params, a: Attrs): (q: Params)
    ensures q.centerX == a.centerX.GetOr(p.centerX) && q.centerY == a.centerY.GetOr(p.centerY)
    ensures q.useLevel == a.useLevel.GetOr(p.useLevel) && q.gradientType == a.gradientType.GetOr(p.gradientType)
    ensures q.(centerX := p.centerX, centerY := p.centerY, useLevel := p.useLevel, gradientType := p.gradientType) == p
  {
    p.(centerX := a.centerX.GetOr(p.centerX), centerY := a.centerY.GetOr(p.centerY),
       useLevel := a.useLevel.GetOr(p.useLevel), gradientType := a.gradientType.GetOr(p.gradientType))
  }

  /** An element without attributes leaves colours, positions and the
      other parameters as they were, whenever the drawable already had a
      two- or three-colour gradient and a normalised angle. */
  lemma {:induction false} MergeNothingIsIdentity(p: Params)
    requires p.colors.Some? && (|p.colors.value| == 2 || |p.colors.value| == 3)
    requires |p.colors.value| == 3 ==> p.positions == Some([0.0, if p.centerX != 0.5 then p.centerX else p.centerY, 1.0])
    requires 0 <= p.angle < 360 && (p.angle % 45 == 0 ==> p.orientation == OrientationFor(p.angle, p.orientation))
    ensures Merge(p, NoAttrs) == Ok(p)
  {
    var q := Merge(p, NoAttrs).value;
    assert q.colors.value == p.colors.value;
    assert q.angle == p.angle;
  }

  /** A three-colour gradient gets a non-decreasing position array when
      the centre it takes lies in [0, 1]. */
  lemma {:induction false} CenterPositionsOrdered(p: Params, a: Attrs)
    requires Merge(p, a).Ok? && |Merge(p, a).value.colors.value| == 3
    requires 0.0 <= a.centerX.GetOr(p.centerX) <= 1.0 && 0.0 <= a.centerY.GetOr(p.centerY) <= 1.0
    ensures var ps := Merge(p, a).value.positions.value;
      |ps| == 3 && ps[0] <= ps[1] <= ps[2]
  {
    if a.centerColor.None? {
      assert p.colors.Some? && |p.colors.value| == 3;
    }
  }

  /** The two-colour branch leaves a stale three-entry position array in
      place, so colours and positions can disagree in length. */
  lemma StalePositionsSurvive()
    ensures var p := Initial.(colors := Some([1, 2]), positions := Some([0.0, 0.5, 1.0]));
      Merge(p, NoAttrs).Ok? &&
      |Merge(p, NoAttrs).value.colors.value| == 2 &&
      Merge(p, NoAttrs).value.positions == Some([0.0, 0.5, 1.0])
  {
  }

  /** `level / 10000f`. */
  function LevelFraction(level: int): real {
    level as real / 10000.0
  }

  datatype Line = Line(x0: real, y0: real, x1: real, y1: real)

  /** Start and end points of a linear gradient. The start is the rect's
      edge or corner the orientation starts from; each end coordinate that
      moves is the absolute rect coordinate scaled by `level`. */
  function LinearLine(o: Orientation, r: Rect, level: real): (l: Line)
    ensures l.x0 == (if DirX(o) < 0 then r.right else r.left) as real
    ensures l.y0 == (if DirY(o) < 0 then r.bottom else r.top) as real
    ensures DirX(o) == 0 ==> l.x1 == l.x0
    ensures DirY(o) == 0 ==> l.y1 == l.y0
    ensures DirX(o) != 0 ==> l.x1 == level * (if DirX(o) < 0 then r.left else r.right) as real
    ensures DirY(o) != 0 ==> l.y1 == level * (if DirY(o) < 0 then r.top else r.bottom) as real
  {
    var left, top, right, bottom := r.left as real, r.top as real, r.right as real, r.bottom as real;
    match o
    case TopBottom => Line(left, top, left, level * bottom)
    case TrBl => Line(right, top, level * left, level * bottom)
    case RightLeft => Line(right, top, level * left, top)
    case BrTl => Line(right, bottom, level * left, level * top)
    case BottomTop => Line(left, bottom, left, level * top)
    case BlTr => Line(left, bottom, level * right, level * top)
    case LeftRight => Line(left, top, level * right, top)
    case _ => Line(left, top, level * right, level * bottom)
  }

  /** At full level the gradient spans the rect along its orientation: the
      displacement is the direction times the rect's size. */
  lemma {:induction false} LinearSpansRect(o: Orientation, r: Rect)
    ensures LinearLine(o, r, 1.0).x1 - LinearLine(o, r, 1.0).x0 == (DirX(o) * r.Width()) as real
    ensures LinearLine(o, r, 1.0).y1 - LinearLine(o, r, 1.0).y0 == (DirY(o) * r.Height()) as real
  {
  }

  /** The point a fraction `f` of the way from `lo` to `hi`. */
  function Along(lo: int, hi: int, f: real): real {
    lo as real + (hi - lo) as real * f
  }

  datatype RadialGeometry = RadialGeometry(cx: real, cy: real, radius: real, reported: real)

  /** Centre and radius of a radial gradient. The shader radius is always
      positive: a non-positive radius becomes 0.001. `reported` is the
      radius before that clamp, which the drawable remembers. */
  function RadialFor(p: Params, r: Rect, level: int): (g: RadialGeometry)
    ensures g.radius > 0.0
    ensures g.reported == p.radius * (if p.useLevel then LevelFraction(level) else 1.0)
    ensures g.reported > 0.0 ==> g.radius == g.reported
    ensures g.reported <= 0.0 ==> g.radius == 0.001
  {
    var radius := if p.useLevel then p.radius * LevelFraction(level) else p.radius;
    RadialGeometry(
      Along(r.left, r.right, p.centerX),
      Along(r.top, r.bottom, p.centerY),
      if radius <= 0.0 then 0.001 else radius,
      radius)
  }

  lemma ScaleMonotone(a: real, b: real, c: real)
    requires a >= 0.0 && b <= c
    ensures a * b <= a * c
  {
    assert a * c - a * b == a * (c - b);
  }

  lemma ScaleWithin(w: real, f: real)
    requires w >= 0.0 && 0.0 <= f <= 1.0
    ensures 0.0 <= w * f <= w
  {
    ScaleMonotone(w, 0.0, f);
    ScaleMonotone(w, f, 1.0);
  }

  lemma AlongWithin(lo: int, hi: int, f: real)
    requires lo <= hi && 0.0 <= f <= 1.0
    ensures lo as real <= Along(lo, hi, f) <= hi as real
  {
    ScaleWithin((hi - lo) as real, f);
  }

  /** With centre fractions in [0, 1] the centre lies within the rect. */
  lemma {:induction false} CenterWithinRect(p: Params, r: Rect, level: int)
    requires 0.0 <= p.centerX <= 1.0 && 0.0 <= p.centerY <= 1.0
    requires !r.IsEmpty()
    ensures r.left as real <= RadialFor(p, r, level).cx <= r.right as real
    ensures r.top as real <= RadialFor(p, r, level).cy <= r.bottom as real
  {
    AlongWithin(r.left, r.right, p.centerX);
    AlongWithin(r.top, r.bottom, p.centerY);
  }

  /** Colour and position arrays of a sweep gradient. With `useLevel` the
      last colour is repeated once more and the stops are spread evenly
      over [0, level] with a final stop at 1; otherwise the colours are
      used as they are, without positions. */
  function SweepStops(colors: seq<int>, useLevel: bool, level: int): (r: (seq<int>, Option<seq<real>>))
    requires useLevel ==> |colors| >= 2
    ensures !useLevel ==> r == (colors, None)
    ensures useLevel ==> |r.0| == |colors| + 1 && r.0[..|colors|] == colors && r.0[|colors|] == Last(colors)
    ensures useLevel ==> r.1.Some? && |r.1.value| == |colors| + 1 && r.1.value[|colors|] == 1.0
    ensures useLevel ==> forall i :: 0 <= i < |colors| ==>
      r.1.value[i] == i as real * (1.0 / (|colors| - 1) as real) * LevelFraction(level)
  {
    if !useLevel then (colors, None)
    else
      var n := |colors|;
      var fraction := 1.0 / (n - 1) as real;
      var lf := LevelFraction(level);
      var positions := seq(n + 1, i requires 0 <= i <= n => if i < n then i as real * fraction * lf else 1.0);
      (colors + [Last(colors)], Some(positions))
  }

  /** Coloured sweep stop `k` of `n`, for the level fraction `lf`. */
  function Stop(n: nat, lf: real, k: nat): real
    requires n >= 2
  {
    k as real * (1.0 / (n - 1) as real) * lf
  }

  lemma StopsOrdered(n: nat, lf: real, i: nat, j: nat)
    requires n >= 2 && 0.0 <= lf <= 1.0 && i <= j < n
    ensures Stop(n, lf, i) <= Stop(n, lf, j) <= 1.0
  {
    var fraction := 1.0 / (n - 1) as real;
    ScaleMonotone(fraction, i as real, j as real);
    ScaleMonotone(lf, i as real * fraction, j as real * fraction);
    ScaleMonotone(fraction, j as real, (n - 1) as real);
    assert (n - 1) as real * fraction == 1.0;
    ScaleWithin(lf, j as real * fraction);
  }

  lemma LastStop(n: nat, lf: real)
    requires n >= 2
    ensures (n - 1) as real * (1.0 / (n - 1) as real) * lf == lf
  {
  }

  /** The sweep stops start at 0, end the coloured part exactly at the
      level fraction, and never decrease for a level in [0, 10000]. */
  lemma {:induction false} SweepStopsSpanLevel(colors: seq<int>, level: int)
    requires |colors| >= 2 && 0 <= level <= 10000
    ensures var ps := SweepStops(colors, true, level).1.value;
      && ps[0] == 0.0
      && ps[|colors| - 1] == LevelFraction(level)
      && forall i, j :: 0 <= i <= j <= |colors| ==> ps[i] <= ps[j]
  {
    var n := |colors|;
    var ps := SweepStops(colors, true, level).1.value;
    LastStop(n, LevelFraction(level));
    forall i, j | 0 <= i <= j <= n
      ensures ps[i] <= ps[j]
    {
      SweepStopsOrdered(colors, level, i, j);
    }
  }

  /** Two sweep stops in index order are in value order. */
  lemma SweepStopsOrdered(colors: seq<int>, level: int, i: nat, j: nat)
    requires |colors| >= 2 && 0 <= level <= 10000 && i <= j <= |colors|
    ensures var ps := SweepStops(colors, true, level).1.value;
      ps[i] <= ps[j]
  {
    var n := |colors|;
    var lf := LevelFraction(level);
    if j < n {
      StopsOrdered(n, lf, i, j);
      StopValue(colors, level, i);
      StopValue(colors, level, j);
    } else if i < n {
      StopsOrdered(n, lf, i, i);
      StopValue(colors, level, i);
    }
  }

  /** The value of one coloured sweep stop. */
  lemma StopValue(colors: seq<int>, level: int, k: nat)
    requires |colors| >= 2 && k < |colors|
    ensures SweepStops(colors, true, level).1.value[k] == Stop(|colors|, LevelFraction(level), k)
  {
  }

  /** A shader as the platform constructs it. */
  datatype Shader =
    | LinearShader(line: Line, colors: seq<int>, positions: Option<seq<real>>)
    | RadialShader(cx: real, cy: real, radius: real, colors: seq<int>)
    | SweepShader(cx: real, cy: real, colors: seq<int>, positions: Option<seq<real>>)

  /** Why building a shader throws: the platform gradient constructors
      reject fewer than two colours (`TooFewColors`) and a position array
      whose length differs from the colour array's (`LengthMismatch`);
      the sweep branch with `useLevel` reads the last colour of an empty
      array (`NoLastColor`). */
  datatype ShaderError = TooFewColors | LengthMismatch | NoLastColor

  /** The argument check of the `LinearGradient`, `RadialGradient` and
      `SweepGradient` constructors. */
  function ShaderArgsError(colors: seq<int>, positions: Option<seq<real>>): (e: Option<ShaderError>)
    ensures e.None? <==> |colors| >= 2 && (positions.Some? ==> |positions.value| == |colors|)
    ensures e.Some? ==> e.value != NoLastColor
  {
    if |colors| < 2 then Some(TooFewColors)
    else if positions.Some? && |positions.value| != |colors| then Some(LengthMismatch)
    else None
  }

  /** The outcome of a recomputation: the shader in effect afterwards, the
      radius remembered for the getter, and the exception thrown, if any. */
  datatype Recomputed = Recomputed(shader: Option<Shader>, reported: real, error: Option<ShaderError>)

  /** Constructing `s` from `colors` and `positions`: on success it replaces
      the shader `current`; when the constructor throws, `current` stays. */
  function Construct(s: Shader, colors: seq<int>, positions: Option<seq<real>>,
                     current: Option<Shader>, reported: real): (res: Recomputed)
    ensures res.reported == reported
    ensures res.error == ShaderArgsError(colors, positions)
    ensures res.shader == if res.error.None? then Some(s) else current
  {
    var e := ShaderArgsError(colors, positions);
    if e.None? then Recomputed(Some(s), reported, None) else Recomputed(current, reported, e)
  }

  /** The sweep branch with `useLevel` and a single colour divides 1 by 0
      in floating point; the stops it then computes are infinite or NaN,
      which the real numbers of this model cannot hold. */
  predicate SweepDefined(p: Params) {
    p.gradientType == SweepType && p.useLevel && p.colors.Some? ==> |p.colors.value| != 1
  }

  /** The gradient recomputation of `ensureValidRect` for the rect `r`.
      Without colours, or for an unknown type, nothing changes. Otherwise
      the shader for the type is built; the radial branch updates the
      remembered radius before its constructor runs, so it is updated even
      when the constructor throws. A shader is built exactly when there are
      at least two colours and, for a linear gradient, the stored positions
      (if any) match them in number. */
  function Recompute(p: Params, r: Rect, level: int, shader: Option<Shader>, reported: real)
    : (res: Recomputed)
    requires SweepDefined(p)
    ensures p.colors.None? || p.gradientType !in {LinearType, RadialType, SweepType} ==>
      res == Recomputed(shader, reported, None)
    ensures res.error.Some? ==> res.shader == shader
    ensures p.colors.Some? && p.gradientType in {LinearType, RadialType, SweepType} ==>
      (res.error.None? <==>
        |p.colors.value| >= 2 &&
        (p.gradientType == LinearType && p.positions.Some? ==> |p.positions.value| == |p.colors.value|))
    ensures p.gradientType != RadialType ==> res.reported == reported
    ensures p.colors.Some? && p.gradientType == RadialType ==> res.reported == RadialFor(p, r, level).reported
    ensures p.colors.Some? && p.gradientType == LinearType && res.error.None? ==>
      res.shader == Some(LinearShader(LinearLine(p.orientation, r, if p.useLevel then LevelFraction(level) else 1.0),
                                      p.colors.value, p.positions))
    ensures p.colors.Some? && p.gradientType == RadialType && res.error.None? ==>
      var g := RadialFor(p, r, level);
      res.shader == Some(RadialShader(g.cx, g.cy, g.radius, p.colors.value))
    ensures p.colors.Some? && p.gradientType == SweepType && res.error.None? ==>
      var g := RadialFor(p, r, level);
      var stops := SweepStops(p.colors.value, p.useLevel, level);
      res.shader == Some(SweepShader(g.cx, g.cy, stops.0, stops.1))
    ensures p.colors == Some([]) && p.gradientType == SweepType && p.useLevel ==> res.error == Some(NoLastColor)
  {
    match p.colors
    case None => Recomputed(shader, reported, None)
    case Some(colors) =>
      if p.gradientType == LinearType then
        var lf := if p.useLevel then LevelFraction(level) else 1.0;
        Construct(LinearShader(LinearLine(p.orientation, r, lf), colors, p.positions), colors, p.positions,
                  shader, reported)
      else if p.gradientType == RadialType then
        var g := RadialFor(p, r, level);
        Construct(RadialShader(g.cx, g.cy, g.radius, colors), colors, None, shader, g.reported)
      else if p.gradientType == SweepType then
        if p.useLevel && colors == [] then Recomputed(shader, reported, Some(NoLastColor))
        else
          var g := RadialFor(p, r, level);
          var stops := SweepStops(colors, p.useLevel, level);
          Construct(SweepShader(g.cx, g.cy, stops.0, stops.1), stops.0, stops.1, shader, reported)
      else Recomputed(shader, reported, None)
  }
}

=== FILE: hex.dfy ===
/** Hexadecimal numerals on both sides of the pipeline: the JVM's
    `String.toInt(16)` / `Int.toChar()` used to decode glyph codes, and the
    JavaScript `number.toString(16).toUpperCase()` used to produce them. */
module Hex {
  import opened Text
  import opened Wrappers

  /** Bounds of a 32-bit Kotlin `Int`. */
  const IntMin: int := -0x8000_0000
  const IntMax: int := 0x7FFF_FFFF

  predicate IsDecimalDigit(u: CodeUnit) { '0' as int <= u <= '9' as int }
  predicate IsLowerHexLetter(u: CodeUnit) { 'a' as int <= u <= 'f' as int }
  predicate IsUpperHexLetter(u: CodeUnit) { 'A' as int <= u <= 'F' as int }

  predicate IsHexDigit(u: CodeUnit) {
    IsDecimalDigit(u) || IsLowerHexLetter(u) || IsUpperHexLetter(u)
  }

  predicate AllHexDigits(s: JString) {
    forall i :: 0 <= i < |s| ==> IsHexDigit(s[i])
  }

  /** The value of one hexadecimal digit, either case. */
  function DigitValue(u: CodeUnit): (v: nat)
    requires IsHexDigit(u)
    ensures v < 16
    ensures IsDecimalDigit(u) <==> v < 10
  {
    if IsDecimalDigit(u) then u - '0' as int
    else if IsLowerHexLetter(u) then u - 'a' as int + 10
    else u - 'A' as int + 10
  }

  /** The digit JavaScript prints for `d`, after upper-casing. */
  function UpperDigit(d: nat): (u: CodeUnit)
    requires d < 16
    ensures IsHexDigit(u) && DigitValue(u) == d
    ensures !IsLowerHexLetter(u)
  {
    if d < 10 then '0' as int + d else 'A' as int + (d - 10)
  }

  /** Big-endian value of a digit string; the empty string is worth 0. */
  function HexValue(s: JString): nat
    requires AllHexDigits(s)
  {
    if s == [] then 0 else HexValue(s[..|s| - 1]) * 16 + DigitValue(s[|s| - 1])
  }

  function Pow16(k: nat): (p: nat)
    ensures p >= 1
  {
    if k == 0 then 1 else 16 * Pow16(k - 1)
  }

  lemma {:induction false} HexValueBound(s: JString)
    requires AllHexDigits(s)
    ensures HexValue(s) < Pow16(|s|)
  {
    if s != [] {
      HexValueBound(s[..|s| - 1]);
    }
  }

  lemma {:induction false} HexValueAppend(s: JString, d: CodeUnit)
    requires AllHexDigits(s) && IsHexDigit(d)
    ensures AllHexDigits(s + [d])
    ensures HexValue(s + [d]) == HexValue(s) * 16 + DigitValue(d)
  {
    assert (s + [d])[..|s|] == s;
  }

  /** A leading zero never changes the value of a numeral. */
  lemma {:induction false} HexValueLeadingZero(s: JString)
    requires AllHexDigits(s)
    ensures AllHexDigits(['0' as int] + s)
    ensures HexValue(['0' as int] + s) == HexValue(s)
  {
    if s != [] {
      var init := s[..|s| - 1];
      HexValueLeadingZero(init);
      assert (['0' as int] + s)[..|s|] == ['0' as int] + init;
    }
  }

  /** Case does not matter to the value of a numeral. */
  lemma {:induction false} HexValueLower(s: JString)
    requires AllHexDigits(s)
    ensures AllHexDigits(Lower(s))
    ensures HexValue(Lower(s)) == HexValue(s)
  {
    if s != [] {
      var init := s[..|s| - 1];
      HexValueLower(init);
      assert Lower(s)[..|s| - 1] == Lower(init);
    }
  }

  /** `n.toString(16).toUpperCase()` for a non-negative integer: the
      shortest numeral for `n` (a single `0` for zero), upper-case letters. */
  function UpperHexDigits(n: nat): (r: JString)
    ensures 1 <= |r|
    ensures AllHexDigits(r) && HexValue(r) == n
    ensures forall i :: 0 <= i < |r| ==> !IsLowerHexLetter(r[i])
    ensures |r| > 1 ==> r[0] != '0' as int
    ensures n < Pow16(|r|) && (|r| == 1 || Pow16(|r| - 1) <= n)
    decreases n
  {
    if n < 16 then [UpperDigit(n)]
    else
      var init := UpperHexDigits(n / 16);
      HexValueAppend(init, UpperDigit(n % 16));
      init + [UpperDigit(n % 16)]
  }

  /** Number of hexadecimal digits JavaScript prints for `n`. */
  function DigitCount(n: nat): nat {
    |UpperHexDigits(n)|
  }

  lemma DigitCountOfCodeUnit(u: CodeUnit)
    ensures DigitCount(u) <= 4
  {
    var r := UpperHexDigits(u);
    assert Pow16(4) == 0x1_0000;
    if |r| > 4 {
      PowMonotone(4, |r| - 1);
    }
  }

  lemma {:induction false} PowMonotone(i: nat, j: nat)
    requires i <= j
    ensures Pow16(i) <= Pow16(j)
  {
    if i < j {
      PowMonotone(i, j - 1);
    }
  }

  /** Kotlin's `String.toInt(16)` on the JVM (`Integer.parseInt`): an
      optional leading `+` or `-`, then at least one hexadecimal digit,
      and the value must fit a 32-bit `Int`; anything else throws
      `NumberFormatException`, here `Err(NumberFormat)`. */
  datatype ParseError = NumberFormat

  function ParseInt16(s: JString): (r: Result<int, ParseError>)
    ensures r.Ok? ==> IntMin <= r.value <= IntMax
    ensures r.Ok? ==> |s| >= 1 && s[|s| - 1] != '+' as int && s[|s| - 1] != '-' as int
    ensures AllHexDigits(s) && |s| >= 1 ==> r == (if HexValue(s) <= IntMax then Ok(HexValue(s)) else Err(NumberFormat))
  {
    if |s| == 0 then Err(NumberFormat)
    else
      var signed := s[0] < '0' as int;
      if signed && (|s| == 1 || (s[0] != '-' as int && s[0] != '+' as int)) then Err(NumberFormat)
      else
        var digits := if signed then s[1..] else s;
        if !AllHexDigits(digits) then Err(NumberFormat)
        else
          var magnitude: int := HexValue(digits);
          var v: int := if s[0] == '-' as int then -magnitude else magnitude;
          if IntMin <= v <= IntMax then Ok(v) else Err(NumberFormat)
  }

  /** Kotlin's `Int.toChar()`: keeps the low 16 bits (two's complement for
      negative values). */
  function ToChar(n: int): (u: CodeUnit)
    ensures (n - u) % 0x1_0000 == 0
    ensures 0 <= n < 0x1_0000 ==> u == n
  {
    n % 0x1_0000
  }
}

=== FILE: inflate.dfy ===
/** Inflation of an `<icon-font>` element: the root attributes and the
    `<gradient>` children, with the error paths the parser reports. */
module IconInflate {
  import opened Wrappers
  import opened Text
  import opened Geometry
  import opened Gradient
  import opened Tint
  import opened IconText
  import CodeCache
  import KotlinInt

  /** The child element name that carries gradient attributes. */
  const GradientTag: JString := Units("gradient")

  /** Parser events after the root start tag, with the depth the parser
      reports for each; running out of events is `END_DOCUMENT`. */
  datatype Event =
    | StartTag(name: JString, depth: int, attrs: Attrs)
    | EndTag(depth: int)
    | TextEvent(depth: int)

  /** The loop stops at an end tag above the children's depth. */
  predicate Closes(e: Event, inner: int) {
    e.EndTag? && e.depth < inner
  }

  /** A start tag the loop hands to the gradient merge. */
  predicate IsGradient(e: Event, inner: int) {
    e.StartTag? && e.depth <= inner && e.name == GradientTag
  }

  /** The merge of one `<gradient>` element, with the state it leaves when
      it throws. */
  function ApplyGradient(p: Params, a: Attrs): (r: (Params, Option<MergeError>))
    ensures r.1.None? <==> Merge(p, a).Ok?
    ensures r.1.None? ==> r.0 == Merge(p, a).value
    ensures r.1.Some? ==> r.0 == MergeLeading(p, a)
  {
    match Merge(p, a)
    case Ok(q) => (q, None)
    case Err(e) => (MergeLeading(p, a), Some(e))
  }

  /** What `inflateChildElements` does to the gradient parameters: merge
      every `<gradient>` start tag no deeper than `inner` until the closing
      end tag or the end of the document; stop at the first failure. A
      failure is the error of some `<gradient>` child that the merge
      rejected, given the parameters merged before it. */
  function Children(p: Params, events: seq<Event>, inner: int): (r: (Params, Option<MergeError>))
    ensures r.1.Some? ==>
      exists k, q :: 0 <= k < |events| && IsGradient(events[k], inner) && Merge(q, events[k].attrs) == Err(r.1.value)
    decreases |events|
  {
    if events == [] || Closes(events[0], inner) then (p, None)
    else if IsGradient(events[0], inner) then
      var (q, err) := ApplyGradient(p, events[0].attrs);
      if err.Some? then (q, err)
      else
        var r := Children(q, events[1..], inner);
        assert forall k :: 0 <= k < |events[1..]| ==> events[1..][k] == events[k + 1];
        r
    else
      var r := Children(p, events[1..], inner);
      assert forall k :: 0 <= k < |events[1..]| ==> events[1..][k] == events[k + 1];
      r
  }

  /** The attributes of the gradient elements the loop reaches, in order. */
  function Selected(events: seq<Event>, inner: int): (r: seq<Attrs>)
    ensures |r| <= |events|
    decreases |events|
  {
    if events == [] || Closes(events[0], inner) then []
    else if IsGradient(events[0], inner) then [events[0].attrs] + Selected(events[1..], inner)
    else Selected(events[1..], inner)
  }

  /** The merges applied one after the other, stopping at a failure. */
  function MergeAll(p: Params, attrs: seq<Attrs>): (r: (Params, Option<MergeError>))
    decreases |attrs|
  {
    if attrs == [] then (p, None)
    else
      var (q, err) := ApplyGradient(p, attrs[0]);
      if err.Some? then (q, err) else MergeAll(q, attrs[1..])
  }

  /** The loop is the merge of exactly the selected gradient elements:
      other tags, text, deeper elements and everything after the closing
      tag have no effect. */
  lemma {:induction false} ChildrenAreSelectedMerges(p: Params, events: seq<Event>, inner: int)
    ensures Children(p, events, inner) == MergeAll(p, Selected(events, inner))
    decreases |events|
  {
    if events == [] || Closes(events[0], inner) {
    } else if IsGradient(events[0], inner) {
      var (q, err) := ApplyGradient(p, events[0].attrs);
      var sel := Selected(events, inner);
      assert sel == [events[0].attrs] + Selected(events[1..], inner);
      assert sel[1..] == Selected(events[1..], inner);
      if err.None? {
        ChildrenAreSelectedMerges(q, events[1..], inner);
      }
    } else {
      ChildrenAreSelectedMerges(p, events[1..], inner);
    }
  }

  /** Events after the closing end tag are never read. */
  lemma {:induction false} StopsAtClosingTag(p: Params, before: seq<Event>, close: Event, after: seq<Event>, inner: int)
    requires Closes(close, inner)
    ensures Children(p, before + [close] + after, inner) == Children(p, before + [close], inner)
    decreases |before|
  {
    var all := before + [close] + after;
    var cut := before + [close];
    if before == [] {
      assert all[0] == close && cut[0] == close;
    } else {
      assert all[0] == before[0] && cut[0] == before[0];
      assert all[1..] == before[1..] + [close] + after;
      assert cut[1..] == before[1..] + [close];
      if IsGradient(before[0], inner) {
        var (q, err) := ApplyGradient(p, before[0].attrs);
        StopsAtClosingTag(q, before[1..], close, after, inner);
      } else {
        StopsAtClosingTag(p, before[1..], close, after, inner);
      }
    }
  }

  /** With no gradient child the parameters are left as they were. */
  lemma {:induction false} NoGradientNoChange(p: Params, events: seq<Event>, inner: int)
    requires forall i :: 0 <= i < |events| ==> !IsGradient(events[i], inner)
    ensures Children(p, events, inner) == (p, None)
    decreases |events|
  {
    if events != [] && !Closes(events[0], inner) {
      assert !IsGradient(events[0], inner);
      assert forall i :: 0 <= i < |events[1..]| ==> events[1..][i] == events[i + 1];
      NoGradientNoChange(p, events[1..], inner);
    }
  }

  /** `inflateChildElements`, as the loop the source runs. */
  method InflateChildElements(p: Params, events: seq<Event>, rootDepth: int) returns (q: Params, err: Option<MergeError>)
    ensures (q, err) == Children(p, events, rootDepth + 1)
  {
    var inner := rootDepth + 1;
    q, err := p, None;
    var i := 0;
    while i < |events| && !Closes(events[i], inner)
      invariant 0 <= i <= |events|
      invariant Children(p, events, inner) == Children(q, events[i..], inner)
      decreases |events| - i
    {
      var e := events[i];
      assert events[i..][0] == e && events[i..][1..] == events[i + 1..];
      if e.StartTag? && e.depth <= inner && e.name == GradientTag {
        var merged := Merge(q, e.attrs);
        if merged.Err? {
          q, err := MergeLeading(q, e.attrs), Some(merged.error);
          return;
        }
        q := merged.value;
      }
      i := i + 1;
    }
  }

  /** The font attribute: absent (or 0), a resource of type `font`, or a
      resource of some other type. */
  datatype FontRef = NoFont | FontResource | OtherResource

  /** The `<icon-font>` element's own attributes, already resolved. */
  datatype RootAttrs = RootAttrs(
    visible: Option<bool>,
    code: Option<JString>,
    font: FontRef,
    color: Option<int>,
    tintMode: Option<int>,
    tint: Option<ColorStateList>,
    intrinsicSize: Option<int>,
    alpha: Option<int>,
    shadowDx: Option<real>,
    shadowDy: Option<real>,
    shadowRadius: Option<real>,
    shadowColor: Option<int>,
    paddingLeft: Option<int>,
    paddingTop: Option<int>,
    paddingRight: Option<int>,
    paddingBottom: Option<int>)

  /** `XmlPullParserException` for a missing code and for a code that is
      not a hexadecimal number; `GradientFailed` is the
      `NoSuchElementException` a gradient merge can throw. */
  datatype InflateError = CodeRequired | CodeIllegal | GradientFailed

  /** The outcome of `inflate`: the code cache and the drawable afterwards
      (partly updated when an error is thrown), and the error if any. */
  datatype Outcome = Outcome(cache: CodeCache.Cache, drawable: Drawable, error: Option<InflateError>)

  /** The font handling under the update lock: the pending callback is
      dropped; a font resource starts a fetch whose callback (the next id)
      takes the slot; otherwise the asset typeface is installed. */
  function StartFont(d: Drawable, font: FontRef, assetTypeface: Option<Typeface>): (r: Drawable)
    ensures font == FontResource ==> r.updateLock == Some(d.issued) && r.issued == d.issued + 1 && r.state == d.state
    ensures font != FontResource ==> r.updateLock.None? && r.issued == d.issued
    ensures font != FontResource ==> r.state.paint.typeface == assetTypeface
    ensures SlotIssued(r)
  {
    if font == FontResource then d.(updateLock := Some(d.issued), issued := d.issued + 1)
    else d.(updateLock := None, state := d.state.(paint := d.state.paint.(typeface := assetTypeface)))
  }

  /** The attributes read after the code and the font. The alpha is
      written into the colour's top byte after the colour, so it replaces
      the alpha the colour attribute carried. Absent attributes take these
      defaults: white, alpha 255, no shadow, and for each
      padding side the smaller of 0 and the previous value. A tint mode of
      -1 or a missing tint list leaves the stored one in place. */
  function ApplyAttributes(s: State, a: RootAttrs): (r: State)
    ensures RgbOf(r.paint.color) == RgbOf(a.color.GetOr(White))
    ensures AlphaOf(r.paint.color) == a.alpha.GetOr(255) % 256
    ensures KotlinInt.IntMin <= r.paint.color <= KotlinInt.IntMax
    ensures a.tintMode.GetOr(-1) != -1 ==> r.tintMode == Some(ParseTintMode(a.tintMode.value))
    ensures a.tintMode.GetOr(-1) == -1 ==> r.tintMode == s.tintMode
    ensures r.tint == (if a.tint.Some? then a.tint else s.tint)
    ensures r.size == a.intrinsicSize.GetOr(-1)
    ensures r.shadowDx == a.shadowDx.GetOr(0.0) && r.shadowDy == a.shadowDy.GetOr(0.0)
    ensures r.shadowRadius == a.shadowRadius.GetOr(0.0) && r.shadowColor == a.shadowColor.GetOr(Transparent)
    ensures ShadowConsistent(r)
    ensures r.padding.left == a.paddingLeft.GetOr(if s.padding.left < 0 then s.padding.left else 0)
    ensures r.padding.top == a.paddingTop.GetOr(if s.padding.top < 0 then s.padding.top else 0)
    ensures r.padding.right == a.paddingRight.GetOr(if s.padding.right < 0 then s.padding.right else 0)
    ensures r.padding.bottom == a.paddingBottom.GetOr(if s.padding.bottom < 0 then s.padding.bottom else 0)
    ensures r.text == s.text && r.gradient == s.gradient
    ensures r.paint.typeface == s.paint.typeface && r.paint.colorFilter == s.paint.colorFilter
  {
    var mode := a.tintMode.GetOr(-1);
    var shadow := ShadowLayer(a.shadowRadius.GetOr(0.0), a.shadowDx.GetOr(0.0), a.shadowDy.GetOr(0.0),
                              a.shadowColor.GetOr(Transparent));
    s.(
      paint := s.paint.(color := WithAlpha(a.color.GetOr(White), a.alpha.GetOr(255)), shadow := shadow),
      tintMode := if mode != -1 then Some(ParseTintMode(mode)) else s.tintMode,
      tint := if a.tint.Some? then a.tint else s.tint,
      size := a.intrinsicSize.GetOr(-1),
      shadowDx := shadow.dx, shadowDy := shadow.dy, shadowRadius := shadow.radius, shadowColor := shadow.color,
      padding := Rect(
        a.paddingLeft.GetOr(if 0 < s.padding.left then 0 else s.padding.left),
        a.paddingTop.GetOr(if 0 < s.padding.top then 0 else s.padding.top),
        a.paddingRight.GetOr(if 0 < s.padding.right then 0 else s.padding.right),
        a.paddingBottom.GetOr(if 0 < s.padding.bottom then 0 else s.padding.bottom)))
  }
  /** A translucent colour attribute without an alpha attribute comes out
      opaque: `#80FF0000` is drawn as `#FFFF0000`. */
  lemma AlphaAttributeOverridesColor(s: State, a: RootAttrs)
    requires a.color == Some(-0x7F01_0000) && a.alpha.None?
    ensures ApplyAttributes(s, a).paint.color == -0x1_0000
  {
    ColorFromParts(ApplyAttributes(s, a).paint.color, -0x1_0000);
  }


  /** The root element's part of `inflate`, up to the tint filter. */
  function InflateRoot(d: Drawable, cache: CodeCache.Cache, a: RootAttrs, assetTypeface: Option<Typeface>): (r: Outcome)
    requires CodeCache.Valid(cache)
    ensures CodeCache.Valid(r.cache)
    ensures r.drawable.visible == a.visible.GetOr(true)
    ensures r.error == Some(CodeRequired) <==> a.code.None? || a.code.value == []
    ensures r.error == Some(CodeRequired) ==> r.cache == cache && r.drawable == d.(visible := r.drawable.visible)
    ensures r.error == Some(CodeIllegal) ==> r.cache == cache && r.drawable == d.(visible := r.drawable.visible)
    ensures r.error != Some(GradientFailed)
    ensures a.code.Some? && a.code.value != [] ==>
      (r.error.None? <==> CodeCache.DecodeCode(a.code.value).Ok?)
    ensures r.error.None? ==>
      && r.drawable.state.text == Some(CodeCache.DecodeCode(a.code.value).value)
      && r.drawable.tintFilter == UpdateTintFilter(r.drawable.state, d.stateSet)
      && r.drawable.gradientIsDirty == d.gradientIsDirty
      && r.drawable.state.gradient == d.state.gradient
      && r.drawable.state == ApplyAttributes(StartFont(d, a.font, assetTypeface).state, a).(text := r.drawable.state.text)
      && r.drawable.updateLock == StartFont(d, a.font, assetTypeface).updateLock
  {
    var d1 := d.(visible := a.visible.GetOr(true));
    if a.code.None? || a.code.value == [] then Outcome(cache, d1, Some(CodeRequired))
    else
      var (c1, decoded) := CodeCache.Get(cache, a.code.value);
      if decoded.Err? then Outcome(c1, d1, Some(CodeIllegal))
      else
        var d2 := StartFont(d1.(state := d1.state.(text := Some(decoded.value))), a.font, assetTypeface);
        var s := ApplyAttributes(d2.state, a);
        Outcome(c1, d2.(state := s, tintFilter := UpdateTintFilter(s, d.stateSet)), None)
  }

  /** `inflate`: the root attributes, then the children. Neither part marks
      the gradient dirty. */
  function Inflate(d: Drawable, cache: CodeCache.Cache, a: RootAttrs, events: seq<Event>, rootDepth: int,
                   assetTypeface: Option<Typeface>): (r: Outcome)
    requires CodeCache.Valid(cache)
    ensures CodeCache.Valid(r.cache)
    ensures r.drawable.gradientIsDirty == d.gradientIsDirty
    ensures r.error.None? ==> a.code.Some? && CodeCache.DecodeCode(a.code.value).Ok?
    ensures r.error.None? ==> r.drawable.state.text == Some(CodeCache.DecodeCode(a.code.value).value)
    ensures r.error.None? || r.error == Some(GradientFailed) ==>
      r.drawable.state.gradient == Children(d.state.gradient, events, rootDepth + 1).0
    ensures r.error == Some(GradientFailed) <==>
      InflateRoot(d, cache, a, assetTypeface).error.None? &&
      Children(d.state.gradient, events, rootDepth + 1).1.Some?
    ensures SlotIssued(d) ==> SlotIssued(r.drawable)
    ensures r.drawable.issued >= d.issued
    ensures InflateRoot(d, cache, a, assetTypeface).error.Some? ==> r == InflateRoot(d, cache, a, assetTypeface)
    ensures InflateRoot(d, cache, a, assetTypeface).error.None? ==>
      var root := InflateRoot(d, cache, a, assetTypeface);
      && r.cache == root.cache
      && r.drawable == root.drawable.(state := root.drawable.state.(gradient := Children(d.state.gradient, events, rootDepth + 1).0))
  {
    var root := InflateRoot(d, cache, a, assetTypeface);
    if root.error.Some? then root
    else
      var dr := root.drawable;
      var (g, err) := Children(dr.state.gradient, events, rootDepth + 1);
      Outcome(root.cache, dr.(state := dr.state.(gradient := g)),
              if err.Some? then Some(GradientFailed) else None)
  }

  /** A font fetch started by an earlier inflation, or by any callback
      issued before this one, can no longer change the typeface once this
      inflation has run: only the newest callback holds the slot. */
  lemma SupersededFetchIgnored(d: Drawable, cache: CodeCache.Cache, a: RootAttrs, events: seq<Event>,
                               rootDepth: int, assetTypeface: Option<Typeface>, id: nat, late: Option<Typeface>)
    requires CodeCache.Valid(cache)
    requires id < d.issued
    requires Inflate(d, cache, a, events, rootDepth, assetTypeface).error.None?
    ensures var r := Inflate(d, cache, a, events, rootDepth, assetTypeface).drawable;
      DeliverFont(r, id, late) == r
  {
  }

  /** A failed fetch for the current callback clears the typeface. */
  lemma FailedFetchClearsTypeface(d: Drawable, cache: CodeCache.Cache, a: RootAttrs, events: seq<Event>,
                                  rootDepth: int, assetTypeface: Option<Typeface>)
    requires CodeCache.Valid(cache)
    requires a.font == FontResource
    requires Inflate(d, cache, a, events, rootDepth, assetTypeface).error.None?
    ensures var r := Inflate(d, cache, a, events, rootDepth, assetTypeface).drawable;
      DeliverFont(r, d.issued, None).state.paint.typeface.None?
  {
  }
}

=== FILE: inflate_context.dfy ===
/** `InflateContext.obtain`: a process-wide list of weak references to
    inflation contexts, one per `Resources`, scanned, pruned of cleared
    references and extended on demand. */
module InflateContextCache {
  import opened Wrappers

  /** An inflation context; `res` identifies the `Resources` it wraps. */
  datatype Context = Context(id: nat, res: nat)

  /** A weak reference, either cleared by the collector or live. */
  datatype Ref = Cleared | Live(ctx: Context)

  predicate Matches(e: Ref, res: nat) {
    e.Live? && e.ctx.res == res
  }

  /** The live references of `s`, in order. */
  function Pruned(s: seq<Ref>): (r: seq<Ref>)
    ensures |r| <= |s|
    ensures forall j :: 0 <= j < |r| ==> r[j].Live?
  {
    if s == [] then [] else Pruned(s[..|s| - 1]) + (if s[|s| - 1].Live? then [s[|s| - 1]] else [])
  }

  /** Pruning keeps exactly the live references. */
  lemma {:induction false} PrunedKeepsLive(s: seq<Ref>, e: Ref)
    ensures e in Pruned(s) <==> e in s && e.Live?
  {
    if s != [] {
      PrunedKeepsLive(s[..|s| - 1], e);
      assert s == s[..|s| - 1] + [s[|s| - 1]];
    }
  }

  /** The first reference at or after `from` to a context for `res`. */
  function FirstMatch(s: seq<Ref>, res: nat, from: nat): (r: Option<nat>)
    requires from <= |s|
    ensures r.Some? ==> from <= r.value < |s| && Matches(s[r.value], res)
    ensures r.Some? ==> forall j :: from <= j < r.value ==> !Matches(s[j], res)
    ensures r.None? ==> forall j :: from <= j < |s| ==> !Matches(s[j], res)
    decreases |s| - from
  {
    if from == |s| then None
    else if Matches(s[from], res) then Some(from)
    else FirstMatch(s, res, from + 1)
  }

  /** What `obtain(res)` does, stated directly. With a reference to a
      context for `res`, the cleared references before it are dropped and
      that context is returned. Without one, every cleared reference is
      dropped; the variable the loop leaves behind is what the last
      reference held, so when that reference is live its context is
      returned although it wraps other resources, and only when the list
      is empty or ends with a cleared reference is a new context (named
      `newId`) appended and returned. */
  function Obtain(s: seq<Ref>, res: nat, newId: nat): (r: (seq<Ref>, Context))
    ensures Live(r.1) in s || r.1 == Context(newId, res)
    ensures (exists j :: 0 <= j < |s| && Matches(s[j], res)) ==> Live(r.1) in s && r.1.res == res
    ensures r.1.res != res <==>
      (forall j :: 0 <= j < |s| ==> !Matches(s[j], res)) && |s| > 0 && s[|s| - 1].Live?
    ensures r.1.res != res ==> r == (Pruned(s), s[|s| - 1].ctx)
  {
    match FirstMatch(s, res, 0)
    case Some(i) =>
      assert s[i] == Live(s[i].ctx);
      (Pruned(s[..i]) + s[i..], s[i].ctx)
    case None =>
      if |s| > 0 && s[|s| - 1].Live? then
        assert s[|s| - 1] == Live(s[|s| - 1].ctx);
        (Pruned(s), s[|s| - 1].ctx)
      else (Pruned(s) + [Live(Context(newId, res))], Context(newId, res))
  }

  /** The list grows by at most one, and the returned context is one the
      list now references. It wraps `res` unless no context for `res` was
      referenced and the last reference is live. */
  lemma {:induction false} ObtainShape(s: seq<Ref>, res: nat, newId: nat)
    ensures |Obtain(s, res, newId).0| <= |s| + 1
    ensures Live(Obtain(s, res, newId).1) in Obtain(s, res, newId).0
    ensures (exists j :: 0 <= j < |s| && Matches(s[j], res)) || s == [] || s[|s| - 1].Cleared? ==>
      Obtain(s, res, newId).1.res == res
  {
    var (list, ctx) := Obtain(s, res, newId);
    match FirstMatch(s, res, 0)
    case Some(i) =>
      assert list[|Pruned(s[..i])|] == s[i];
    case None =>
      if |s| > 0 && s[|s| - 1].Live? {
        PrunedKeepsLive(s, s[|s| - 1]);
      }
  }

  /** The fall-through: asking for other resources when the only live
      reference wraps `c` hands back `c` and creates nothing. */
  lemma {:induction false} WrongContextReturned(c: Context, res: nat, newId: nat)
    requires c.res != res
    ensures Obtain([Live(c)], res, newId) == ([Live(c)], c)
  {
    var s := [Live(c)];
    assert FirstMatch(s, res, 1).None?;
    assert FirstMatch(s, res, 0).None?;
    assert s[..|s| - 1] == [];
    assert Pruned(s[..|s| - 1]) == [];
    assert Pruned(s) == s;
  }

  /** `obtain` as evidently intended: without a context for `res`, a new
      one is always created, whatever the last reference held. */
  function ObtainCorrected(s: seq<Ref>, res: nat, newId: nat): (r: (seq<Ref>, Context))
    ensures r.1.res == res
    ensures Live(r.1) in r.0
    ensures (forall j :: 0 <= j < |s| ==> !Matches(s[j], res)) ==> r.1 == Context(newId, res)
    ensures Obtain(s, res, newId).1.res == res ==> r == Obtain(s, res, newId)
  {
    match FirstMatch(s, res, 0)
    case Some(i) =>
      var list := Pruned(s[..i]) + s[i..];
      assert list[|Pruned(s[..i])|] == s[i];
      (list, s[i].ctx)
    case None =>
      var list := Pruned(s) + [Live(Context(newId, res))];
      assert list[|list| - 1] == Live(Context(newId, res));
      (list, Context(newId, res))
  }

  /** Once `obtain(res)` has returned a context for `res`, asking again
      returns the same context and leaves the list as it is. */
  lemma {:induction false} ObtainStable(s: seq<Ref>, res: nat, id1: nat, id2: nat)
    requires Obtain(s, res, id1).1.res == res
    ensures var (list, ctx) := Obtain(s, res, id1);
      Obtain(list, res, id2) == (list, ctx)
  {
    var (list, ctx) := Obtain(s, res, id1);
    var p := |list|;
    match FirstMatch(s, res, 0)
    case Some(i) =>
      var pre := Pruned(s[..i]);
      assert list == pre + s[i..];
      assert forall j :: 0 <= j < |pre| ==> !Matches(list[j], res) by {
        forall j | 0 <= j < |pre| ensures !Matches(list[j], res) {
          assert list[j] == pre[j];
          PrunedKeepsLive(s[..i], pre[j]);
          var k :| 0 <= k < i && s[..i][k] == pre[j];
        }
      }
      assert Matches(list[|pre|], res);
      MatchAt(list, res, |pre|);
      assert list[..|pre|] == pre;
      PrunedOfLive(pre);
      assert list[|pre|..] == s[i..];
    case None =>
      if !(|s| > 0 && s[|s| - 1].Live?) {
        var pre := Pruned(s);
        assert forall j :: 0 <= j < |pre| ==> !Matches(list[j], res) by {
          forall j | 0 <= j < |pre| ensures !Matches(list[j], res) {
            assert list[j] == pre[j];
            PrunedKeepsLive(s, pre[j]);
          }
        }
        MatchAt(list, res, |pre|);
        assert list[..|pre|] == pre;
        PrunedOfLive(pre);
        assert list[|pre|..] == [Live(ctx)];
      }
  }

  /** A match preceded by no other match is the first one. */
  lemma {:induction false} MatchAt(s: seq<Ref>, res: nat, i: nat)
    requires i < |s| && Matches(s[i], res)
    requires forall j :: 0 <= j < i ==> !Matches(s[j], res)
    ensures FirstMatch(s, res, 0) == Some(i)
  {
  }

  /** Pruning a list of live references changes nothing. */
  lemma {:induction false} PrunedOfLive(s: seq<Ref>)
    requires forall j :: 0 <= j < |s| ==> s[j].Live?
    ensures Pruned(s) == s
  {
    if s != [] {
      PrunedOfLive(s[..|s| - 1]);
      assert s == s[..|s| - 1] + [s[|s| - 1]];
    }
  }

  /** `obtain` as the iterator loop the source runs. */
  method ObtainByScan(s: seq<Ref>, res: nat, newId: nat) returns (list: seq<Ref>, ctx: Context)
    ensures (list, ctx) == Obtain(s, res, newId)
  {
    var kept: seq<Ref> := [];
    var context: Option<Context> := None;
    var i := 0;
    var found := false;
    while i < |s| && !found
      invariant 0 <= i <= |s|
      invariant kept == Pruned(s[..i])
      invariant forall j :: 0 <= j < i ==> !Matches(s[j], res)
      invariant !found ==> (if i == 0 || s[i - 1].Cleared? then context.None? else context == Some(s[i - 1].ctx))
      invariant found ==> i < |s| && Matches(s[i], res) && context == Some(s[i].ctx)
      decreases |s| - i, !found
    {
      assert s[..i + 1] == s[..i] + [s[i]];
      if s[i].Cleared? {
        context := None;
        i := i + 1;
      } else if s[i].ctx.res == res {
        context := Some(s[i].ctx);
        found := true;
      } else {
        context := Some(s[i].ctx);
        kept := kept + [s[i]];
        i := i + 1;
      }
    }
    if found {
      MatchAt(s, res, i);
      list := kept + s[i..];
      ctx := context.value;
    } else {
      assert s[..i] == s;
      assert FirstMatch(s, res, 0).None?;
      if context.None? {
        ctx := Context(newId, res);
        list := kept + [Live(ctx)];
      } else {
        list := kept;
        ctx := context.value;
      }
    }
  }
}

=== FILE: json.dfy ===
/** The slice of JSON the pipeline exchanges: the manifest written by the
    font build and read back by the Android asset lookup. Parsing and
    serialising text are not part of the model. */
module Json {
  import opened Text

  datatype Value =
    | Str(s: JString)
    | Scalar(literal: JString)  // a number, true, false or null, with its literal text
    | Obj(members: map<JString, Value>)
    | Arr(items: seq<Value>)

  /** What org.json's `getString` yields for a present member: a string
      as is, a scalar as its literal text, an object or array as its JSON
      text. Of that text the model keeps only the opening bracket, which is
      enough for every consumer here: none of them accepts a bracket. */
  function StringForm(v: Value): (r: JString)
    ensures v.Str? ==> r == v.s
    ensures v.Obj? ==> r == ['{' as int]
    ensures v.Arr? ==> r == ['[' as int]
  {
    match v
    case Str(s) => s
    case Scalar(t) => t
    case Obj(_) => ['{' as int]
    case Arr(_) => ['[' as int]
  }
}

=== FILE: kotlin_int.dfy ===
/** Kotlin integer arithmetic where it differs from Dafny's: `/` and `%`
    truncate toward zero, and `Float.toInt()` truncates and saturates. */
module KotlinInt {

  const IntMin: int := -0x8000_0000
  const IntMax: int := 0x7FFF_FFFF

  function Abs(x: int): nat { if x < 0 then -x else x }

  /** Kotlin's `a / b`: the quotient rounded toward zero. */
  function Div(a: int, b: int): (q: int)
    requires b != 0
    ensures Abs(q) == Abs(a) / Abs(b)
    ensures q > 0 ==> (a > 0) == (b > 0)
    ensures q < 0 ==> (a > 0) != (b > 0)
    ensures a >= 0 && b > 0 ==> q == a / b
  {
    var n := Abs(a) / Abs(b);
    NatQuotient(Abs(a), Abs(b));
    if (a >= 0) == (b > 0) then n else -n
  }

  lemma NatQuotient(m: nat, d: nat)
    requires d > 0
    ensures m / d >= 0
    ensures m == 0 ==> m / d == 0
  {
  }

  /** Kotlin's `a % b`: the remainder of truncating division, which takes
      the sign of `a`. */
  function Rem(a: int, b: int): (r: int)
    requires b != 0
    ensures Abs(r) < Abs(b)
    ensures r > 0 ==> a > 0
    ensures r < 0 ==> a < 0
    ensures a > 0 ==> r == a % Abs(b)
  {
    if a > 0 then a % Abs(b) else if a == 0 then 0 else -((-a) % Abs(b))
  }

  /** `Float.toInt()`: toward zero, clamped to the `Int` range. */
  function FloatToInt(f: real): (n: int)
    ensures IntMin <= n <= IntMax
    ensures IntMin as real <= f <= IntMax as real ==> Abs(n) as real <= (if f < 0.0 then -f else f) < Abs(n) as real + 1.0
    ensures IntMin as real <= f <= IntMax as real ==> (n > 0 ==> f > 0.0) && (n < 0 ==> f < 0.0)
  {
    var t := if f >= 0.0 then f.Floor else -((-f).Floor);
    if t < IntMin then IntMin else if t > IntMax then IntMax else t
  }
}

=== FILE: overlay.dfy ===
/** The debug overlay drawn over a glyph's bounds (`DebugDraw`): a border
    inset by half the stroke and two bars at each corner. The pixel sizes
    of 1, 2 and 12 density-independent pixels are inputs. Coordinates are
    unbounded integers. */
module Overlay {
  import opened Geometry
  import KotlinInt

  /** Colours of the border and the corner bars, as signed ARGB. */
  const BorderColor: int := -0x66010000
  const CornerColor: int := -0xffff01

  /** The display's pixel sizes of the overlay: the border stroke (1dp),
      the corner paint's stroke (2dp) and the corner size cap (12dp). */
  datatype PixelSizes = PixelSizes(borderStroke: int, cornerStroke: int, cornerCap: int)

  /** `sign`: zero counts as positive. */
  function Sign(x: int): (s: int)
    ensures s == 1 || s == -1
    ensures s * x >= 0
    ensures x == 0 ==> s == 1
  {
    if x >= 0 then 1 else -1
  }

  /** `drawCornerLine`: the rectangle spanned by two opposite corners,
      whichever way round they are given. */
  function CornerLine(left: int, top: int, right: int, bottom: int): (r: Rect)
    ensures r.left <= r.right && r.top <= r.bottom
    ensures r.left + r.right == left + right && r.top + r.bottom == top + bottom
    ensures (r.left == left || r.left == right) && (r.top == top || r.top == bottom)
  {
    Rect(if left > right then right else left, if top > bottom then bottom else top,
         if left > right then left else right, if top > bottom then top else bottom)
  }

  /** A point lies in the closed rectangle. */
  predicate Covers(r: Rect, x: int, y: int) {
    r.left <= x <= r.right && r.top <= y <= r.bottom
  }

  /** The rectangle covers exactly the points between the two corners. */
  lemma CornerLineCovers(left: int, top: int, right: int, bottom: int, x: int, y: int)
    ensures Covers(CornerLine(left, top, right, bottom), x, y) <==>
      ((left <= x <= right || right <= x <= left) && (top <= y <= bottom || bottom <= y <= top))
  {
  }

  /** `drawCorner`: two bars from the corner point `(x, y)`, one running
      `dx` horizontally and `width` vertically towards `dy`, the other
      `width` horizontally towards `dx` and `dy` vertically. */
  function Corner(x: int, y: int, dx: int, dy: int, width: int): (bars: seq<Rect>)
    ensures |bars| == 2
    ensures bars[0] == CornerLine(x, y, x + dx, y + width * Sign(dy))
    ensures bars[1] == CornerLine(x, y, x + width * Sign(dx), y + dy)
  {
    [CornerLine(x, y, x + dx, y + width * Sign(dy)), CornerLine(x, y, x + width * Sign(dx), y + dy)]
  }

  /** `drawMountBoundsCorners`: the corner bars at top-left, bottom-left,
      top-right and bottom-right, each pointing into the bounds. */
  function Corners(b: Rect, length: int, width: int): (bars: seq<Rect>)
    ensures |bars| == 8
  {
    Corner(b.left, b.top, length, length, width)
    + Corner(b.left, b.bottom, length, -length, width)
    + Corner(b.right, b.top, -length, length, width)
    + Corner(b.right, b.bottom, -length, -length, width)
  }

  /** Every bar has a corner of the bounds as one of its vertices. */
  predicate AnchoredAtCorner(r: Rect, b: Rect) {
    (r.left == b.left || r.right == b.right) && (r.top == b.top || r.bottom == b.bottom)
  }

  /** A rectangle lies inside another (closed). */
  predicate Within(r: Rect, b: Rect) {
    b.left <= r.left && r.right <= b.right && b.top <= r.top && r.bottom <= b.bottom
  }

  /** When neither the bar length nor the bar width exceeds the bounds'
      width or height, every corner bar lies inside the bounds and sits on
      one of its corners. */
  lemma {:induction false} CornersWithinBounds(b: Rect, length: int, width: int)
    requires 0 < length && 0 <= width
    requires length <= b.Width() && length <= b.Height() && width <= b.Width() && width <= b.Height()
    ensures forall i :: 0 <= i < 8 ==> Within(Corners(b, length, width)[i], b)
    ensures forall i :: 0 <= i < 8 ==> AnchoredAtCorner(Corners(b, length, width)[i], b)
  {
    var bars := Corners(b, length, width);
    assert bars[..2] == Corner(b.left, b.top, length, length, width);
    assert bars[2..4] == Corner(b.left, b.bottom, length, -length, width);
    assert bars[4..6] == Corner(b.right, b.top, -length, length, width);
    assert bars[6..] == Corner(b.right, b.bottom, -length, -length, width);
    assert Sign(length) == 1 && Sign(-length) == -1;
    assert bars[0] == bars[..2][0] && bars[1] == bars[..2][1];
    assert bars[2] == bars[2..4][0] && bars[3] == bars[2..4][1];
    assert bars[4] == bars[4..6][0] && bars[5] == bars[4..6][1];
    assert bars[6] == bars[6..][0] && bars[7] == bars[6..][1];
  }

  /** With bars of length 0 (a 2dp stroke that rounds to no pixel),
      `sign(0)` is positive, so every bar that should point up or left
      points down or right instead: both bars of the bottom-right corner,
      the vertical bar of the bottom-left corner and the horizontal bar of
      the top-right corner leave the bounds, and exactly these. */
  lemma {:induction false} ZeroLengthBarsLeave(b: Rect, width: int)
    requires 0 < width <= b.Width() && width <= b.Height()
    ensures var bars := Corners(b, 0, width);
      forall i :: 0 <= i < 8 ==> (Within(bars[i], b) <==> i in {0, 1, 3, 4})
  {
    var bars := Corners(b, 0, width);
    assert bars[..2] == Corner(b.left, b.top, 0, 0, width);
    assert bars[2..4] == Corner(b.left, b.bottom, 0, 0, width);
    assert bars[4..6] == Corner(b.right, b.top, 0, 0, width);
    assert bars[6..] == Corner(b.right, b.bottom, 0, 0, width);
    assert bars[0] == bars[..2][0] && bars[1] == bars[..2][1];
    assert bars[2] == bars[2..4][0] && bars[3] == bars[2..4][1];
    assert bars[4] == bars[4..6][0] && bars[5] == bars[4..6][1];
    assert bars[6] == bars[6..][0] && bars[7] == bars[6..][1];
  }

  /** `drawMountBoundsBorder`: the bounds inset on every side by half the
      stroke width, halved with truncation. */
  function Border(b: Rect, strokePx: int): (r: Rect)
    ensures strokePx >= 0 ==> 2 * (r.left - b.left) <= strokePx < 2 * (r.left - b.left) + 2
    ensures r.left - b.left == r.top - b.top == b.right - r.right == b.bottom - r.bottom
    ensures strokePx >= 0 ==> r.left >= b.left
  {
    var inset := KotlinInt.Div(strokePx, 2);
    Rect(b.left + inset, b.top + inset, b.right - inset, b.bottom - inset)
  }

  /** The corner bar width: a third of the smaller side, truncated, but
      at most the 12dp cap. */
  function CornerSize(b: Rect, cap: int): (w: int)
    ensures w <= cap
    ensures w == cap || w == KotlinInt.Div(if b.Width() < b.Height() then b.Width() else b.Height(), 3)
    ensures !b.IsEmpty() ==> 3 * w <= b.Width() && 3 * w <= b.Height()
    ensures !b.IsEmpty() && 0 <= cap ==> 0 <= w
  {
    var side := if b.Width() < b.Height() then b.Width() else b.Height();
    var third := KotlinInt.Div(side, 3);
    if third < cap then third else cap
  }

  /** What `highlightMountBounds` draws. */
  datatype Highlight = Highlight(border: Rect, borderColor: int, borderStroke: int, corners: seq<Rect>, cornerColor: int)

  /** `highlightMountBounds`: the stroked border and the corner bars, whose
      length is the corner paint's stroke width and whose width is the
      corner size. */
  function HighlightMountBounds(b: Rect, px: PixelSizes): (h: Highlight)
    ensures h.border == Border(b, px.borderStroke) && h.borderStroke == px.borderStroke
    ensures h.corners == Corners(b, px.cornerStroke, CornerSize(b, px.cornerCap))
    ensures h.borderColor == BorderColor && h.cornerColor == CornerColor
  {
    Highlight(Border(b, px.borderStroke), BorderColor, px.borderStroke,
              Corners(b, px.cornerStroke, CornerSize(b, px.cornerCap)), CornerColor)
  }

  /** Sizes a display can have: positive strokes, the border's no wider
      than the corners', and a non-negative cap. */
  predicate Plausible(px: PixelSizes) {
    0 <= px.borderStroke <= px.cornerStroke && 0 < px.cornerStroke && 0 <= px.cornerCap
  }

  /** On bounds at least as wide and as high as the corner stroke, the
      whole overlay stays inside the bounds: the border is not turned
      inside out and every corner bar lies within them. */
  lemma {:induction false} HighlightWithinBounds(b: Rect, px: PixelSizes)
    requires Plausible(px)
    requires px.cornerStroke <= b.Width() && px.cornerStroke <= b.Height()
    ensures var h := HighlightMountBounds(b, px);
      && Within(h.border, b) && h.border.left <= h.border.right && h.border.top <= h.border.bottom
      && forall i :: 0 <= i < |h.corners| ==> Within(h.corners[i], b)
  {
    var w := CornerSize(b, px.cornerCap);
    CornerSizeBounds(b, px.cornerCap);
    CornersWithinBounds(b, px.cornerStroke, w);
  }

  /** On non-empty bounds the corner size fits both sides. */
  lemma {:induction false} CornerSizeBounds(b: Rect, cap: int)
    requires 0 <= cap && !b.IsEmpty()
    ensures 0 <= CornerSize(b, cap) <= b.Width() && CornerSize(b, cap) <= b.Height()
  {
    var side := if b.Width() < b.Height() then b.Width() else b.Height();
    assert side > 0;
    assert KotlinInt.Div(side, 3) == side / 3;
  }
}

=== FILE: overlay_debug.dfy ===
/** The debug-build copy of the overlay geometry. Its helpers are the
    same as the main copy's, defined once in `Overlay`; the properties below
    are stated for the debug build's highlight, which takes its pixel sizes
    from the application's display metrics. */
module OverlayDebugBuild {
  import opened Geometry
  import Overlay
  import KotlinInt

  /** `drawCorner` then `drawCornerLine`: both bars of a corner have the
      corner point as a vertex, and extend by the given offsets. */
  lemma CornerBarsAnchored(x: int, y: int, dx: int, dy: int, width: int)
    ensures var bars := Overlay.Corner(x, y, dx, dy, width);
      && Overlay.Covers(bars[0], x, y) && Overlay.Covers(bars[1], x, y)
      && (bars[0].left == x || bars[0].right == x) && (bars[0].top == y || bars[0].bottom == y)
      && (bars[1].left == x || bars[1].right == x) && (bars[1].top == y || bars[1].bottom == y)
      && bars[0].Width() == KotlinInt.Abs(dx) && bars[0].Height() == KotlinInt.Abs(width)
      && bars[1].Width() == KotlinInt.Abs(width) && bars[1].Height() == KotlinInt.Abs(dy)
  {
  }

  /** `drawMountBoundsCorners`: with a positive length, each corner of the
      bounds (top-left, bottom-left, top-right, bottom-right) gets a bar
      running `length` along the horizontal edge and `width` into the
      bounds, and a bar running `width` into the bounds and `length` along
      the vertical edge. */
  lemma {:induction false} CornersPointInward(b: Rect, length: int, width: int)
    requires 0 < length && 0 <= width
    ensures var bars := Overlay.Corners(b, length, width);
      && bars[0] == Rect(b.left, b.top, b.left + length, b.top + width)
      && bars[1] == Rect(b.left, b.top, b.left + width, b.top + length)
      && bars[2] == Rect(b.left, b.bottom - width, b.left + length, b.bottom)
      && bars[3] == Rect(b.left, b.bottom - length, b.left + width, b.bottom)
      && bars[4] == Rect(b.right - length, b.top, b.right, b.top + width)
      && bars[5] == Rect(b.right - width, b.top, b.right, b.top + length)
      && bars[6] == Rect(b.right - length, b.bottom - width, b.right, b.bottom)
      && bars[7] == Rect(b.right - width, b.bottom - length, b.right, b.bottom)
  {
    var bars := Overlay.Corners(b, length, width);
    var c0 := Overlay.Corner(b.left, b.top, length, length, width);
    var c1 := Overlay.Corner(b.left, b.bottom, length, -length, width);
    var c2 := Overlay.Corner(b.right, b.top, -length, length, width);
    var c3 := Overlay.Corner(b.right, b.bottom, -length, -length, width);
    assert bars == c0 + c1 + c2 + c3;
    assert bars[0] == c0[0] && bars[1] == c0[1];
    assert bars[2] == c1[0] && bars[3] == c1[1];
    assert bars[4] == c2[0] && bars[5] == c2[1];
    assert bars[6] == c3[0] && bars[7] == c3[1];
  }

  /** The debug build's highlight stays inside the glyph's bounds when they
      are large enough for the corner stroke. */
  lemma {:induction false} DrawnOverlayWithinBounds(b: Rect, px: Overlay.PixelSizes)
    requires Overlay.Plausible(px)
    requires px.cornerStroke <= b.Width() && px.cornerStroke <= b.Height()
    ensures var h := Overlay.HighlightMountBounds(b, px);
      && Overlay.Within(h.border, b)
      && forall i :: 0 <= i < |h.corners| ==> Overlay.Within(h.corners[i], b)
  {
    Overlay.HighlightWithinBounds(b, px);
  }
}

=== FILE: round_trip.dfy ===
/** The code path from the font build to the drawable: the literal the
    build writes for a glyph, read back by the app's code cache and by the
    asset metadata parse. */
module Pipeline {
  import opened Wrappers
  import opened Text
  import opened Hex
  import Json
  import Export
  import CodeCache
  import Assets
  import IconText

  /** A glyph code that is not printable ASCII (every private-use code
      point is one) comes back as the same character. */
  lemma LiteralDecodes(u: CodeUnit)
    requires !IsPrintableAscii(u)
    ensures CodeCache.DecodeCode(Export.UnicodeLiteral([u])) == Ok([u])
  {
    Export.SingleUnitLiteral(u);
    CodeCache.DecodeDigits(Export.UnicodeLiteral([u]));
  }

  /** A printable code is copied, not escaped, so it is read back as a
      different number: the literal of `A` is `a`, which decodes to U+000A. */
  lemma PrintableMisread()
    ensures CodeCache.DecodeCode(Export.UnicodeLiteral(['A' as int])) == Ok([10])
  {
    Export.PrintableCopied(['A' as int]);
    assert Export.UnicodeLiteral(['A' as int]) == ['a' as int];
    CodeCache.DecodeDigits(['a' as int]);
    assert HexValue(['a' as int]) == HexValue([]) * 16 + 10;
  }

  /** With every code unit escaped, any single code unit, printable or not,
      comes back as itself. */
  lemma HexLiteralDecodes(u: CodeUnit)
    ensures CodeCache.DecodeCode(Export.HexLiteral([u])) == Ok([u])
  {
    Export.SingleUnitHexLiteral(u);
    CodeCache.DecodeDigits(Export.HexLiteral([u]));
  }

  /** The value of a numeral split in two. */
  lemma {:induction false} HexValueConcat(a: JString, b: JString)
    requires AllHexDigits(a) && AllHexDigits(b)
    ensures AllHexDigits(a + b) && HexValue(a + b) == HexValue(a) * Pow16(|b|) + HexValue(b)
    decreases |b|
  {
    if b == [] {
      assert a + b == a;
    } else {
      var init := b[..|b| - 1];
      var d := b[|b| - 1];
      assert AllHexDigits(init) && IsHexDigit(d);
      assert b == init + [d];
      assert a + b == (a + init) + [d];
      HexValueConcat(a, init);
      HexValueAppend(a + init, d);
      var x, p, y := HexValue(a), Pow16(|init|), HexValue(init);
      assert Pow16(|b|) == 16 * p;
      assert HexValue(b) == y * 16 + DigitValue(d);
      ScaleSum(x, p, y);
    }
  }

  lemma ScaleSum(x: int, p: int, y: int)
    ensures (x * p + y) * 16 == x * (16 * p) + y * 16
  {
  }

  /** A code point above U+FFFF reaches the build as a surrogate pair; its
      eight-digit literal exceeds the 32-bit range and cannot be decoded. */
  lemma SurrogatePairRejected(hi: CodeUnit, lo: CodeUnit)
    requires 0xD800 <= hi <= 0xDBFF && 0xDC00 <= lo <= 0xDFFF
    ensures CodeCache.DecodeCode(Export.UnicodeLiteral([hi, lo])).Err?
  {
    var s := Export.UnicodeLiteral([hi, lo]);
    PairLiteralValue(hi, lo);
    assert HexValue(s) > IntMax;
  }

  /** The literal of a pair of non-printable units is eight digits whose
      value is the two units side by side. */
  lemma PairLiteralValue(hi: CodeUnit, lo: CodeUnit)
    requires !IsPrintableAscii(hi) && !IsPrintableAscii(lo)
    ensures var s := Export.UnicodeLiteral([hi, lo]);
      |s| == 8 && AllHexDigits(s) && HexValue(s) == hi * 0x1_0000 + lo
  {
    Export.SingleUnitLiteral(hi);
    Export.SingleUnitLiteral(lo);
    var a := Export.UnicodeLiteral([hi]);
    var b := Export.UnicodeLiteral([lo]);
    LiteralAppend([hi], [lo]);
    assert [hi] + [lo] == [hi, lo];
    HexValueConcat(a, b);
    assert Pow16(4) == 0x1_0000;
  }

  /** The literal of a concatenation is the concatenation of the literals. */
  lemma LiteralAppend(x: JString, y: JString)
    ensures Export.UnicodeLiteral(x + y) == Export.UnicodeLiteral(x) + Export.UnicodeLiteral(y)
  {
    Export.EscapedAppend(x, y);
    LowerAppend(Export.Escaped(x), Export.Escaped(y));
  }

  /** As written, the metadata parse looks each glyph name up in the root
      of the manifest, which holds only `icons`, `version` and `fonts`: a
      manifest with any other glyph name yields no metadata at all, so
      every asset lookup fails. */
  lemma RootLookupLosesIcons(m: Export.Manifest, k: JString)
    requires k in m.icons
    requires k !in {Units("icons"), Units("version"), Units("fonts")}
    ensures Assets.ParseMetadata(Export.ManifestJson(m)).None?
  {
    var v := Export.ManifestJson(m);
    assert k in v.members[Units("icons")].members;
    assert !Assets.Decodes(v.members, k);
  }

  /** The same for the manifest the font build writes. */
  lemma BuiltManifestLosesIcons(glyphs: seq<Export.Glyph>, args: Export.Args, i: nat)
    requires i < |glyphs|
    requires glyphs[i].name !in {Units("icons"), Units("version"), Units("fonts"), Export.ProtoName}
    ensures Assets.ParseMetadata(Export.ManifestJson(Export.ExportGlyphs(glyphs, args))).None?
  {
    var m := Export.ExportGlyphs(glyphs, args);
    assert glyphs[i].name in m.icons.Keys;
    RootLookupLosesIcons(m, glyphs[i].name);
  }

  /** As written, a process that starts with an empty metadata slot gets no
      drawable for any name from a manifest the font build wrote, whatever
      the typeface does. */
  lemma BuiltManifestGivesNoDrawable(glyphs: seq<Export.Glyph>, args: Export.Args, i: nat,
                                     tf: Assets.TypefaceSlot, load: Option<IconText.Typeface>,
                                     name: JString, stateId: nat)
    requires i < |glyphs|
    requires glyphs[i].name !in {Units("icons"), Units("version"), Units("fonts"), Export.ProtoName}
    ensures var file := Some(Export.ManifestJson(Export.ExportGlyphs(glyphs, args)));
      Assets.GetAssetIconDrawable(Assets.MetadataSlot(None), tf, file, load, name, stateId).2.None?
  {
    BuiltManifestLosesIcons(glyphs, args, i);
  }

  /** With codes read from `icons`, a manifest whose every literal is a
      hexadecimal number within range comes back as the table of decoded
      characters, name for name. */
  lemma IconsRoundTrip(m: Export.Manifest)
    requires forall k :: k in m.icons ==> ParseInt16(m.icons[k]).Ok?
    ensures var r := Assets.ParseIcons(Export.ManifestJson(m));
      && r.Some?
      && r.value.Keys == m.icons.Keys
      && forall k :: k in m.icons ==> r.value[k] == ToChar(ParseInt16(m.icons[k]).value)
  {
    var v := Export.ManifestJson(m);
    var icons := v.members[Units("icons")].members;
    assert forall k :: k in icons ==> Json.StringForm(icons[k]) == m.icons[k];
  }

  /** Every glyph is a single code unit that is not printable ASCII. */
  predicate SingleUnitGlyphs(glyphs: seq<Export.Glyph>) {
    forall i :: 0 <= i < |glyphs| ==> |glyphs[i].codePoint| == 1 && !IsPrintableAscii(glyphs[i].codePoint[0])
  }

  /** The literal of a single non-printable unit parses to that unit. */
  lemma SingleUnitParses(s: JString)
    requires |s| == 1 && !IsPrintableAscii(s[0])
    ensures ParseInt16(Export.UnicodeLiteral(s)) == Ok(s[0])
  {
    assert s == [s[0]];
    LiteralDecodes(s[0]);
    Export.SingleUnitLiteral(s[0]);
  }

  /** Every literal the font build writes for single-unit glyphs parses. */
  lemma AllLiteralsParse(glyphs: seq<Export.Glyph>, args: Export.Args)
    requires SingleUnitGlyphs(glyphs)
    ensures var m := Export.ExportGlyphs(glyphs, args);
      forall k :: k in m.icons ==> ParseInt16(m.icons[k]).Ok?
  {
    var m := Export.ExportGlyphs(glyphs, args);
    forall k | k in m.icons
      ensures ParseInt16(m.icons[k]).Ok?
    {
      var i := Export.ExportedFromGlyph(glyphs, args, k);
      SingleUnitParses(glyphs[i].codePoint);
    }
  }

  /** The literal kept for a glyph's name parses to the glyph's code unit. */
  lemma GlyphParses(glyphs: seq<Export.Glyph>, args: Export.Args, i: nat)
    requires SingleUnitGlyphs(glyphs) && i < |glyphs| && glyphs[i].name != Export.ProtoName
    requires forall j :: i < j < |glyphs| ==> glyphs[j].name != glyphs[i].name
    ensures var m := Export.ExportGlyphs(glyphs, args);
      glyphs[i].name in m.icons && ParseInt16(m.icons[glyphs[i].name]) == Ok(glyphs[i].codePoint[0])
  {
    Export.LastGlyphExported(glyphs, args, i);
    SingleUnitParses(glyphs[i].codePoint);
  }

  /** From the font build to the corrected metadata parse: every glyph name
      is present and maps to its glyph's code unit (the last glyph's, when
      a name repeats). */
  lemma ManifestRoundTrip(glyphs: seq<Export.Glyph>, args: Export.Args)
    requires SingleUnitGlyphs(glyphs)
    ensures var r := Assets.ParseIcons(Export.ManifestJson(Export.ExportGlyphs(glyphs, args)));
      && r.Some?
      && r.value.Keys == (set i | 0 <= i < |glyphs| :: glyphs[i].name) - {Export.ProtoName}
      && forall i :: 0 <= i < |glyphs| && glyphs[i].name != Export.ProtoName && (forall j :: i < j < |glyphs| ==> glyphs[j].name != glyphs[i].name) ==>
           glyphs[i].name in r.value && r.value[glyphs[i].name] == glyphs[i].codePoint[0]
  {
    var m := Export.ExportGlyphs(glyphs, args);
    AllLiteralsParse(glyphs, args);
    IconsRoundTrip(m);
    var r := Assets.ParseIcons(Export.ManifestJson(m));
    forall i | 0 <= i < |glyphs| && glyphs[i].name != Export.ProtoName && (forall j :: i < j < |glyphs| ==> glyphs[j].name != glyphs[i].name)
      ensures glyphs[i].name in r.value && r.value[glyphs[i].name] == glyphs[i].codePoint[0]
    {
      var k := glyphs[i].name;
      GlyphParses(glyphs, args, i);
      assert k in m.icons && ParseInt16(m.icons[k]) == Ok(glyphs[i].codePoint[0]);
      assert r.value[k] == ToChar(glyphs[i].codePoint[0]);
    }
    assert r.value.Keys == m.icons.Keys;
  }

  /** With the corrected parse, a process that starts with an empty
      metadata slot finds every glyph of the font build under its name. */
  lemma CorrectedMetadataFindsGlyphs(glyphs: seq<Export.Glyph>, args: Export.Args, i: nat)
    requires SingleUnitGlyphs(glyphs) && i < |glyphs| && glyphs[i].name != Export.ProtoName
    requires forall j :: i < j < |glyphs| ==> glyphs[j].name != glyphs[i].name
    ensures var file := Some(Export.ManifestJson(Export.ExportGlyphs(glyphs, args)));
      var codes := Assets.AssetMetadataCorrected(Assets.MetadataSlot(None), file).1;
      glyphs[i].name in codes && codes[glyphs[i].name] == glyphs[i].codePoint[0]
  {
    ManifestRoundTrip(glyphs, args);
  }
}

=== FILE: text.dfy ===
/** Strings as the JVM and JavaScript see them: sequences of UTF-16 code
    units. Dafny's `char` cannot hold a lone surrogate, so a code unit is an
    integer in [0, 0x10000). */
module Text {

  type CodeUnit = u: int | 0 <= u < 0x1_0000

  type JString = seq<CodeUnit>

  const MinPrintable: CodeUnit := 32
  const MaxPrintable: CodeUnit := 126

  /** The code units of an ASCII literal written in Dafny syntax. */
  function Units(s: string): (r: JString)
    requires forall i :: 0 <= i < |s| ==> s[i] as int < 128
    ensures |r| == |s|
    ensures forall i :: 0 <= i < |s| ==> r[i] == s[i] as int
  {
    if s == [] then [] else [s[0] as int as CodeUnit] + Units(s[1..])
  }

  predicate IsUpperAscii(u: CodeUnit) {
    'A' as int <= u <= 'Z' as int
  }

  predicate IsPrintableAscii(u: CodeUnit) {
    MinPrintable <= u <= MaxPrintable
  }

  /** Lower-cases one code unit; only the ASCII letters A-Z change. */
  function LowerUnit(u: CodeUnit): (r: CodeUnit)
    ensures !IsUpperAscii(r)
    ensures !IsUpperAscii(u) ==> r == u
    ensures IsUpperAscii(u) ==> r - u == 'a' as int - 'A' as int
  {
    if IsUpperAscii(u) then u + ('a' as int - 'A' as int) else u
  }

  /** Lower-cases a string code unit by code unit. */
  function Lower(s: JString): (r: JString)
    ensures |r| == |s|
    ensures forall i :: 0 <= i < |s| ==> r[i] == LowerUnit(s[i])
  {
    seq(|s|, i requires 0 <= i < |s| => LowerUnit(s[i]))
  }

  lemma LowerAppend(a: JString, b: JString)
    ensures Lower(a + b) == Lower(a) + Lower(b)
  {
  }
}

=== FILE: tint.dfy ===
/** Colour filters, tint modes and colour state lists as the glyph drawable
    uses them. */
module Tint {
  import opened Wrappers
  import opened KotlinInt

  /** `PorterDuff.Mode`. */
  datatype PorterDuffMode =
    | Clear | Src | Dst | SrcOver | DstOver | SrcIn | DstIn | SrcOut | DstOut
    | SrcAtop | DstAtop | Xor | Darken | Lighten | Multiply | Screen | Add | Overlay

  /** The six modes the `tintMode` attribute can name. */
  predicate IsAttributeMode(m: PorterDuffMode) {
    m in {SrcOver, SrcIn, SrcAtop, Multiply, Screen, Add}
  }

  /** The enum value the `tintMode` attribute stores for each mode. */
  function AttributeValue(m: PorterDuffMode): Option<int> {
    match m
    case SrcOver => Some(3)
    case SrcIn => Some(5)
    case SrcAtop => Some(9)
    case Multiply => Some(14)
    case Screen => Some(15)
    case Add => Some(16)
    case _ => None
  }

  /** `parseTintMode`: the mode an attribute value names; any value the
      attribute does not define yields `SRC_IN`. */
  function ParseTintMode(value: int): (m: PorterDuffMode)
    ensures IsAttributeMode(m)
    ensures value !in {3, 9, 14, 15, 16} ==> m == SrcIn
  {
    if value == 3 then SrcOver
    else if value == 5 then SrcIn
    else if value == 9 then SrcAtop
    else if value == 14 then Multiply
    else if value == 15 then Screen
    else if value == 16 then Add
    else SrcIn
  }

  /** Parsing inverts the attribute encoding, in both directions. */
  lemma ParseTintModeInverts(m: PorterDuffMode, v: int)
    ensures IsAttributeMode(m) <==> AttributeValue(m).Some?
    ensures IsAttributeMode(m) ==> ParseTintMode(AttributeValue(m).value) == m
    ensures v in {3, 5, 9, 14, 15, 16} ==> AttributeValue(ParseTintMode(v)) == Some(v)
  {
  }

  /** `ColorStateList`: (state spec, colour) pairs tried in order. A spec
      entry `s > 0` requires state `s`, `s < 0` forbids state `-s`; an empty
      spec matches every state set. */
  datatype ColorStateList = ColorStateList(entries: seq<(seq<int>, int)>)

  predicate SpecMatches(spec: seq<int>, states: set<int>) {
    forall k :: 0 <= k < |spec| ==>
      (spec[k] > 0 ==> spec[k] in states) && (spec[k] < 0 ==> -spec[k] !in states)
  }

  /** `getColorForState(states, default)`: the colour of the first matching
      entry. */
  function ColorForState(csl: ColorStateList, states: set<int>, default: int): (c: int)
    ensures (forall i :: 0 <= i < |csl.entries| ==> !SpecMatches(csl.entries[i].0, states)) ==> c == default
    ensures csl.entries != [] && SpecMatches(csl.entries[0].0, states) ==> c == csl.entries[0].1
    decreases |csl.entries|
  {
    if csl.entries == [] then default
    else if SpecMatches(csl.entries[0].0, states) then csl.entries[0].1
    else ColorForState(ColorStateList(csl.entries[1..]), states, default)
  }

  /** `ColorStateList.valueOf(color)`: one colour for every state. */
  function ValueOf(color: int): (csl: ColorStateList)
    ensures forall states :: ColorForState(csl, states, 0) == color
  {
    ColorStateList([([], color)])
  }

  /** A colour filter: a tint (`PorterDuffColorFilter`, compared by colour
      and mode) or any other filter set from outside. */
  datatype ColorFilter = PorterDuffFilter(color: int, mode: PorterDuffMode) | OtherFilter(id: nat)

  const Transparent: int := 0
  /** `Color.WHITE` as a signed 32-bit `Int`. */
  const White: int := -1

  // ---------------------------------------------------------------------
  // ARGB colours: alpha in the top byte, red, green and blue below it

  /** The 32 bits of a colour, read as unsigned. */
  function Bits(c: int): (u: int)
    ensures 0 <= u < 0x1_0000_0000 && (c - u) % 0x1_0000_0000 == 0
  {
    c % 0x1_0000_0000
  }

  /** The `Int` a 32-bit pattern denotes. */
  function FromBits(u: int): (c: int)
    requires 0 <= u < 0x1_0000_0000
    ensures IntMin <= c <= IntMax && Bits(c) == u
  {
    if u <= IntMax then u else u - 0x1_0000_0000
  }

  /** `Color.alpha(c)`, i.e. `c ushr 24`. */
  function AlphaOf(c: int): (a: int)
    ensures 0 <= a < 256
  {
    Bits(c) / 0x100_0000
  }

  /** The red, green and blue bytes, `c and 0xFFFFFF`. */
  function RgbOf(c: int): (rgb: int)
    ensures 0 <= rgb < 0x100_0000
  {
    Bits(c) % 0x100_0000
  }

  /** `Paint.setAlpha(a)` on a paint of colour `c`: the colour's top byte
      becomes `a and 0xFF`, the other three bytes stay. */
  function WithAlpha(c: int, a: int): (r: int)
    ensures IntMin <= r <= IntMax
    ensures AlphaOf(r) == a % 256
    ensures RgbOf(r) == RgbOf(c)
  {
    FromBits((a % 256) * 0x100_0000 + RgbOf(c))
  }

  /** An `Int` colour is determined by its alpha and its other three
      bytes. */
  lemma ColorFromParts(x: int, y: int)
    requires IntMin <= x <= IntMax && IntMin <= y <= IntMax
    requires AlphaOf(x) == AlphaOf(y) && RgbOf(x) == RgbOf(y)
    ensures x == y
  {
    assert Bits(x) == AlphaOf(x) * 0x100_0000 + RgbOf(x);
    assert Bits(y) == AlphaOf(y) * 0x100_0000 + RgbOf(y);
  }

  /** Writing back the alpha a colour already has changes nothing, and a
      later alpha replaces an earlier one. */
  lemma WithAlphaLaws(c: int, a: int, b: int)
    ensures IntMin <= c <= IntMax ==> WithAlpha(c, AlphaOf(c)) == c
    ensures WithAlpha(WithAlpha(c, a), b) == WithAlpha(c, b)
  {
    if IntMin <= c <= IntMax {
      ColorFromParts(WithAlpha(c, AlphaOf(c)), c);
    }
    ColorFromParts(WithAlpha(WithAlpha(c, a), b), WithAlpha(c, b));
  }
}

=== FILE: wrappers.dfy ===
/** Failure-carrying datatypes shared by every module of the model: `Option`
    stands for a Kotlin/JavaScript nullable value, `Result` for a call that
    either returns or throws. */
module Wrappers {

  datatype Option<+T> = None | Some(value: T) {

    /** The value, or `default` when absent (Kotlin's `?:`). */
    function GetOr(default: T): T {
      match this
      case Some(v) => v
      case None => default
    }
  }

  datatype Result<+R, +E> = Ok(value: R) | Err(error: E) {

    predicate IsFailure() {
      Err?
    }

    function PropagateFailure<U>(): Result<U, E>
      requires Err?
    {
      Err(error)
    }

    function Extract(): R
      requires Ok?
    {
      value
    }
  }
}
